=== FILE: README.md ===
# Talent Track, modelled in Dafny

Talent Track is a browser application for athletes and their coaches. This
project models its core as pure functions over immutable records, and proves
properties of them.

- **The progression engine.** It covers challenge progress and completion,
  the per-badge unlock table with its two cumulative counters, the direct badge
  primitives, and the seed catalog. Each engine call returns the new badge and
  challenge lists plus a reward delta: XP, coins, a streak increment and the
  badges the call unlocked.
- **The session and profile manager.** It covers `login`, `signup` against a
  case-insensitive account registry, `logout`, and `updateUser`, which is a
  shallow merge plus the coin-gain notification, the registry write-back and
  the gender-driven default avatar.
- **The browser key-value store.** It is modelled as an abstract map from keys
  to parsed JSON values, with the typed save and load helpers. JSON encoding
  and decoding of the three record types are proved to round-trip.
- **The small decision functions of the shell and pages.** These are:
  - the five-step tutorial;
  - the onboarding survey's submit and skip;
  - the route guards and the first-run overlays;
  - the athlete's challenge board, with its type tabs, the running-challenge
    update rule and the activity fallback;
  - the coach's badge and athlete searches.

Modules follow the program's structure:

| module | file | models |
|---|---|---|
| `Common` | common.dfy | optional values, `Math.min`, ASCII case, `includes`, `split`, `parseInt`, JavaScript `%` |
| `Seqs` | seqs.dfy | `filter`, `find` and counting, with their reference specifications |
| `Domain` | domain.dfy | the user, badge and challenge records |
| `Json`, `Codec` | json.dfy, codec.dfy | parsed JSON values and the record encodings |
| `Storage` | storage.dfy | `src/utils/storage.ts` |
| `Catalog` | catalog.dfy | `getInitialBadges`, `getInitialChallenges` |
| `Game`, `GameLaws` | game.dfy, game_laws.dfy | the engine in `src/contexts/GameContext.tsx` and the laws relating its calls |
| `Auth` | auth.dfy | `src/contexts/AuthContext.tsx` |
| `Tutorial`, `Onboarding` | tutorial.dfy, onboarding.dfy | the two first-run overlays |
| `App` | app.dfy | `src/App.tsx` |
| `ChallengesPage`, `CoachBadges`, `CoachAthletes` | challenges_page.dfy, coach_badges.dfy, coach_athletes.dfy | the three pages |

The model follows the code where it departs from what a reader of the
application would expect:

- `updateProgress` stores `min(p, maxProgress)`. The stored value has no floor at
  the current progress, so it is not a high-water mark. A lower value re-opens a
  completed challenge, and reaching the target again pays a second time
  (`GameLaws.UpdateProgressCanReopen`).
- The seed catalog holds 38 badges (6, 8, 8, 8, 8), not 30. `ultimate-athlete`
  targets 29 (`Catalog.InitialBadgeCounts`, `Catalog.UltimateAthleteTarget`).
- The level is never recomputed from XP. Sign-up and login set it to 1, and
  nothing changes it.
- `updateBadgeProgress` does not keep "unlocked implies full"
  (`Game.UpdateBadgeProgressCanEmptyUnlocked`).
- Several rewards produced by one engine call overwrite one another; they do
  not add up. The model returns the reward of the last challenge the call
  completes.
- A press on the running challenge that completes it loses the challenge's
  reward. The engine's reward update and the page's bonus update are both
  built from the same pre-press user, so the bonus replaces the engine's
  payment. The user ends with the bonus alone
  (`ChallengesPage.CompletingPressLosesEngineReward`).

Parameters stand in for what the code reads from outside:

- The two `Date.now()` readings are `t1` (the id) and `t2` (the avatar seed).
- `Math.random()` in the avatar colour is `roll`, in 0..5.
- `localStorage` is the `Store` value. Its `available` flag says whether
  access succeeds. The guarded helpers swallow a refusal. The session
  manager reads and writes the account registry directly, so a refusal there
  makes the call throw (`Auth.Signup`, `Auth.UpdateUser`).
- The table of states and districts is a parameter of `Onboarding.Districts`.

## Model

| member | source | states |
|---|---|---|
| Game.Accumulate | src/contexts/GameContext.tsx:295-323 | a cumulative counter adds the count capped at the target, and unlocks exactly when progress plus count reaches the target |
| Game.EvaluateBadge | src/contexts/GameContext.tsx:251-325 | an unlocked badge is never touched; a locked badge unlocks exactly when the unlock table's rule for its id fires (always for day-one-champ and video-verified, pushup or situp for rookie-runner, pushup with count at least 50 for pushup-pro, situp with count at least 100 for iron-core, endurance for stamina-starter, shuttle for sprint-rookie, reaching the target for iron-arms and abs-of-steel); an unlocked result is full; a badge left locked keeps its progress unless it is a counter |
| Game.CheckBadgeUnlocks | src/contexts/GameContext.tsx:247-329 | every badge is evaluated in place, unlocked badges are unchanged, and the returned list holds exactly the badges that went from locked to unlocked, in catalog order, each full |
| Game.EvaluateMonotone | src/contexts/GameContext.tsx:295-323 | for a non-negative count, evaluation keeps a badge well formed, never lowers its progress and never re-locks it |
| Game.CheckBadgeUnlocksMonotone | src/contexts/GameContext.tsx:250-326 | the same for the whole list: well-formedness kept, progress never lower, unlocked stays unlocked |
| Game.NewlyUnlockedAfterUnlock | src/contexts/GameContext.tsx:251 | a badge the second identical event reports was still locked after the first, so no badge is reported twice |
| Game.NewlyUnlocked | src/contexts/GameContext.tsx:281-298 | every reported badge belongs to the new list and is unlocked |
| Game.UnlockBadge | src/contexts/GameContext.tsx:162-166 | the badges with the id become unlocked and full with their definition unchanged; every other badge is unchanged |
| Game.UnlockBadgeIdempotent | src/contexts/GameContext.tsx:162-166 | unlocking twice equals unlocking once |
| Game.UnlockBadgeKeepsWellFormed | src/contexts/GameContext.tsx:162-166 | unlocking keeps every badge well formed |
| Game.UpdateBadgeProgress | src/contexts/GameContext.tsx:209-215 | the badges with the id get the new progress capped at their target, with the unlocked flag and definition unchanged; every other badge is unchanged |
| Game.UpdateBadgeProgressCanEmptyUnlocked | src/contexts/GameContext.tsx:209-215 | setting progress 0 on a full unlocked badge breaks "unlocked implies full" |
| Game.Award | src/contexts/GameContext.tsx:173-195 | with no completing challenge the reward and badges are unchanged; otherwise the streak increment is 1 and the XP and coins are those of the last completing challenge |
| Game.UpdateProgress | src/contexts/GameContext.tsx:168-207 | a challenge with the id stores the new progress capped at its target and is completed exactly when the new value reaches the target; other challenges are unchanged; a reward, with streak increment 1, is paid only by a challenge that goes from open to completed, and otherwise the reward is zero and the badges are untouched |
| Game.CompleteChallenge | src/contexts/GameContext.tsx:217-245 | every open challenge with the id becomes completed at its target and pays its reward; completed and other challenges are unchanged; with no open challenge of that id nothing changes and nothing is paid |
| GameLaws.UpdateProgressUnique | src/contexts/GameContext.tsx:168-207 | with distinct ids, the reward is the target's XP and coins, with streak 1 and the badge check run at the target's maximum, exactly when it was open and the value reaches its target; otherwise the reward is zero and the badges are unchanged |
| GameLaws.CompleteChallengeUnique | src/contexts/GameContext.tsx:217-245 | with distinct ids, an open target is completed at its maximum, pays its reward and runs the badge check with its maximum; a completed target gives a no-op |
| GameLaws.UnknownChallengeIsNoOp | src/contexts/GameContext.tsx:168-245 | both calls with an id that names no challenge change nothing and pay nothing |
| GameLaws.UpdateProgressRepeat | src/contexts/GameContext.tsx:173-204 | repeating the same progress report pays nothing and changes nothing |
| GameLaws.CompleteChallengeIdempotent | src/contexts/GameContext.tsx:222-242 | a second completion pays nothing and changes nothing |
| GameLaws.CompleteIsProgressToTarget | src/contexts/GameContext.tsx:168-245 | on a well-formed list with distinct ids, completing a challenge equals reporting progress equal to its target |
| GameLaws.UpdateProgressCanReopen | src/contexts/GameContext.tsx:175-177 | a lower report re-opens a completed challenge, and reaching the target again pays the reward again |
| GameLaws.UpdateProgressKeepsWellFormed | src/contexts/GameContext.tsx:173-204 | for any report on well-formed lists (challenge well-formedness has no lower bound on progress, since the code stores a negative report as it is) both lists stay well formed and no badge loses progress |
| GameLaws.CompleteChallengeKeepsWellFormed | src/contexts/GameContext.tsx:222-242 | completion keeps both lists well formed and no badge loses progress |
| Catalog.InitialBadgeCounts | src/contexts/GameContext.tsx:360-864 | the seed catalog has 38 badges, 6 consistency and 8 each of strength, endurance, speed and special, all locked with progress 0 and a positive target |
| Catalog.InitialBadgeIdsDistinct | src/contexts/GameContext.tsx:360-864 | each seed badge's id names its own position, so the 38 ids are distinct |
| Catalog.UltimateAthleteTarget | src/contexts/GameContext.tsx:852-863 | the last badge is ultimate-athlete with target 29 |
| Catalog.InitialChallengesSeeded | src/contexts/GameContext.tsx:866-939 | the five seed challenges have distinct ids and start open with progress 0 and a positive target |
| Auth.Restore | src/contexts/AuthContext.tsx:40-52 | start-up restores the saved user, if any, with every overlay, error and notification cleared |
| Auth.ColorIndex | src/contexts/AuthContext.tsx:200 | the colour index is `parseInt(id) % 6` with JavaScript's truncating remainder, NaN for an id that is not a numeral, and the random roll for an empty id |
| Auth.Fill | src/contexts/AuthContext.tsx:203 | a colour index 0..5 picks its fill from the palette, and any other index falls back to indigo |
| Auth.Initial | src/contexts/AuthContext.tsx:198 | the monogram letter is the upper-cased first character, or nothing for an empty name |
| Auth.MonogramParts | src/contexts/AuthContext.tsx:201-206 | the generated picture is an SVG data URL from which its fill and letter can be read back |
| Auth.DefaultAvatar | src/contexts/AuthContext.tsx:191-208 | male and female get the two stock pictures; any other gender gets a monogram coloured by the id |
| Auth.DefaultAvatarReplaceable | src/contexts/AuthContext.tsx:154 | a generated avatar is one the gender rule may later replace, and a stock picture is not |
| Auth.ClockAvatarColour | src/contexts/AuthContext.tsx:200 | with a clock reading as the id, the colour is the reading modulo 6 |
| Auth.NewProfile | src/contexts/AuthContext.tsx:104-118 | a new profile is not onboarded and incomplete; an athlete starts with 0 XP, level 1, 50 coins and streak 0; a coach has none of these fields |
| Auth.Login | src/contexts/AuthContext.tsx:54-84 | login never fails and never reads the registry; the user has the lower-cased email, the part before the first `@` as name, a monogram avatar, and is saved to the store |
| Auth.LoginThenRestore | src/contexts/AuthContext.tsx:46-52 | a login is saved, so the next start-up restores the same user; with the store refused the next start-up finds no user |
| Auth.EmailNameIsPrefix | src/contexts/AuthContext.tsx:62 | the derived name is the email's prefix up to, not including, its first `@` |
| Auth.Signup | src/contexts/AuthContext.tsx:86-142 | sign-up is rejected exactly when the store refuses access or the registry holds the email ignoring case; a refused store only clears the error, and a taken email only sets it; otherwise the new profile is appended to the end of the registry, its password recorded, the user saved, and the tutorial opened exactly for an athlete |
| Auth.SignupTwiceRejected | src/contexts/AuthContext.tsx:91-102 | after a successful sign-up, signing up again with the same email in any letter case is rejected |
| Auth.SignupIgnoresCase | src/contexts/AuthContext.tsx:92-94 | upper-casing the email does not change whether sign-up is rejected |
| Auth.Logout | src/contexts/AuthContext.tsx:144-149 | logout clears the user, both overlays and the error, and leaves the stores alone |
| Auth.LogoutThenRestore | src/contexts/AuthContext.tsx:46-52 | logout does not remove the saved profile, so the next start-up restores the same user |
| Auth.MergeLaws | src/contexts/AuthContext.tsx:158 | merging the empty update changes nothing, merging an update twice equals once, and two merges equal one merge of the combined update |
| Auth.MergeFullPatch | src/contexts/AuthContext.tsx:158 | an update carrying every present field of a profile turns any compatible profile into it |
| Auth.WithGenderAvatar | src/contexts/AuthContext.tsx:153-156 | a non-empty gender on a user whose avatar is the placeholder or a generated monogram replaces the avatar by the default for that gender; otherwise the update is unchanged |
| Auth.CoinGain | src/contexts/AuthContext.tsx:160-164 | a gain is announced exactly when both coin counts are non-zero and the new one is larger, and it is the difference |
| Auth.ReplaceById | src/contexts/AuthContext.tsx:170-173 | every registry entry with the id is replaced and every other entry is kept, with the length unchanged |
| Auth.UpdateUserRegistry | src/contexts/AuthContext.tsx:169-174 | after an update the registry keeps its length and other accounts; with the store available the current account's entries equal the new profile, and with the store refused the registry is left as it was |
| Auth.UpdateUserFields | src/contexts/AuthContext.tsx:151-158 | each field the update names is taken from it and each other field is kept |
| Auth.NoNotificationFromZero | src/contexts/AuthContext.tsx:161 | from zero coins no gain is announced, whatever the new count |
| Auth.UpdateUserPersists | src/contexts/AuthContext.tsx:166-167 | restoring from the store an update wrote yields the updated profile |
| Storage.StorageKeysDistinct | src/utils/storage.ts:60-65 | the four keys are distinct, and the registry key is not one of them |
| Storage.SaveToStorage | src/utils/storage.ts:67-73 | a successful save sets exactly its key; a failed save leaves the store unchanged |
| Storage.LoadFromStorage | src/utils/storage.ts:75-83 | a load returns the stored value, or null when the key is absent or the read fails |
| Storage.LoadAfterSave | src/utils/storage.ts:67-83 | a load after a save of the same key returns the saved value |
| Storage.SaveKeepsOtherKeys | src/utils/storage.ts:67-83 | a save does not change the load of any other key |
| Storage.LoadTutorialComplete | src/utils/storage.ts:113-115 | the tutorial flag is false when absent, and truthy exactly when the stored value is |
| Storage.TypedRoundTrips | src/utils/storage.ts:85-115 | each typed load after the matching save returns the saved user, badges, challenges or flag |
| Storage.UnavailableStore | src/utils/storage.ts:67-83 | with storage refused, every save is ignored and every load answers null or false |
| Storage.TypedSavesIndependent | src/utils/storage.ts:60-111 | saving one record leaves the loads of the other three unchanged |
| Storage.ClearStorage | src/utils/storage.ts:117-121 | clearing removes exactly the four keys and keeps every other entry |
| Storage.ClearKeepsRegistry | src/utils/storage.ts:117-121 | clearing keeps the account registry, and afterwards every typed load answers as for an empty store |
| Codec.UserRoundTrip | src/utils/storage.ts:85-91 | a stored profile reads back as the profile written |
| Codec.BadgeRoundTrip | src/utils/storage.ts:29-42 | a stored badge reads back as the badge written |
| Codec.ChallengeRoundTrip | src/utils/storage.ts:44-58 | a stored challenge reads back as the challenge written |
| Codec.ListRoundTrip | src/utils/storage.ts:93-107 | an element encoding that round-trips lifts to arrays of elements |
| Codec.BadgesRoundTrip | src/utils/storage.ts:93-99 | a stored badge list reads back as the list written |
| Codec.ChallengesRoundTrip | src/utils/storage.ts:101-107 | a stored challenge list reads back as the list written |
| Codec.DecodeUser | src/utils/storage.ts:89-91 | a profile is read back only from an object whose every field has the right shape |
| Json.Or | src/utils/storage.ts:114 | `x \|\| y` is the left value when truthy, else the right |
| Json.ObjectLookup | src/utils/storage.ts:69 | a serialised object holds a field exactly when the field has a value, and the value is read back under its name |
| Common.Min | src/contexts/GameContext.tsx:175 | the minimum is one of the two values and at most both |
| Common.LowerOfUpper | src/contexts/AuthContext.tsx:93 | lower-casing forgets an earlier upper-casing |
| Common.LowerIdempotent | src/contexts/AuthContext.tsx:93 | lower-casing twice equals once |
| Common.ContainsIffOccurs | src/pages/coach/CoachBadges.tsx:23-24 | the left-to-right substring search succeeds exactly when the needle occurs at some position |
| Common.EmptyIsContained | src/pages/coach/CoachBadges.tsx:23-24 | the empty search term occurs in every string |
| Common.SplitJoin | src/pages/athlete/Challenges.tsx:107 | splitting loses nothing: rejoining the pieces restores the string, and no piece holds the separator |
| Common.SplitPair | src/pages/athlete/Challenges.tsx:107 | splitting `a-b` where neither part holds `-` gives exactly the two parts |
| Common.SplitHead | src/contexts/AuthContext.tsx:62 | the first piece of a split is the prefix before the first separator |
| Common.ParseDecimal | src/contexts/AuthContext.tsx:200 | reading back a printed clock value gives the value |
| Common.JsRem | src/contexts/AuthContext.tsx:200 | JavaScript's remainder keeps the dividend's sign and agrees with the mathematical one on non-negative dividends |
| Seqs.FilterSpec | src/pages/coach/CoachBadges.tsx:22-27 | a filter keeps, in order, every element satisfying the predicate with its multiplicity, and nothing else |
| Seqs.FilterAppend | src/pages/athlete/Challenges.tsx:142 | filtering distributes over concatenation |
| Seqs.FindFirst | src/pages/coach/CoachBadges.tsx:29 | `find` succeeds exactly when some element satisfies the predicate, and returns the first such element |
| Tutorial.Action | src/components/Onboarding/Tutorial.tsx:14-50 | only the welcome step has no section to visit |
| Tutorial.Handle | src/components/Onboarding/Tutorial.tsx:55-74 | the step stays in 0..4; completion is signalled exactly for skip or for next on the last step; visit navigates and completes exactly on a step with an action, to that action's page; the step moves by one only through next or previous |
| Tutorial.NextPreviousInverse | src/components/Onboarding/Tutorial.tsx:55-67 | next and previous undo each other wherever both move the step |
| Tutorial.RunStaysInRange | src/components/Onboarding/Tutorial.tsx:11-74 | from a valid step, any sequence of inputs leaves the step valid |
| Tutorial.NextsComplete | src/components/Onboarding/Tutorial.tsx:55-61 | repeated next from a step reaches completion after exactly the number of remaining steps, and not earlier |
| Tutorial.OneActiveDot | src/components/Onboarding/Tutorial.tsx:103-105 | exactly one dot is active, the current step's |
| Tutorial.DoneDotsCount | src/components/Onboarding/Tutorial.tsx:103-105 | the number of dots marked done equals the current step |
| Onboarding.InitialForm | src/components/Onboarding/OnboardingSurvey.tsx:15-22 | the form starts with the user's name, or empty, and every other input empty |
| Onboarding.ChangeState | src/components/Onboarding/OnboardingSurvey.tsx:129 | choosing a state clears the district and keeps the other inputs |
| Onboarding.Districts | src/components/Onboarding/OnboardingSurvey.tsx:24-25 | the districts offered are those of the first table entry with the chosen name, or none |
| Onboarding.SubmitPatch | src/components/Onboarding/OnboardingSurvey.tsx:31-37 | the update carries the form's inputs, both completion flags set, and the bonus added to the current counts, and no other field |
| Onboarding.SubmitCompletesProfile | src/components/Onboarding/OnboardingSurvey.tsx:27-41 | after submitting, the profile holds the answers, is complete, and has exactly 100 more coins and 50 more XP, with missing counts read as 0; level, streak, id and email are unchanged |
| Onboarding.SubmitNotification | src/components/Onboarding/OnboardingSurvey.tsx:35 | the bonus is announced as 100 exactly when the previous coin count was present, non-zero and not -100 |
| Onboarding.SubmitGenderAvatar | src/components/Onboarding/OnboardingSurvey.tsx:32 | submitting a gender on a generated avatar gives the default picture for that gender, and an empty gender keeps the avatar |
| Onboarding.Skip | src/components/Onboarding/OnboardingSurvey.tsx:43-51 | skipping a mandatory survey, or without a user, changes nothing |
| Onboarding.SkipPaysNothing | src/components/Onboarding/OnboardingSurvey.tsx:44-49 | a skip marks onboarding done and the profile incomplete, changes no other field and raises no notification |
| App.ProtectedRoute | src/App.tsx:26-41 | a page is rendered exactly to a signed-in user of the required role, or of any role when none is required; without a user the redirect goes to sign-in, otherwise to the user's dashboard |
| App.PublicRoute | src/App.tsx:62-63 | the landing and sign-in pages render exactly for visitors, and a signed-in user goes to their dashboard |
| App.Lookup | src/App.tsx:60-123 | a location finds the table entry whose path equals the location lower-cased and stripped of trailing slashes, or no entry when there is none |
| App.NormalizeMatches | src/App.tsx:60-123 | a table path matches a location as the router does, ignoring letter case and any number of trailing slashes, exactly when the location's normal form is that path |
| App.LookupIsRouterMatch | src/App.tsx:60-123 | the entry a location finds is one the router matches it to, and any entry the router matches is the one found |
| App.CaseAndSlashIgnored | src/App.tsx:60-123 | upper-casing a location, or adding a trailing slash to it, does not change what the user is shown |
| App.RenderRespectsAccess | src/App.tsx:26-123 | a rendered public page means no user is signed in, and a rendered protected page means a user of its role is |
| App.RedirectTargets | src/App.tsx:62-102 | the sign-in page and the two dashboards resolve under their own guards |
| App.RedirectSettles | src/App.tsx:32-102 | wherever a redirect leads, the same user gets a rendered page there |
| App.OwnPagesRender | src/App.tsx:66-122 | a signed-in user sees every page of their own role, and every other table path sends them to their dashboard |
| App.TablePathResolves | src/App.tsx:26-123 | every table path shows its page under its own guard: a public page through the public guard, a protected page through the protected guard with its role |
| App.RouteLookup | src/App.tsx:60-123 | every table path finds its own entry |
| App.TutorialComplete | src/App.tsx:46-52 | closing the tutorial hides it, saves the flag as true, and opens the survey exactly when the user's onboarding is not complete |
| App.OnboardingComplete | src/App.tsx:54-56 | finishing or skipping the survey closes it |
| App.OnTutorialSignal | src/App.tsx:126-129 | the tutorial's completion signal closes it, and a visit also navigates |
| App.TutorialLinksRender | src/App.tsx:86-95 | every page a tutorial step links to renders for an athlete |
| App.FirstRun | src/App.tsx:46-56 | a new athlete's sign-up, tutorial, survey and close end with no overlay, a complete profile with 150 coins and 50 XP, and the tutorial flag stored |
| ChallengesPage.MockChallenges | src/pages/athlete/Challenges.tsx:30-87 | the board has four showcase entries |
| ChallengesPage.AllChallenges | src/pages/athlete/Challenges.tsx:89 | the board is the engine's challenges followed by the four showcase entries |
| ChallengesPage.MocksOpen | src/pages/athlete/Challenges.tsx:30-87 | the showcase entries are well formed, open and part-way done |
| ChallengesPage.Visible | src/pages/athlete/Challenges.tsx:173 | the all tab shows the whole board, and a type tab shows only entries of that type |
| ChallengesPage.VisibleIsTypeSelection | src/pages/athlete/Challenges.tsx:26-28 | a type tab keeps, in order, exactly the entries of its type, each as often as on the board |
| ChallengesPage.TypeTabsPartition | src/pages/athlete/Challenges.tsx:18-28 | the four type tabs together show every entry exactly once |
| ChallengesPage.ActiveCountSplit | src/pages/athlete/Challenges.tsx:142 | the active count is the engine's open challenges plus the four showcase entries |
| ChallengesPage.CompletedDisplayMeaning | src/pages/athlete/Challenges.tsx:176 | on a well-formed entry the completed marking means progress at the target, and after a progress report it means the report reached the target |
| ChallengesPage.UploadActivity | src/pages/athlete/Challenges.tsx:107 | the upload activity is the entry's activity type, or else the second dash-separated piece of its id, or nothing when the id has no dash |
| ChallengesPage.BonusPatch | src/pages/athlete/Challenges.tsx:98-101 | the bonus update adds 25 coins and 30 XP to the current counts, with missing counts read as 0, and touches nothing else |
| ChallengesPage.HandleChallengeUpdate | src/pages/athlete/Challenges.tsx:91-109 | on the running challenge (by id or title), progress plus one goes to the engine and the bonus is paid, with no navigation; any other entry opens the upload page and changes nothing |
| ChallengesPage.PayBonus | src/pages/athlete/Challenges.tsx:97-102 | the bonus update is applied exactly when someone is signed in |
| ChallengesPage.BonusPaid | src/pages/athlete/Challenges.tsx:97-102 | the bonus adds exactly 25 coins and 30 XP to the user's counts |
| ChallengesPage.DistanceDestroyerPress | src/pages/athlete/Challenges.tsx:93-103 | a press on the running challenge leaves the user with exactly the pre-press counts plus the bonus, whatever the engine returns |
| ChallengesPage.CompletingPressLosesEngineReward | src/pages/athlete/Challenges.tsx:93-103 | a press that completes the running challenge makes the engine report that challenge's XP and coin reward, yet the user's counts end at the pre-press counts plus the bonus alone |
| ChallengesPage.PressTwice | src/pages/athlete/Challenges.tsx:93-103 | pressing the same running entry twice changes the engine only once, and the second engine reward is zero |
| ChallengesPage.ShowcaseRun | src/pages/athlete/Challenges.tsx:45-58 | the running showcase entry is treated as the running challenge and reports 4.2 |
| ChallengesPage.PushupsShowcaseActivity | src/pages/athlete/Challenges.tsx:31-44 | the push-up showcase entry opens the upload page with activity "pushups" |
| ChallengesPage.VillageShowcaseActivity | src/pages/athlete/Challenges.tsx:59-72 | the village showcase entry opens the upload page with activity "village" |
| ChallengesPage.WinterShowcaseActivity | src/pages/athlete/Challenges.tsx:73-86 | the winter showcase entry opens the upload page with activity "winter" |
| ChallengesPage.ShowcaseActivitiesUnknown | src/pages/athlete/Challenges.tsx:107-108 | none of the three fallback names is an activity the application knows |
| ChallengesPage.FallbackActivity | src/pages/athlete/Challenges.tsx:107 | an entry without an activity type whose id is `a-b` opens the upload page with activity `b` |
| CoachBadges.FilteredBadges | src/pages/coach/CoachBadges.tsx:22-27 | the library shows no more badges than it holds |
| CoachBadges.FilteredBadgesMembership | src/pages/coach/CoachBadges.tsx:22-27 | a badge is shown exactly when the lower-cased term occurs in its lower-cased name or description and the category is "all" or its own |
| CoachBadges.FilteredBadgesOrder | src/pages/coach/CoachBadges.tsx:22 | the shown badges keep the library's order and multiplicities |
| CoachBadges.EmptySearchShowsAll | src/pages/coach/CoachBadges.tsx:22-27 | with no search text and every category, the whole library is shown |
| CoachBadges.SearchIgnoresCase | src/pages/coach/CoachBadges.tsx:23-24 | an upper-cased search term shows the same badges |
| CoachBadges.CategoryTabShowsCategory | src/pages/coach/CoachBadges.tsx:15-25 | a category tab with no search text shows exactly that category's badges |
| CoachBadges.CategoryNameInjective | src/pages/coach/CoachBadges.tsx:25 | different categories have different names |
| CoachBadges.CategoryTabs | src/pages/coach/CoachBadges.tsx:13-20 | six tabs, the first counting the whole library |
| CoachBadges.CategoryTabsCount | src/pages/coach/CoachBadges.tsx:13-27 | each category tab's id is the category's name, and its count is the number of badges that tab shows |
| CoachBadges.CategoryCountsPartition | src/pages/coach/CoachBadges.tsx:13-20 | the five category counts add up to the all count |
| CoachBadges.InitialCategoryTabs | src/pages/coach/CoachBadges.tsx:13-20 | on the seed catalog the tabs read 38, 6, 8, 8, 8 and 8 |
| CoachBadges.SelectedBadge | src/pages/coach/CoachBadges.tsx:29 | the opened badge is the first with the selected id, or none when nothing or an unknown id is selected |
| CoachAthletes.FilteredAthletes | src/pages/coach/CoachAthletes.tsx:105-109 | the list shows no more athletes than it holds |
| CoachAthletes.FilteredAthletesMembership | src/pages/coach/CoachAthletes.tsx:105-109 | an athlete is shown exactly when the lower-cased term occurs in their lower-cased name, state or district |
| CoachAthletes.FilteredAthletesOrder | src/pages/coach/CoachAthletes.tsx:105 | the shown athletes keep the list's order and multiplicities |
| CoachAthletes.EmptySearchShowsAll | src/pages/coach/CoachAthletes.tsx:105-109 | an empty search shows every athlete |
| CoachAthletes.SearchIgnoresCase | src/pages/coach/CoachAthletes.tsx:106-108 | an upper-cased search term shows the same athletes |
| CoachAthletes.SelectedAthlete | src/pages/coach/CoachAthletes.tsx:111 | the opened athlete is the first with the selected id, or none when nothing or an unknown id is selected |

## Left out

- React scheduling: engine updates run inside `setState` updater callbacks. They are modelled as running at once and in order, so the returned reward is the one computed by the map.
- The engine's own `updateUser` calls: they close over a stale user and overwrite one another. The engine returns its reward delta instead, and it does not claim the rewards add up on the user.
- The load-and-save effects of the game provider (`src/contexts/GameContext.tsx:49-77`): the typed store helpers and their round trips are modelled, but not when React runs them.
- Direct registry and password writes outside the helpers: the registry is a sequence and the passwords a map in the session state, not entries of the store. `JSON.parse` of a corrupt registry is not modelled.
- `clearStorage`: a `removeItem` that throws is not modelled; the unavailable store ignores the call instead.
- Login does not check the password, and sign-up stores it unhashed. The model keeps both behaviours; it does not add a password check.
- The avatar's SVG text and `encodeURIComponent`: the monogram is a compact string that keeps the `data:image/svg+xml,` prefix, the fill and the letter. Only these three parts matter to any reader of it.
- `parseInt` on leading whitespace, hexadecimal prefixes and fractions: ids are clock readings, so `ParseInt` covers an optional sign followed by decimal digits.
- Unicode case mapping: `toLowerCase` and `toUpperCase` act on ASCII letters only.
- Floating point: progress and counts are mathematical reals.
- Level: the code never recomputes it, so there is no level formula.
- The upload page, the training videos, `earnXP` and `earnCoins`: these are randomness, timers, static data and logging stubs.
- The static athlete list of the coach's athlete page, and the table of states and districts: the searches and the district lookup take the list as a parameter.
- The presentational pages and components (dashboards, profile, analytics, roadmap, layout, buttons, cards, progress bars, the coin animation): they have no decision logic.
- Stored data written by other code: the decoders refuse a value of the wrong shape, where the application would go on with it.
- `...updates` with a key explicitly set to `undefined`: the application never builds such an update, so the merge treats an absent field as "keep".
- Auth.UpdateUser: with the store refused, the program sets the user and the notification and then throws at the registry read. The model returns the state reached at that point and does not carry the exception to callers, so it does not show that the survey's completion callback and later statements are skipped.
- App.Lookup: percent-encoded characters and case mapping beyond ASCII letters are not modelled. Route ranking is not modelled either, because the table's paths are distinct.
- Game.Award: it returns the reward of the last completing challenge, which is exactly what the code does. When several challenges share the id, it does not sum their rewards into one.

=== FILE: app.dfy ===
/** The application shell: the route table with its role guards, and the
    two first-run overlays (the tutorial, then the onboarding survey) that
    sit on top of whatever page is shown. */
module App {
  import opened Common
  import opened Domain
  import opened Json
  import opened Storage
  import opened Auth
  import Tutorial
  import Onboarding
  import Seqs

  datatype Page =
    | LandingPage | AuthPage
    | AthleteDashboard | VideoUpload | ChallengesPage | Training | AthleteProfile | Roadmap
    | CoachDashboard | CoachAthletes | CoachAnalytics | CoachBadges | CoachProfile

  /** Who may see a route: only visitors who are not signed in, or only
      signed-in users of one role. */
  datatype Access = PublicOnly | Protected(role: Role)

  datatype RouteEntry = RouteEntry(path: string, access: Access, page: Page)

  /** What the router shows for a path. */
  datatype Route = Render(page: Page) | Redirect(to: string) | NoMatch

  const AuthPath := "/auth"

  /** The landing page of each role. */
  function Dashboard(role: Role): (r: string)
    ensures r == (if role == Athlete then "/athlete/dashboard" else "/coach/dashboard")
  {
    match role
    case Athlete => "/athlete/dashboard"
    case Coach => "/coach/dashboard"
  }

  /** The route table, in declaration order. */
  const Routes: seq<RouteEntry> := [
    RouteEntry("/", PublicOnly, LandingPage),
    RouteEntry("/auth", PublicOnly, AuthPage),
    RouteEntry("/athlete/dashboard", Protected(Athlete), AthleteDashboard),
    RouteEntry("/athlete/upload", Protected(Athlete), VideoUpload),
    RouteEntry("/athlete/challenges", Protected(Athlete), ChallengesPage),
    RouteEntry("/athlete/training", Protected(Athlete), Training),
    RouteEntry("/athlete/profile", Protected(Athlete), AthleteProfile),
    RouteEntry("/athlete/roadmap", Protected(Athlete), Roadmap),
    RouteEntry("/coach/dashboard", Protected(Coach), CoachDashboard),
    RouteEntry("/coach/athletes", Protected(Coach), CoachAthletes),
    RouteEntry("/coach/analytics", Protected(Coach), CoachAnalytics),
    RouteEntry("/coach/badges", Protected(Coach), CoachBadges),
    RouteEntry("/coach/profile", Protected(Coach), CoachProfile)
  ]

  /** The guard around a protected page: no user goes to the sign-in page, a
      user of the wrong role goes to their own dashboard. */
  function ProtectedRoute(user: Option<UserProfile>, role: Option<Role>, page: Page): (r: Route)
    ensures r.Render? <==> user.Some? && (role.None? || user.value.role == role.value)
    ensures user.None? ==> r == Redirect(AuthPath)
    ensures r.Render? ==> r.page == page
    ensures user.Some? && !r.Render? ==> r == Redirect(Dashboard(user.value.role))
  {
    if user.None? then Redirect(AuthPath)
    else if role.Some? && user.value.role != role.value then Redirect(Dashboard(user.value.role))
    else Render(page)
  }

  /** The index and sign-in pages: shown to visitors, a signed-in user is
      sent to their dashboard. */
  function PublicRoute(user: Option<UserProfile>, page: Page): (r: Route)
    ensures user.None? <==> r == Render(page)
    ensures user.Some? ==> r == Redirect(Dashboard(user.value.role))
  {
    if user.None? then Render(page) else Redirect(Dashboard(user.value.role))
  }

  /** The router's match of a route path against a location: letter case is
      ignored and any number of trailing slashes is accepted. */
  predicate Matches(routePath: string, path: string) {
    StartsWith(Lower(path), routePath) &&
    forall i :: |routePath| <= i < |path| ==> Lower(path)[i] == '/'
  }

  /** The location reduced to the form the table uses: lower-cased, without
      trailing slashes, and the root for a location of slashes only. */
  function Normalize(path: string): (r: string)
    ensures path != [] ==> r != []
    ensures path == [] ==> r == []
  {
    var t := TrimEnd(Lower(path), '/');
    if t == [] && path != [] then "/" else t
  }

  /** A table path: non-empty, in lower case, and ending in a slash only
      when it is the root. */
  predicate TablePath(p: string) {
    p != [] && (p == "/" || p[|p| - 1] != '/') &&
    forall j :: 0 <= j < |p| ==> !IsUpperChar(p[j])
  }

  lemma RoutePathsShaped()
    ensures forall i :: 0 <= i < |Routes| ==> TablePath(Routes[i].path)
  {
    PublicAndAthletePathsShaped();
    CoachPathsShaped();
  }

  lemma PublicAndAthletePathsShaped()
    ensures forall i :: 0 <= i < 8 ==> TablePath(Routes[i].path)
  {
  }

  lemma CoachPathsShaped()
    ensures forall i :: 8 <= i < |Routes| ==> TablePath(Routes[i].path)
  {
  }

  /** For a table path, the router's match is exactly equality after
      normalising the location. */
  lemma NormalizeMatches(p: string, path: string)
    requires TablePath(p)
    ensures Matches(p, path) <==> Normalize(path) == p
  {
    var low := Lower(path);
    if Matches(p, path) {
      TrimOfPadded(p, low);
    }
    if Normalize(path) == p {
      PaddedOfTrim(p, low);
    }
  }

  /** A table path followed only by slashes trims back to that path, or to
      nothing for the root. */
  lemma TrimOfPadded(p: string, low: string)
    requires p != [] && (p == "/" || p[|p| - 1] != '/')
    requires StartsWith(low, p)
    requires forall i :: |p| <= i < |low| ==> low[i] == '/'
    ensures TrimEnd(low, '/') == (if p == "/" then [] else p)
  {
    var pad := low[|p|..];
    assert low == p + pad;
    if p == "/" {
      assert low == [] + ("/" + pad);
      TrimEndPadded([], "/" + pad, '/');
    } else {
      TrimEndPadded(p, pad, '/');
    }
  }

  /** Conversely, a string that trims to a table path (or to nothing, for the
      root) is that path followed only by slashes. */
  lemma PaddedOfTrim(p: string, low: string)
    requires p != [] && (p == "/" || p[|p| - 1] != '/')
    requires TrimEnd(low, '/') == p || (p == "/" && low != [] && TrimEnd(low, '/') == [])
    ensures StartsWith(low, p)
    ensures forall i :: |p| <= i < |low| ==> low[i] == '/'
  {
    var t := TrimEnd(low, '/');
    if t == p {
      assert low[..|p|] == t;
    } else {
      assert low[..1] == "/" by { assert low[0] == '/'; }
    }
  }

  /** Trailing copies of `c` after a string that does not end in `c` are
      exactly what `TrimEnd` removes. */
  lemma {:induction false} TrimEndPadded(x: string, pad: string, c: char)
    requires x == [] || x[|x| - 1] != c
    requires forall i :: 0 <= i < |pad| ==> pad[i] == c
    ensures TrimEnd(x + pad, c) == x
    decreases |pad|
  {
    if pad == [] {
      assert x + pad == x;
    } else {
      var s := x + pad;
      assert s[..|s| - 1] == x + pad[..|pad| - 1];
      TrimEndPadded(x, pad[..|pad| - 1], c);
    }
  }

  /** The table entry with exactly this path. */
  function Entry(key: string): (r: Option<RouteEntry>)
    ensures r.Some? ==> r.value in Routes && r.value.path == key
    ensures r.None? ==> forall e :: e in Routes ==> e.path != key
  {
    Seqs.Find(Routes, (e: RouteEntry) => e.path == key)
  }

  /** The table entry the router picks for a location: the one whose path
      is the normalised location. */
  function Lookup(path: string): (r: Option<RouteEntry>)
    ensures r.Some? ==> r.value in Routes && r.value.path == Normalize(path)
    ensures r.None? ==> forall e :: e in Routes ==> e.path != Normalize(path)
  {
    Entry(Normalize(path))
  }

  /** Lookup finds exactly the table entry the router matches, and no entry
      when the router matches none. */
  lemma LookupIsRouterMatch(path: string)
    ensures Lookup(path).Some? ==> Matches(Lookup(path).value.path, path)
    ensures forall i :: 0 <= i < |Routes| && Matches(Routes[i].path, path) ==> Lookup(path) == Some(Routes[i])
  {
    RoutePathsShaped();
    if Lookup(path).Some? {
      NormalizeMatches(Lookup(path).value.path, path);
    }
    forall i | 0 <= i < |Routes| && Matches(Routes[i].path, path)
      ensures Lookup(path) == Some(Routes[i])
    {
      NormalizeMatches(Routes[i].path, path);
      LookupByKey(path, i);
    }
  }

  /** A location that normalises to a table path finds that path's entry. */
  lemma LookupByKey(path: string, i: int)
    requires 0 <= i < |Routes| && Normalize(path) == Routes[i].path
    ensures Lookup(path) == Some(Routes[i])
  {
    EntryOfPath(i);
  }

  /** Each table path is the key of its own entry. */
  lemma EntryOfPath(i: int)
    requires 0 <= i < |Routes|
    ensures Entry(Routes[i].path) == Some(Routes[i])
  {
    var key := Routes[i].path;
    var e := Entry(key);
    Seqs.FindFirst(Routes, (x: RouteEntry) => x.path == key);
    var k :| 0 <= k < |Routes| && Routes[k] == e.value && Routes[k].path == key &&
      forall j :: 0 <= j < k ==> Routes[j].path != key;
    RoutePathsDistinct(i, k);
  }

  /** Each table path is already in normal form. */
  lemma NormalTablePath(i: int)
    requires 0 <= i < |Routes|
    ensures Normalize(Routes[i].path) == Routes[i].path
  {
    var p := Routes[i].path;
    RoutePathsShaped();
    LowerOfLowerCase(p);
    NormalizeMatches(p, p);
  }

  /** What the router shows for a location already in normal form. */
  function Dispatch(user: Option<UserProfile>, key: string): Route {
    match Entry(key)
    case None => NoMatch
    case Some(e) =>
      match e.access
      case PublicOnly => PublicRoute(user, e.page)
      case Protected(role) => ProtectedRoute(user, Some(role), e.page)
  }

  /** What the router shows for `path` to `user`. */
  function Resolve(user: Option<UserProfile>, path: string): Route {
    Dispatch(user, Normalize(path))
  }

  /** The router ignores letter case and a trailing slash: an upper-cased
      location, or one with a slash appended, shows what the location shows
      (so `/Athlete/Dashboard/` is the athlete dashboard). */
  lemma CaseAndSlashIgnored(user: Option<UserProfile>, path: string)
    ensures Resolve(user, Upper(path)) == Resolve(user, path)
    ensures path != [] ==> Resolve(user, path + "/") == Resolve(user, path)
  {
    LowerOfUpper(path);
    SameLocation(user, Upper(path), path);
    if path != [] {
      NormalizeSlash(path);
      SameLocation(user, path + "/", path);
    }
  }

  /** One appended slash does not change the normalised location. */
  lemma NormalizeSlash(path: string)
    requires path != []
    ensures Normalize(path + "/") == Normalize(path)
  {
    var low := Lower(path + "/");
    assert low == Lower(path) + "/";
    assert low[..|low| - 1] == Lower(path);
  }

  /** Locations that normalise alike are shown alike. */
  lemma SameLocation(user: Option<UserProfile>, a: string, b: string)
    requires Normalize(a) == Normalize(b)
    ensures Resolve(user, a) == Resolve(user, b)
  {
  }

  /** The access rule of each page, read off the table. */
  function PageAccess(p: Page): Access {
    match p
    case LandingPage => PublicOnly
    case AuthPage => PublicOnly
    case AthleteDashboard => Protected(Athlete)
    case VideoUpload => Protected(Athlete)
    case ChallengesPage => Protected(Athlete)
    case Training => Protected(Athlete)
    case AthleteProfile => Protected(Athlete)
    case Roadmap => Protected(Athlete)
    case _ => Protected(Coach)
  }

  lemma RoutesAccess()
    ensures forall i :: 0 <= i < |Routes| ==> Routes[i].access == PageAccess(Routes[i].page)
  {
  }

  /** Access control: a page is shown only to the audience its route admits —
      public pages only to visitors, protected pages only to signed-in users
      of the route's role. */
  lemma RenderRespectsAccess(user: Option<UserProfile>, path: string)
    ensures Resolve(user, path).Render? ==>
      var p := Resolve(user, path).page;
      (PageAccess(p) == PublicOnly ==> user.None?) &&
      (PageAccess(p).Protected? ==> user.Some? && user.value.role == PageAccess(p).role)
  {
    DispatchRespectsAccess(user, Normalize(path));
  }

  lemma DispatchRespectsAccess(user: Option<UserProfile>, key: string)
    ensures Dispatch(user, key).Render? ==>
      var p := Dispatch(user, key).page;
      (PageAccess(p) == PublicOnly ==> user.None?) &&
      (PageAccess(p).Protected? ==> user.Some? && user.value.role == PageAccess(p).role)
  {
    RoutesAccess();
  }

  /** The three paths the guards redirect to resolve as expected. */
  lemma RedirectTargets(user: Option<UserProfile>)
    ensures Resolve(user, AuthPath) == PublicRoute(user, AuthPage)
    ensures Resolve(user, "/athlete/dashboard") == ProtectedRoute(user, Some(Athlete), AthleteDashboard)
    ensures Resolve(user, "/coach/dashboard") == ProtectedRoute(user, Some(Coach), CoachDashboard)
  {
    TablePathResolves(user, 1);
    TablePathResolves(user, 2);
    TablePathResolves(user, 8);
  }

  /** Redirects never chain: wherever a redirect leads, the router renders a
      page there for the same user. */
  lemma RedirectSettles(user: Option<UserProfile>, path: string)
    ensures Resolve(user, path).Redirect? ==> Resolve(user, Resolve(user, path).to).Render?
  {
    DispatchRedirectTarget(user, Normalize(path));
    RedirectTargets(user);
  }

  /** A redirect leads a visitor to the sign-in page and a signed-in user to
      their dashboard. */
  lemma DispatchRedirectTarget(user: Option<UserProfile>, key: string)
    ensures Dispatch(user, key).Redirect? ==>
      (user.None? && Dispatch(user, key).to == AuthPath) ||
      (user.Some? && Dispatch(user, key).to == Dashboard(user.value.role))
  {
  }

  /** A signed-in user can open every page of their own role, and every other
      path of the table sends them to their dashboard. */
  lemma OwnPagesRender(u: UserProfile, i: int)
    requires 0 <= i < |Routes|
    ensures Routes[i].access == Protected(u.role) ==> Resolve(Some(u), Routes[i].path) == Render(Routes[i].page)
    ensures Routes[i].access != Protected(u.role) ==> Resolve(Some(u), Routes[i].path) == Redirect(Dashboard(u.role))
  {
    TablePathResolves(Some(u), i);
  }

  /** A table path is shown under its own entry's guard. */
  lemma TablePathResolves(user: Option<UserProfile>, i: int)
    requires 0 <= i < |Routes|
    ensures Routes[i].access == PublicOnly ==> Resolve(user, Routes[i].path) == PublicRoute(user, Routes[i].page)
    ensures Routes[i].access.Protected? ==>
      Resolve(user, Routes[i].path) == ProtectedRoute(user, Some(Routes[i].access.role), Routes[i].page)
  {
    NormalTablePath(i);
    EntryOfPath(i);
  }

  /** Each table path finds its own entry. */
  lemma RouteLookup(i: int)
    requires 0 <= i < |Routes|
    ensures Lookup(Routes[i].path) == Some(Routes[i])
  {
    NormalTablePath(i);
    EntryOfPath(i);
  }

  lemma RoutePathsDistinct(i: int, k: int)
    requires 0 <= i < |Routes| && 0 <= k < |Routes| && Routes[i].path == Routes[k].path
    ensures i == k
  {
  }

  // ---------------------------------------------------------------------
  // First-run overlays
  // ---------------------------------------------------------------------

  /** The tutorial overlay shows only to a signed-in athlete. */
  predicate ShowsTutorial(s: AuthState) {
    s.showTutorial && s.user.Some? && s.user.value.role == Athlete
  }

  /** The onboarding survey shows to any signed-in user. */
  predicate ShowsOnboarding(s: AuthState) {
    s.showOnboarding && s.user.Some?
  }

  /** Closing the tutorial: hide it, record it as done in the store, and open
      the survey unless the user's onboarding is already complete. */
  function TutorialComplete(s: AuthState): (r: AuthState)
    ensures !ShowsTutorial(r)
    ensures r.store == SaveTutorialComplete(s.store, true)
    ensures !(s.user.Some? && s.user.value.onboardingComplete == Some(true)) ==> r.showOnboarding
    ensures s.user.Some? && s.user.value.onboardingComplete == Some(true) ==> r.showOnboarding == s.showOnboarding
    ensures r.user == s.user && r.registry == s.registry && r.coinNotification == s.coinNotification
  {
    var done := s.user.Some? && s.user.value.onboardingComplete == Some(true);
    s.(showTutorial := false, store := SaveTutorialComplete(s.store, true),
       showOnboarding := if done then s.showOnboarding else true)
  }

  /** The survey's completion and skip both just close it. */
  function OnboardingComplete(s: AuthState): (r: AuthState)
    ensures !ShowsOnboarding(r)
    ensures r == s.(showOnboarding := false)
  {
    s.(showOnboarding := false)
  }

  /** The tutorial's signal handed to the shell: a completion closes it,
      and a visit also navigates to the step's page. */
  function OnTutorialSignal(s: AuthState, sig: Tutorial.Signal): (r: (AuthState, Option<string>))
    ensures sig == Tutorial.Stay ==> r == (s, None)
    ensures sig != Tutorial.Stay ==> r.0 == TutorialComplete(s)
    ensures r.1.Some? <==> sig.NavigateThenComplete?
  {
    match sig
    case Stay => (s, None)
    case Complete => (TutorialComplete(s), None)
    case NavigateThenComplete(path) => (TutorialComplete(s), Some(path))
  }

  /** Every page a tutorial step links to is an athlete page the router
      renders for an athlete. */
  lemma TutorialLinksRender(u: UserProfile, step: int)
    requires u.role == Athlete && Tutorial.ValidStep(step) && step > 0
    ensures Resolve(Some(u), Tutorial.Action(step).value).Render?
  {
    var k := TutorialLinkRoute(step);
    OwnPagesRender(u, k);
  }

  /** The athlete route a tutorial step links to. */
  lemma TutorialLinkRoute(step: int) returns (k: int)
    requires Tutorial.ValidStep(step) && step > 0
    ensures 0 <= k < |Routes| && Routes[k].access == Protected(Athlete)
    ensures Routes[k].path == Tutorial.Action(step).value
  {
    k := if step == 1 then 6 else if step == 2 then 4 else if step == 3 then 5 else 7;
  }

  /** The first run of a new athlete: signing up opens the tutorial; closing
      it records it and opens the survey; submitting and closing the survey
      leaves no overlay, a completed profile, 150 coins and 50 XP, and a
      store from which the tutorial reads as done. */
  lemma FirstRun(s: AuthState, email: string, password: string, name: string, t1: nat, t2: nat,
                 f: Onboarding.SurveyForm, roll: int)
    requires 0 <= roll < 6 && s.store.available
    requires !EmailTaken(s.registry, email)
    ensures var a := Signup(s, email, password, name, Athlete, t1, t2).state;
      var b := TutorialComplete(a);
      var c := OnboardingComplete(Onboarding.Submit(b, f, roll));
      ShowsTutorial(a) && !ShowsTutorial(b) && ShowsOnboarding(b) &&
      !ShowsTutorial(c) && !ShowsOnboarding(c) &&
      c.user.Some? && c.user.value.onboardingComplete == Some(true) &&
      c.user.value.coins == Some(150) && c.user.value.xp == Some(50) &&
      Truthy(LoadTutorialComplete(c.store))
  {
    var a := Signup(s, email, password, name, Athlete, t1, t2).state;
    var b := TutorialComplete(a);
    Onboarding.SubmitCompletesProfile(b, f, roll);
    var u := Onboarding.Submit(b, f, roll);
    TypedSavesIndependent(b.store, u.user.value, [], [], true);
    LoadAfterSave(a.store, TutorialKey, JBool(true));
  }
}

=== FILE: auth.dfy ===
/** The session and profile manager: who is signed in, the account registry,
    profile updates with the coin notification, and the default avatar.

    The clock is a parameter: `login` and `signup` read it twice, once for
    the account id and once for the id handed to the avatar, and the two
    readings may differ. A random avatar colour is also a parameter. */
module Auth {
  import opened Common
  import opened Domain
  import opened Json
  import opened Codec
  import opened Storage
  import Seqs

  datatype AuthErrorKind = AccountNotFound | IncorrectPassword | General

  datatype AuthError = AuthError(kind: AuthErrorKind, message: string)

  const DuplicateEmail := AuthError(General, "An account with this email already exists. Please sign in instead.")

  /** Everything the session manager holds. `registry` is the list of every
      signed-up account and `passwords` the per-account password entries,
      both kept next to the helpers' store. */
  datatype AuthState = AuthState(
    user: Option<UserProfile>,
    showTutorial: bool,
    showOnboarding: bool,
    authError: Option<AuthError>,
    coinNotification: Option<int>,
    registry: seq<UserProfile>,
    passwords: map<string, string>,
    store: Store)

  /** The state on start-up: the saved user, if the store has one. */
  function Restore(st: Store, registry: seq<UserProfile>, passwords: map<string, string>): (r: AuthState)
    ensures r.user == LoadUser(st)
    ensures !r.showTutorial && !r.showOnboarding && r.authError == None && r.coinNotification == None
  {
    AuthState(LoadUser(st), false, false, None, None, registry, passwords, st)
  }

  // ---------------------------------------------------------------------
  // Default avatar
  // ---------------------------------------------------------------------

  const MaleAvatar := "/src/assets/6997484.png"
  const FemaleAvatar := "/src/assets/6833605.png"
  const SvgPrefix := "data:image/svg+xml"

  /** The fill colours of the six colour classes, in class order. */
  const Palette: seq<string> := ["#8b5cf6", "#3b82f6", "#10b981", "#f59e0b", "#ef4444", "#6366f1"]

  /** The fill used when the colour index names no class (`NaN` or negative). */
  const FallbackFill := "#6366f1"

  /** The colour index: `parseInt(userId) % 6` for a non-empty id (`None`
      for `NaN`), and the random roll otherwise. */
  function ColorIndex(userId: string, roll: int): (r: Option<int>)
    requires 0 <= roll < 6
    ensures userId == "" ==> r == Some(roll)
    ensures userId != "" && ParseInt(userId).None? ==> r == None
    ensures userId != "" && ParseInt(userId).Some? ==> r == Some(JsRem(ParseInt(userId).value, 6))
  {
    if userId == "" then Some(roll)
    else
      match ParseInt(userId)
      case None => None
      case Some(n) => Some(JsRem(n, 6))
  }

  function Fill(index: Option<int>): (r: string)
    ensures r in Palette
    ensures index.Some? && 0 <= index.value < 6 ==> r == Palette[index.value]
    ensures index.None? || index.value < 0 || index.value >= 6 ==> r == FallbackFill
  {
    if index.Some? && 0 <= index.value < 6 then Palette[index.value] else FallbackFill
  }

  /** The upper-cased first character of a name, or nothing for an empty name. */
  function Initial(name: string): (r: string)
    ensures name == "" <==> r == ""
    ensures name != "" ==> r == [UpperChar(name[0])] && !IsLowerChar(r[0])
  {
    if name == "" then "" else [UpperChar(name[0])]
  }

  /** The generated monogram picture. The SVG text and its URI encoding are
      not modelled: the stand-in keeps the data-URL prefix, then the fill,
      then the initial. */
  function Monogram(fill: string, initial: string): (r: string)
    ensures StartsWith(r, SvgPrefix)
  {
    SvgPrefix + "," + fill + initial
  }

  /** The fill and initial can be read back from a monogram. */
  lemma MonogramParts(fill: string, initial: string)
    requires |fill| == 7
    ensures var m := Monogram(fill, initial);
      m[|SvgPrefix| + 1..|SvgPrefix| + 8] == fill && m[|SvgPrefix| + 8..] == initial
  {
    var m := Monogram(fill, initial);
    assert m == SvgPrefix + "," + fill + initial;
  }

  /** `getDefaultAvatar(name, gender, userId)`: the two stock pictures for
      the two genders, a monogram for anything else. */
  function DefaultAvatar(name: string, gender: Option<string>, userId: string, roll: int): (r: string)
    requires 0 <= roll < 6
    ensures gender == Some("male") ==> r == MaleAvatar
    ensures gender == Some("female") ==> r == FemaleAvatar
    ensures gender != Some("male") && gender != Some("female") ==>
      r == Monogram(Fill(ColorIndex(userId, roll)), Initial(name))
  {
    if gender == Some("male") then MaleAvatar
    else if gender == Some("female") then FemaleAvatar
    else Monogram(Fill(ColorIndex(userId, roll)), Initial(name))
  }

  /** An avatar the gender rule may replace: the placeholder or a generated monogram. */
  predicate Replaceable(avatar: Option<string>) {
    avatar == Some("default") || (avatar.Some? && StartsWith(avatar.value, SvgPrefix))
  }

  /** A generated avatar is itself replaceable, and a stock picture is not. */
  lemma DefaultAvatarReplaceable(name: string, gender: Option<string>, userId: string, roll: int)
    requires 0 <= roll < 6
    ensures Replaceable(Some(DefaultAvatar(name, gender, userId, roll))) <==>
      gender != Some("male") && gender != Some("female")
  {
    if gender == Some("male") {
      assert MaleAvatar[..|SvgPrefix|] != SvgPrefix by { assert MaleAvatar[0] != SvgPrefix[0]; }
    } else if gender == Some("female") {
      assert FemaleAvatar[..|SvgPrefix|] != SvgPrefix by { assert FemaleAvatar[0] != SvgPrefix[0]; }
    }
  }

  /** With a clock reading as the id, the colour is the reading modulo six. */
  lemma ClockAvatarColour(name: string, t: nat, roll: int)
    requires 0 <= roll < 6
    ensures DefaultAvatar(name, None, Decimal(t), roll) == Monogram(Palette[t % 6], Initial(name))
  {
    ParseDecimal(t);
  }

  // ---------------------------------------------------------------------
  // Login, signup, logout
  // ---------------------------------------------------------------------

  /** A fresh profile. Athletes start with 0 XP, level 1, 50 coins and no
      streak; coaches have none of these fields. */
  function NewProfile(id: string, email: string, name: string, role: Role, avatar: string): (u: UserProfile)
    ensures u.id == id && u.email == email && u.name == name && u.role == role && u.avatar == Some(avatar)
    ensures u.onboardingComplete == Some(false) && u.profileComplete == Some(false)
    ensures role == Athlete ==> u.xp == Some(0) && u.level == Some(1) && u.coins == Some(50) && u.streak == Some(0)
    ensures role == Coach ==> u.xp == None && u.level == None && u.coins == None && u.streak == None
    ensures u.gender == None && u.state == None && u.district == None && u.bio == None
  {
    var athlete := role == Athlete;
    UserProfile(id, email, name, role, Some(avatar),
      if athlete then Some(0) else None,
      if athlete then Some(1) else None,
      if athlete then Some(50) else None,
      if athlete then Some(0) else None,
      Some(false), Some(false),
      None, None, None, None, None, None, None, None, None, None)
  }

  /** The name `login` derives from an email: everything before the first `@`. */
  function EmailName(email: string): string {
    Split(email, '@')[0]
  }

  /** `login(email, password, role)` at clock readings `t1` (id) and `t2`
      (avatar id). It never consults the registry and never fails; the
      password is not read. */
  function Login(s: AuthState, email: string, role: Role, t1: nat, t2: nat): (r: AuthState)
    ensures r.user.Some? && r.authError == None
    ensures var u := r.user.value;
      u.id == Decimal(t1) && u.email == Lower(email) && u.name == EmailName(email) && u.role == role &&
      u.avatar == Some(Monogram(Palette[t2 % 6], Initial(EmailName(email)))) &&
      u == NewProfile(u.id, u.email, u.name, role, u.avatar.value)
    ensures r.store == SaveUser(s.store, r.user.value)
    ensures r.registry == s.registry && r.passwords == s.passwords
    ensures r.showTutorial == s.showTutorial && r.showOnboarding == s.showOnboarding
  {
    var name := EmailName(email);
    ClockAvatarColour(name, t2, 0);
    var u := NewProfile(Decimal(t1), Lower(email), name, role, DefaultAvatar(name, None, Decimal(t2), 0));
    s.(user := Some(u), store := SaveUser(s.store, u), authError := None)
  }

  /** A login is saved, so the next start-up signs the same user back in;
      with the store refusing access the login lasts only for the session. */
  lemma LoginThenRestore(s: AuthState, email: string, role: Role, t1: nat, t2: nat)
    ensures var r := Login(s, email, role, t1, t2);
      s.store.available ==> Restore(r.store, r.registry, r.passwords).user == r.user
    ensures var r := Login(s, email, role, t1, t2);
      !s.store.available ==> Restore(r.store, r.registry, r.passwords).user == None
  {
    var r := Login(s, email, role, t1, t2);
    if s.store.available {
      TypedRoundTrips(s.store, r.user.value, [], [], false);
    } else {
      UnavailableStore(s.store, r.user.value, [], [], false);
    }
  }

  /** The derived name is the part of the email before its first `@`. */
  lemma EmailNameIsPrefix(email: string)
    ensures '@' !in EmailName(email)
    ensures StartsWith(email, EmailName(email))
    ensures |EmailName(email)| < |email| ==> email[|EmailName(email)|] == '@'
  {
    SplitHead(email, '@');
  }

  /** The registry already holds an account for this email, ignoring case. */
  predicate EmailTaken(registry: seq<UserProfile>, email: string) {
    exists i :: 0 <= i < |registry| && Lower(registry[i].email) == Lower(email)
  }

  /** The state after a sign-up attempt, and whether the attempt threw. */
  datatype Attempt = Attempt(state: AuthState, rejected: bool)

  /** `signup(email, password, name, role)` at clock readings `t1` and `t2`.
      The registry is read straight from the store, outside the guarded
      helpers, so a store that refuses access makes the call throw before
      anyone is signed in; a taken email makes it throw after setting the
      error. */
  function Signup(s: AuthState, email: string, password: string, name: string, role: Role, t1: nat, t2: nat): (r: Attempt)
    ensures r.rejected <==> !s.store.available || EmailTaken(s.registry, email)
    ensures !s.store.available ==> r.state == s.(authError := None)
    ensures s.store.available && EmailTaken(s.registry, email) ==> r.state == s.(authError := Some(DuplicateEmail))
    ensures !r.rejected ==> r.state.user.Some? && r.state.user.value.avatar.Some?
    ensures !r.rejected ==>
      var u := r.state.user.value;
      r.state.authError == None &&
      u.id == Decimal(t1) && u.email == Lower(email) && u.name == name && u.role == role &&
      u.avatar == Some(Monogram(Palette[t2 % 6], Initial(name))) &&
      u == NewProfile(u.id, u.email, name, role, u.avatar.value) &&
      r.state.registry == s.registry + [u] &&
      r.state.passwords == s.passwords[u.id := password] &&
      r.state.store == SaveUser(s.store, u) &&
      r.state.showTutorial == (role == Athlete || s.showTutorial) &&
      r.state.showOnboarding == s.showOnboarding
  {
    var existing := Seqs.Find(s.registry, (x: UserProfile) => Lower(x.email) == Lower(email));
    Seqs.FindFirst(s.registry, (x: UserProfile) => Lower(x.email) == Lower(email));
    ClockAvatarColour(name, t2, 0);
    if !s.store.available then
      Attempt(s.(authError := None), true)
    else if existing.Some? then
      Attempt(s.(authError := Some(DuplicateEmail)), true)
    else
      var u := NewProfile(Decimal(t1), Lower(email), name, role, DefaultAvatar(name, None, Decimal(t2), 0));
      Attempt(s.(user := Some(u), store := SaveUser(s.store, u), registry := s.registry + [u],
                 passwords := s.passwords[u.id := password],
                 showTutorial := if role == Athlete then true else s.showTutorial,
                 authError := None), false)
  }

  /** Signing up again with the same email, in any letter case, is rejected. */
  lemma SignupTwiceRejected(s: AuthState, email: string, email2: string, password: string, name: string,
                            role: Role, t1: nat, t2: nat, p2: string, n2: string, r2: Role, t3: nat, t4: nat)
    requires Lower(email2) == Lower(email)
    requires !Signup(s, email, password, name, role, t1, t2).rejected
    ensures Signup(Signup(s, email, password, name, role, t1, t2).state, email2, p2, n2, r2, t3, t4).rejected
  {
    var s1 := Signup(s, email, password, name, role, t1, t2).state;
    LowerIdempotent(email);
    assert Lower(s1.registry[|s.registry|].email) == Lower(email2);
  }

  /** Upper-casing the email does not change whether signup is rejected. */
  lemma SignupIgnoresCase(s: AuthState, email: string, password: string, name: string, role: Role, t1: nat, t2: nat)
    ensures Signup(s, Upper(email), password, name, role, t1, t2).rejected ==
      Signup(s, email, password, name, role, t1, t2).rejected
  {
    LowerOfUpper(email);
  }

  /** `logout()`: no user and every flag cleared; the stores are untouched. */
  function Logout(s: AuthState): (r: AuthState)
    ensures r.user == None && !r.showTutorial && !r.showOnboarding && r.authError == None
    ensures r.registry == s.registry && r.passwords == s.passwords && r.store == s.store
    ensures r.coinNotification == s.coinNotification
  {
    s.(user := None, showTutorial := false, showOnboarding := false, authError := None)
  }

  /** Logout leaves the saved profile in the store, so the next start-up
      signs the same user back in. */
  lemma LogoutThenRestore(s: AuthState)
    ensures Logout(s).user == None
    ensures Restore(Logout(s).store, s.registry, s.passwords).user == LoadUser(s.store)
  {
  }

  // ---------------------------------------------------------------------
  // Profile updates
  // ---------------------------------------------------------------------

  /** A partial profile: the fields an update sets. */
  datatype UserPatch = UserPatch(
    id: Option<string>,
    email: Option<string>,
    name: Option<string>,
    role: Option<Role>,
    avatar: Option<string>,
    xp: Option<int>,
    level: Option<int>,
    coins: Option<int>,
    streak: Option<int>,
    onboardingComplete: Option<bool>,
    profileComplete: Option<bool>,
    gender: Option<string>,
    mobile: Option<string>,
    state: Option<string>,
    district: Option<string>,
    achievements: Option<string>,
    height: Option<string>,
    weight: Option<string>,
    heightProof: Option<string>,
    bio: Option<string>,
    expertise: Option<string>)

  const EmptyPatch := UserPatch(None, None, None, None, None, None, None, None, None, None, None,
    None, None, None, None, None, None, None, None, None, None)

  function Pick<T>(update: Option<T>, current: Option<T>): Option<T> {
    if update.Some? then update else current
  }

  /** `{ ...user, ...updates }`. */
  function Merge(u: UserProfile, p: UserPatch): UserProfile {
    UserProfile(
      p.id.GetOr(u.id), p.email.GetOr(u.email), p.name.GetOr(u.name), p.role.GetOr(u.role),
      Pick(p.avatar, u.avatar), Pick(p.xp, u.xp), Pick(p.level, u.level), Pick(p.coins, u.coins),
      Pick(p.streak, u.streak), Pick(p.onboardingComplete, u.onboardingComplete),
      Pick(p.profileComplete, u.profileComplete), Pick(p.gender, u.gender), Pick(p.mobile, u.mobile),
      Pick(p.state, u.state), Pick(p.district, u.district), Pick(p.achievements, u.achievements),
      Pick(p.height, u.height), Pick(p.weight, u.weight), Pick(p.heightProof, u.heightProof),
      Pick(p.bio, u.bio), Pick(p.expertise, u.expertise))
  }

  /** `{ ...p, ...q }` on patches: the later patch wins field by field. */
  function Then(p: UserPatch, q: UserPatch): UserPatch {
    UserPatch(
      Pick(q.id, p.id), Pick(q.email, p.email), Pick(q.name, p.name), Pick(q.role, p.role),
      Pick(q.avatar, p.avatar), Pick(q.xp, p.xp), Pick(q.level, p.level), Pick(q.coins, p.coins),
      Pick(q.streak, p.streak), Pick(q.onboardingComplete, p.onboardingComplete),
      Pick(q.profileComplete, p.profileComplete), Pick(q.gender, p.gender), Pick(q.mobile, p.mobile),
      Pick(q.state, p.state), Pick(q.district, p.district), Pick(q.achievements, p.achievements),
      Pick(q.height, p.height), Pick(q.weight, p.weight), Pick(q.heightProof, p.heightProof),
      Pick(q.bio, p.bio), Pick(q.expertise, p.expertise))
  }

  /** The merge laws: the empty patch changes nothing, applying a patch twice
      is applying it once, and two patches in a row are their combination. */
  lemma MergeLaws(u: UserProfile, p: UserPatch, q: UserPatch)
    ensures Merge(u, EmptyPatch) == u
    ensures Merge(Merge(u, p), p) == Merge(u, p)
    ensures Merge(Merge(u, p), q) == Merge(u, Then(p, q))
  {
  }

  /** The patch that sets every field to the value it has in `v`. */
  function FullPatch(v: UserProfile): UserPatch {
    UserPatch(Some(v.id), Some(v.email), Some(v.name), Some(v.role), v.avatar, v.xp, v.level, v.coins,
      v.streak, v.onboardingComplete, v.profileComplete, v.gender, v.mobile, v.state, v.district,
      v.achievements, v.height, v.weight, v.heightProof, v.bio, v.expertise)
  }

  /** A patch carrying every present field of `v` turns any profile without
      extra fields into `v`. */
  lemma MergeFullPatch(u: UserProfile, v: UserProfile)
    requires u.avatar.Some? ==> v.avatar.Some?
    requires u.xp.Some? ==> v.xp.Some?
    requires u.level.Some? ==> v.level.Some?
    requires u.coins.Some? ==> v.coins.Some?
    requires u.streak.Some? ==> v.streak.Some?
    requires u.onboardingComplete.Some? ==> v.onboardingComplete.Some?
    requires u.profileComplete.Some? ==> v.profileComplete.Some?
    requires u.gender.Some? ==> v.gender.Some?
    requires u.mobile.Some? ==> v.mobile.Some?
    requires u.state.Some? ==> v.state.Some?
    requires u.district.Some? ==> v.district.Some?
    requires u.achievements.Some? ==> v.achievements.Some?
    requires u.height.Some? ==> v.height.Some?
    requires u.weight.Some? ==> v.weight.Some?
    requires u.heightProof.Some? ==> v.heightProof.Some?
    requires u.bio.Some? ==> v.bio.Some?
    requires u.expertise.Some? ==> v.expertise.Some?
    ensures Merge(u, FullPatch(v)) == v
  {
  }

  /** The update after the gender rule: a truthy gender replaces a
      placeholder or generated avatar with the default for that gender. */
  function WithGenderAvatar(u: UserProfile, p: UserPatch, roll: int): (r: UserPatch)
    requires 0 <= roll < 6
    ensures r == p.(avatar := r.avatar)
    ensures p.gender.Some? && p.gender.value != "" && Replaceable(u.avatar) ==>
      r.avatar == Some(DefaultAvatar(u.name, p.gender, u.id, roll))
    ensures !(p.gender.Some? && p.gender.value != "" && Replaceable(u.avatar)) ==> r.avatar == p.avatar
  {
    if p.gender.Some? && p.gender.value != "" && Replaceable(u.avatar) then
      p.(avatar := Some(DefaultAvatar(u.name, p.gender, u.id, roll)))
    else p
  }

  /** The coin gain to announce: only when both the old and the new coin
      counts are present and non-zero and the new one is larger. */
  function CoinGain(u: UserProfile, p: UserPatch): (r: Option<int>)
    ensures r.Some? <==>
      p.coins.Some? && p.coins.value != 0 && u.coins.Some? && u.coins.value != 0 && p.coins.value > u.coins.value
    ensures r.Some? ==> r.value > 0 && u.coins.value + r.value == p.coins.value
  {
    if p.coins.Some? && p.coins.value != 0 && u.coins.Some? && u.coins.value != 0 && p.coins.value > u.coins.value
    then Some(p.coins.value - u.coins.value)
    else None
  }

  /** Replace every registry entry carrying `id` by `v`. */
  function ReplaceById(registry: seq<UserProfile>, id: string, v: UserProfile): (r: seq<UserProfile>)
    ensures |r| == |registry|
    ensures forall i :: 0 <= i < |registry| ==> r[i] == if registry[i].id == id then v else registry[i]
  {
    seq(|registry|, i requires 0 <= i < |registry| => if registry[i].id == id then v else registry[i])
  }

  /** `updateUser(updates)`; `roll` is the random colour used only when the
      user's id is empty. The user and the notification are set and the
      profile saved through the guarded helper first; the registry is then
      read and written straight from the store, so a store that refuses
      access leaves the registry as it was (the call throws at that point). */
  function UpdateUser(s: AuthState, p: UserPatch, roll: int): (r: AuthState)
    requires 0 <= roll < 6
    ensures s.user.None? ==> r == s
    ensures s.user.Some? ==>
      var u := s.user.value;
      var p' := WithGenderAvatar(u, p, roll);
      r.user == Some(Merge(u, p')) &&
      r.store == SaveUser(s.store, Merge(u, p')) &&
      (s.store.available ==> r.registry == ReplaceById(s.registry, u.id, Merge(u, p'))) &&
      (!s.store.available ==> r.registry == s.registry) &&
      r.coinNotification == (if CoinGain(u, p).Some? then CoinGain(u, p) else s.coinNotification) &&
      r == s.(user := r.user, store := r.store, registry := r.registry, coinNotification := r.coinNotification)
  {
    match s.user
    case None => s
    case Some(u) =>
      var updated := Merge(u, WithGenderAvatar(u, p, roll));
      var gain := CoinGain(u, p);
      s.(user := Some(updated), store := SaveUser(s.store, updated),
         registry := if s.store.available then ReplaceById(s.registry, u.id, updated) else s.registry,
         coinNotification := if gain.Some? then gain else s.coinNotification)
  }

  /** The registry keeps its length and every entry of another account; when
      the store can be accessed the entries of the current account become the
      updated profile, and otherwise the registry is unchanged. */
  lemma UpdateUserRegistry(s: AuthState, p: UserPatch, roll: int)
    requires 0 <= roll < 6 && s.user.Some?
    ensures var r := UpdateUser(s, p, roll);
      |r.registry| == |s.registry| &&
      forall i :: 0 <= i < |s.registry| ==>
        (s.registry[i].id != s.user.value.id ==> r.registry[i] == s.registry[i]) &&
        (s.registry[i].id == s.user.value.id && s.store.available ==> r.registry[i] == r.user.value) &&
        (s.registry[i].id == s.user.value.id && !s.store.available ==> r.registry[i] == s.registry[i])
  {
  }

  /** Every field the update names is taken from it (the avatar possibly
      replaced by the gender rule); every other field keeps its value. */
  lemma UpdateUserFields(s: AuthState, p: UserPatch, roll: int)
    requires 0 <= roll < 6 && s.user.Some?
    ensures var u, v := s.user.value, UpdateUser(s, p, roll).user.value;
      (p.coins.Some? ==> v.coins == p.coins) && (p.coins.None? ==> v.coins == u.coins) &&
      (p.xp.Some? ==> v.xp == p.xp) && (p.xp.None? ==> v.xp == u.xp) &&
      (p.gender.Some? ==> v.gender == p.gender) && (p.gender.None? ==> v.gender == u.gender) &&
      (p.gender.None? && p.avatar.None? ==> v.avatar == u.avatar) &&
      v.id == p.id.GetOr(u.id) && v.name == p.name.GetOr(u.name)
  {
  }

  /** From zero coins no notification is raised, whatever the new count. */
  lemma NoNotificationFromZero(s: AuthState, p: UserPatch, roll: int)
    requires 0 <= roll < 6 && s.user.Some? && s.user.value.coins == Some(0)
    ensures UpdateUser(s, p, roll).coinNotification == s.coinNotification
  {
  }

  /** A saved profile survives a restart: restoring from the store written by
      an update yields the updated profile. */
  lemma UpdateUserPersists(s: AuthState, p: UserPatch, roll: int)
    requires 0 <= roll < 6 && s.user.Some? && s.store.available
    ensures Restore(UpdateUser(s, p, roll).store, [], map[]).user == UpdateUser(s, p, roll).user
  {
    var v := UpdateUser(s, p, roll).user.value;
    TypedRoundTrips(s.store, v, [], [], false);
  }
}

=== FILE: catalog.dfy ===
/** The seed catalog: the badge list and the challenge list a user starts
    with when nothing has been stored yet. */
module Catalog {
  import opened Common
  import opened Domain
  import Seqs

  /** A catalog badge as it is first handed out: locked, with no progress. */
  function Seed(id: string, name: string, description: string, category: BadgeCategory,
                icon: string, maxProgress: real, xpReward: int, coinReward: int,
                requirements: string): (b: Badge)
    ensures !b.unlocked && b.progress == 0.0 && b.linkedChallenge == None
  {
    Badge(id, name, description, category, icon, false, 0.0, maxProgress, xpReward, coinReward,
      requirements, None)
  }

  /** The six consistency badges of the catalog, in catalog order. */
  function ConsistencyBadges(): seq<Badge> {
    [
      Seed("day-one-champ", "Day One Champ",
        "Complete your first challenge",
        Consistency, "\U{1F3C6}", 1.0, 50, 10,
        "Complete any challenge"),
      Seed("weekly-warrior", "Weekly Warrior",
        "Log in for 7 consecutive days",
        Consistency, "\U{1F525}", 7.0, 200, 50,
        "Login for 7 consecutive days"),
      Seed("streak-master", "Streak Master",
        "Maintain a 30-day activity streak",
        Consistency, "\U{26A1}", 30.0, 500, 150,
        "Maintain 30-day streak"),
      Seed("consistency-king", "Consistency King",
        "Complete challenges for 60 consecutive days",
        Consistency, "\U{1F451}", 60.0, 1000, 300,
        "Complete challenges for 60 days"),
      Seed("early-bird", "Early Bird",
        "Train before 6 AM for 10 days",
        Consistency, "\U{1F426}", 10.0, 250, 60,
        "Train before 6 AM for 10 days"),
      Seed("night-owl", "Night Owl",
        "Train after 10 PM for 10 days",
        Consistency, "\U{1F989}", 10.0, 250, 60,
        "Train after 10 PM for 10 days")
    ]
  }

  /** The eight strength badges of the catalog, in catalog order. */
  function StrengthBadges(): seq<Badge> {
    [
      Seed("rookie-runner", "Rookie Runner",
        "Complete your first strength exercise",
        Strength, "\U{1F3C3}\U{200D}\U{2642}\U{FE0F}", 1.0, 75, 15,
        "Complete first strength exercise"),
      Seed("pushup-pro", "Push-up Pro",
        "Complete 50 push-ups in a single session",
        Strength, "\U{1F4AA}", 50.0, 200, 40,
        "50 push-ups in one session"),
      Seed("iron-core", "Iron Core",
        "Complete 100 sit-ups in one session",
        Strength, "\U{1F525}", 100.0, 250, 50,
        "100 sit-ups in one session"),
      Seed("strength-seeker", "Strength Seeker",
        "Complete 10 different strength challenges",
        Strength, "\U{1F50D}", 10.0, 300, 75,
        "Complete 10 strength challenges"),
      Seed("iron-arms", "Iron Arms",
        "Do 500 push-ups total across sessions",
        Strength, "\U{1F9BE}", 500.0, 400, 100,
        "500 total push-ups"),
      Seed("abs-of-steel", "Abs of Steel",
        "1000 sit-ups total across sessions",
        Strength, "\U{2699}\U{FE0F}", 1000.0, 500, 125,
        "1000 total sit-ups"),
      Seed("muscle-machine", "Muscle Machine",
        "Reach combined 2000 push-ups + sit-ups",
        Strength, "\U{1F916}", 2000.0, 750, 200,
        "2000 combined exercises"),
      Seed("strength-legend", "Strength Legend",
        "Master all strength-based challenges",
        Strength, "\U{1F31F}", 15.0, 1000, 300,
        "Complete all strength challenges")
    ]
  }

  /** The eight endurance badges of the catalog, in catalog order. */
  function EnduranceBadges(): seq<Badge> {
    [
      Seed("stamina-starter", "Stamina Starter",
        "Complete your first endurance challenge",
        Endurance, "\U{1F3C3}", 1.0, 75, 15,
        "Complete first endurance challenge"),
      Seed("distance-destroyer", "Distance Destroyer",
        "Run 5 km total across challenges",
        Endurance, "\U{1F3AF}", 5.0, 200, 50,
        "5km total distance"),
      Seed("marathon-mindset", "Marathon Mindset",
        "Run 10 km total across sessions",
        Endurance, "\U{1F9E0}", 10.0, 300, 75,
        "10km total distance"),
      Seed("endurance-explorer", "Endurance Explorer",
        "Complete 15 endurance challenges",
        Endurance, "\U{1F5FA}\U{FE0F}", 15.0, 400, 100,
        "Complete 15 endurance challenges"),
      Seed("never-stopper", "Never Stopper",
        "Run 25 km total across sessions",
        Endurance, "\U{1F680}", 25.0, 600, 150,
        "25km total distance"),
      Seed("cardio-champion", "Cardio Champion",
        "Complete 30 cardio-based activities",
        Endurance, "\U{2764}\U{FE0F}", 30.0, 700, 175,
        "30 cardio activities"),
      Seed("endurance-elite", "Endurance Elite",
        "Run 50 km total across sessions",
        Endurance, "\U{1F451}", 50.0, 1000, 250,
        "50km total distance"),
      Seed("ultra-runner", "Ultra Runner",
        "Complete the ultimate endurance challenge",
        Endurance, "\U{1F31F}", 1.0, 1500, 400,
        "Run 100km total")
    ]
  }

  /** The eight speed badges of the catalog, in catalog order. */
  function SpeedBadges(): seq<Badge> {
    [
      Seed("sprint-rookie", "Sprint Rookie",
        "Complete your first sprint challenge",
        Speed, "\U{1F3C3}\U{200D}\U{2642}\U{FE0F}", 1.0, 75, 15,
        "Complete first sprint challenge"),
      Seed("quick-feet", "Quick Feet",
        "Complete 10 shuttle runs",
        Speed, "\U{1F9B6}", 10.0, 200, 40,
        "Complete 10 shuttle runs"),
      Seed("speed-demon", "Speed Demon",
        "Finish shuttle run under 12 seconds",
        Speed, "\U{1F479}", 1.0, 250, 60,
        "Shuttle run under 12 seconds"),
      Seed("agility-ace", "Agility Ace",
        "Complete 20 agility-based challenges",
        Speed, "\U{1F3AF}", 20.0, 350, 85,
        "20 agility challenges"),
      Seed("flash-runner", "Flash Runner",
        "Sprint 100m under 15 seconds",
        Speed, "\U{26A1}", 1.0, 400, 100,
        "Sprint 100m under 15 seconds"),
      Seed("lightning-bolt", "Lightning Bolt",
        "Win 10 speed-based challenges",
        Speed, "\U{1F329}\U{FE0F}", 10.0, 500, 125,
        "Win 10 speed challenges"),
      Seed("velocity-master", "Velocity Master",
        "Achieve top speed in 5 different activities",
        Speed, "\U{1F684}", 5.0, 600, 150,
        "Top speed in 5 activities"),
      Seed("speed-legend", "Speed Legend",
        "Master all speed and agility challenges",
        Speed, "\U{1F31F}", 25.0, 1200, 350,
        "Complete all speed challenges")
    ]
  }

  /** The eight special badges of the catalog, in catalog order. */
  function SpecialBadges(): seq<Badge> {
    [
      Seed("video-verified", "Video Verified",
        "Successfully upload your first verified video",
        Special, "\U{1F4F9}", 1.0, 75, 15,
        "Upload first verified video"),
      Seed("perfect-form", "Perfect Form",
        "Receive excellent form rating 5 times",
        Special, "\U{2728}", 5.0, 300, 75,
        "Get 5 excellent form ratings"),
      Seed("challenge-crusher", "Challenge Crusher",
        "Complete 25 different challenges",
        Special, "\U{1F528}", 25.0, 500, 125,
        "Complete 25 different challenges"),
      Seed("district-champ", "District Champ",
        "Rank #1 in your district leaderboard",
        Special, "\U{1F3C5}", 1.0, 750, 200,
        "Rank #1 in district"),
      Seed("state-champion", "State Champion",
        "Rank in top 10 of your state",
        Special, "\U{1F396}\U{FE0F}", 1.0, 1000, 300,
        "Top 10 in state ranking"),
      Seed("national-hero", "National Hero",
        "Rank in top 100 nationally",
        Special, "\U{1F1EE}\U{1F1F3}", 1.0, 1500, 500,
        "Top 100 national ranking"),
      Seed("mentor-badge", "Mentor",
        "Help 10 other athletes improve",
        Special, "\U{1F91D}", 10.0, 600, 150,
        "Help 10 athletes"),
      Seed("ultimate-athlete", "Ultimate Athlete",
        "Unlock all other 29 badges",
        Special, "\U{1F31F}", 29.0, 2000, 1000,
        "Unlock all other badges")
    ]
  }

  /** `getInitialBadges`: six consistency badges, then eight each of strength,
      endurance, speed and special badges. */
  function InitialBadges(): seq<Badge> {
    ConsistencyBadges() + StrengthBadges() + EnduranceBadges() + SpeedBadges() + SpecialBadges()
  }

  /** `getInitialChallenges`. */
  function InitialChallenges(): seq<Challenge> {
    [
      Challenge("daily-jump", "Daily Leap",
        "Complete a jump test today",
        Daily, "jump", 0.0, 1.0, 50, 10, "2025-01-13T23:59:59", false, None, None),
      Challenge("daily-pushups", "Power Push-ups",
        "Complete 25 push-ups with proper form",
        Daily, "pushup", 0.0, 25.0, 60, 12, "2025-01-13T23:59:59", false, Some("Medium"), Some("Strength")),
      Challenge("weekly-run", "Distance Destroyer",
        "Run a total of 10km this week",
        Weekly, "endurance", 0.0, 10.0, 200, 50, "2025-01-19T23:59:59", false, Some("Hard"), Some("Endurance")),
      Challenge("shuttle-sprint", "Shuttle Sprint Challenge",
        "Complete 5 shuttle runs under 13 seconds each",
        Weekly, "shuttle", 0.0, 5.0, 300, 75, "2025-01-19T23:59:59", false, Some("Hard"), Some("Speed")),
      Challenge("core-crusher", "Core Crusher",
        "Complete 50 sit-ups today",
        Daily, "situp", 0.0, 50.0, 70, 14, "2025-01-13T23:59:59", false, Some("Medium"), Some("Strength"))
    ]
  }

  /** The position of a catalog badge id in the seed list; -1 for any other id.
      The lookup first narrows by length, then compares whole ids. */
  function BadgePosition(id: string): int {
    match |id|
    case 9 => if id == "night-owl" then 5 else if id == "iron-core" then 8 else if id == "iron-arms" then 10 else -1
    case 10 => if id == "early-bird" then 4 else if id == "pushup-pro" then 7 else if id == "quick-feet" then 23 else -1
    case 11 => if id == "speed-demon" then 24 else if id == "agility-ace" then 25 else -1
    case 12 => if id == "abs-of-steel" then 11 else if id == "ultra-runner" then 21 else if id == "flash-runner" then 26 else if id == "speed-legend" then 29 else if id == "perfect-form" then 31 else if id == "mentor-badge" then 36 else -1
    case 13 => if id == "day-one-champ" then 0 else if id == "streak-master" then 2 else if id == "rookie-runner" then 6 else if id == "never-stopper" then 18 else if id == "sprint-rookie" then 22 else if id == "national-hero" then 35 else -1
    case 14 => if id == "weekly-warrior" then 1 else if id == "muscle-machine" then 12 else if id == "lightning-bolt" then 27 else if id == "video-verified" then 30 else if id == "district-champ" then 33 else if id == "state-champion" then 34 else -1
    case 15 => if id == "strength-seeker" then 9 else if id == "strength-legend" then 13 else if id == "stamina-starter" then 14 else if id == "cardio-champion" then 19 else if id == "endurance-elite" then 20 else if id == "velocity-master" then 28 else -1
    case 16 => if id == "consistency-king" then 3 else if id == "marathon-mindset" then 16 else if id == "ultimate-athlete" then 37 else -1
    case 17 => if id == "challenge-crusher" then 32 else -1
    case 18 => if id == "distance-destroyer" then 15 else if id == "endurance-explorer" then 17 else -1
    case _ => -1
  }

  /** The position of a seed challenge id in the seed list; -1 for any other id. */
  function ChallengePosition(id: string): int {
    if id == "daily-jump" then 0
    else if id == "daily-pushups" then 1
    else if id == "weekly-run" then 2
    else if id == "shuttle-sprint" then 3
    else if id == "core-crusher" then 4
    else -1
  }

  function InCategory(c: BadgeCategory): Badge -> bool {
    (b: Badge) => b.category == c
  }

  /** Every entry of a catalog group is a locked, empty badge of the group's
      category with a positive target. */
  predicate SeededGroup(g: seq<Badge>, c: BadgeCategory) {
    forall k :: 0 <= k < |g| ==>
      g[k].category == c && !g[k].unlocked && g[k].progress == 0.0 && g[k].maxProgress > 0.0
  }

  /** Filtering a single-category group by category keeps all of it or none of it. */
  lemma GroupFilter(g: seq<Badge>, c: BadgeCategory, d: BadgeCategory)
    requires SeededGroup(g, c)
    ensures Seqs.Filter(g, InCategory(d)) == if c == d then g else []
  {
    if c == d {
      Seqs.FilterAll(g, InCategory(d));
    }
  }

  lemma ConsistencyBadgesSeeded()
    ensures SeededGroup(ConsistencyBadges(), Consistency)
  {
  }

  lemma ConsistencyBadgesPositions()
    ensures forall k :: 0 <= k < |ConsistencyBadges()| ==> BadgePosition(ConsistencyBadges()[k].id) == 0 + k
  {
  }

  lemma StrengthBadgesSeeded()
    ensures SeededGroup(StrengthBadges(), Strength)
  {
  }

  lemma StrengthBadgesPositions()
    ensures forall k :: 0 <= k < |StrengthBadges()| ==> BadgePosition(StrengthBadges()[k].id) == 6 + k
  {
  }

  lemma EnduranceBadgesSeeded()
    ensures SeededGroup(EnduranceBadges(), Endurance)
  {
  }

  lemma EnduranceBadgesPositions()
    ensures forall k :: 0 <= k < |EnduranceBadges()| ==> BadgePosition(EnduranceBadges()[k].id) == 14 + k
  {
  }

  lemma SpeedBadgesSeeded()
    ensures SeededGroup(SpeedBadges(), Speed)
  {
  }

  lemma SpeedBadgesPositions()
    ensures forall k :: 0 <= k < |SpeedBadges()| ==> BadgePosition(SpeedBadges()[k].id) == 22 + k
  {
  }

  lemma SpecialBadgesSeeded()
    ensures SeededGroup(SpecialBadges(), Special)
  {
  }

  lemma SpecialBadgesPositions()
    ensures forall k :: 0 <= k < |SpecialBadges()| ==> BadgePosition(SpecialBadges()[k].id) == 30 + k
  {
  }

  /** The seed list positions agree with the id lookup, so no two seed
      badges share an id. */
  lemma InitialBadgeIdsDistinct()
    ensures forall k :: 0 <= k < |InitialBadges()| ==> BadgePosition(InitialBadges()[k].id) == k
    ensures DistinctBadgeIds(InitialBadges())
  {
    ConsistencyBadgesPositions();
    StrengthBadgesPositions();
    EnduranceBadgesPositions();
    SpeedBadgesPositions();
    SpecialBadgesPositions();
  }

  /** Counting by category over five single-category groups. */
  lemma GroupedCounts(c: seq<Badge>, st: seq<Badge>, e: seq<Badge>, sp: seq<Badge>, sx: seq<Badge>, d: BadgeCategory)
    requires SeededGroup(c, Consistency) && SeededGroup(st, Strength) && SeededGroup(e, Endurance)
    requires SeededGroup(sp, Speed) && SeededGroup(sx, Special)
    ensures Seqs.Count(c + st + e + sp + sx, InCategory(d)) ==
      match d
      case Consistency => |c|
      case Strength => |st|
      case Endurance => |e|
      case Speed => |sp|
      case Special => |sx|
  {
    Seqs.FilterAppend(c + st + e + sp, sx, InCategory(d));
    Seqs.FilterAppend(c + st + e, sp, InCategory(d));
    Seqs.FilterAppend(c + st, e, InCategory(d));
    Seqs.FilterAppend(c, st, InCategory(d));
    GroupFilter(c, Consistency, d);
    GroupFilter(st, Strength, d);
    GroupFilter(e, Endurance, d);
    GroupFilter(sp, Speed, d);
    GroupFilter(sx, Special, d);
  }

  /** The seed state of five concatenated groups. */
  lemma GroupedSeeded(c: seq<Badge>, st: seq<Badge>, e: seq<Badge>, sp: seq<Badge>, sx: seq<Badge>)
    requires SeededGroup(c, Consistency) && SeededGroup(st, Strength) && SeededGroup(e, Endurance)
    requires SeededGroup(sp, Speed) && SeededGroup(sx, Special)
    ensures var all := c + st + e + sp + sx;
      forall k :: 0 <= k < |all| ==> !all[k].unlocked && all[k].progress == 0.0 && all[k].maxProgress > 0.0
  {
  }

  /** The seed catalog holds 38 badges: six consistency badges and eight of
      each other category, every one locked with no progress. */
  lemma InitialBadgeCounts()
    ensures |InitialBadges()| == 38
    ensures Seqs.Count(InitialBadges(), InCategory(Consistency)) == 6
    ensures Seqs.Count(InitialBadges(), InCategory(Strength)) == 8
    ensures Seqs.Count(InitialBadges(), InCategory(Endurance)) == 8
    ensures Seqs.Count(InitialBadges(), InCategory(Speed)) == 8
    ensures Seqs.Count(InitialBadges(), InCategory(Special)) == 8
    ensures forall k :: 0 <= k < |InitialBadges()| ==>
      !InitialBadges()[k].unlocked && InitialBadges()[k].progress == 0.0 && InitialBadges()[k].maxProgress > 0.0
  {
    var c, st, e, sp, sx := ConsistencyBadges(), StrengthBadges(), EnduranceBadges(), SpeedBadges(), SpecialBadges();
    ConsistencyBadgesSeeded();
    StrengthBadgesSeeded();
    EnduranceBadgesSeeded();
    SpeedBadgesSeeded();
    SpecialBadgesSeeded();
    GroupedCounts(c, st, e, sp, sx, Consistency);
    GroupedCounts(c, st, e, sp, sx, Strength);
    GroupedCounts(c, st, e, sp, sx, Endurance);
    GroupedCounts(c, st, e, sp, sx, Speed);
    GroupedCounts(c, st, e, sp, sx, Special);
    GroupedSeeded(c, st, e, sp, sx);
  }

  /** The last badge of the catalog targets 29, not the 30 the dashboard shows. */
  lemma UltimateAthleteTarget()
    ensures InitialBadges()[37].id == "ultimate-athlete" && InitialBadges()[37].maxProgress == 29.0
  {
    assert InitialBadges()[37] == SpecialBadges()[7];
  }

  /** The five seed challenges have distinct ids and all start open with no progress. */
  lemma InitialChallengesSeeded()
    ensures |InitialChallenges()| == 5
    ensures forall k :: 0 <= k < |InitialChallenges()| ==> ChallengePosition(InitialChallenges()[k].id) == k
    ensures DistinctChallengeIds(InitialChallenges())
    ensures forall k :: 0 <= k < |InitialChallenges()| ==>
      !InitialChallenges()[k].completed && InitialChallenges()[k].progress == 0.0 &&
      InitialChallenges()[k].maxProgress > 0.0
  {
  }
}

=== FILE: challenges_page.dfy ===
/** The athlete's challenge board: the engine's challenges followed by four
    fixed showcase entries, a filter by challenge type, the count of active
    entries, and the progress button, which either reports a kilometre for
    the running challenge (with an immediate bonus) or opens the video upload
    page for the challenge's activity. */
module ChallengesPage {
  import opened Common
  import opened Domain
  import opened Game
  import GameLaws
  import opened Auth
  import Seqs

  /** The four showcase entries appended to the engine's list. They carry no
      activity type. */
  function MockChallenges(): (r: seq<Challenge>)
    ensures |r| == 4
  {
    [PushupsShowcase(), RunShowcase(), VillageShowcase(), WinterShowcase()]
  }

  function PushupsShowcase(): Challenge {
    Challenge("daily-pushups", "Power Push-ups", "Complete 25 push-ups with proper form",
      Daily, "", 18.0, 25.0, 60, 12, "2025-01-13T23:59:59", false, Some("Medium"), Some("Strength"))
  }

  function RunShowcase(): Challenge {
    Challenge("weekly-run", "Distance Destroyer", "Run a total of 10km this week",
      Weekly, "", 3.2, 10.0, 200, 50, "2025-01-19T23:59:59", false, Some("Hard"), Some("Endurance"))
  }

  function VillageShowcase(): Challenge {
    Challenge("team-village", "Village Championship", "Help your village win the monthly fitness challenge",
      Team, "", 450.0, 1000.0, 300, 100, "2025-01-31T23:59:59", false, Some("Epic"), Some("Community"))
  }

  function WinterShowcase(): Challenge {
    Challenge("seasonal-winter", "Winter Warrior", "Complete 15 different exercise types this month",
      Seasonal, "", 8.0, 15.0, 500, 150, "2025-01-31T23:59:59", false, Some("Legendary"), Some("Variety"))
  }

  /** The board lists the engine's challenges, then the showcase entries. */
  function AllChallenges(engine: seq<Challenge>): (r: seq<Challenge>)
    ensures |r| == |engine| + 4
    ensures r[..|engine|] == engine && r[|engine|..] == MockChallenges()
  {
    engine + MockChallenges()
  }

  /** The showcase entries are well formed, open, and part-way done. */
  lemma MocksOpen()
    ensures ChallengesWellFormed(MockChallenges())
    ensures forall i :: 0 <= i < 4 ==>
      !MockChallenges()[i].completed && MockChallenges()[i].activityType == "" &&
      0.0 < MockChallenges()[i].progress < MockChallenges()[i].maxProgress
  {
  }

  // ---------------------------------------------------------------------
  // Filter tabs and counts
  // ---------------------------------------------------------------------

  datatype TypeFilter = All | OfType(kind: ChallengeType)

  function HasType(t: ChallengeType): Challenge -> bool {
    (c: Challenge) => c.kind == t
  }

  /** The entries a tab shows. */
  function Visible(cs: seq<Challenge>, f: TypeFilter): (r: seq<Challenge>)
    ensures f == All ==> r == cs
    ensures f.OfType? ==> forall c :: c in r ==> c in cs && c.kind == f.kind
  {
    match f
    case All => cs
    case OfType(t) => Seqs.Filter(cs, HasType(t))
  }

  /** A type tab keeps, in order, exactly the entries of its type, each as
      often as it occurs. */
  lemma VisibleIsTypeSelection(cs: seq<Challenge>, t: ChallengeType)
    ensures Seqs.IsSubsequence(Visible(cs, OfType(t)), cs)
    ensures forall c :: multiset(Visible(cs, OfType(t)))[c] == if c.kind == t then multiset(cs)[c] else 0
  {
    Seqs.FilterSpec(cs, HasType(t));
  }

  /** The four type tabs together show every entry exactly once. */
  lemma {:induction false} TypeTabsPartition(cs: seq<Challenge>)
    ensures |Visible(cs, OfType(Daily))| + |Visible(cs, OfType(Weekly))| +
            |Visible(cs, OfType(Team))| + |Visible(cs, OfType(Seasonal))| == |cs|
    decreases |cs|
  {
    if cs != [] {
      TypeTabsPartition(cs[1..]);
    }
  }

  function IsActive(c: Challenge): bool {
    !c.completed
  }

  /** The "Active Challenges" figure: entries of the whole board not marked completed. */
  function ActiveCount(engine: seq<Challenge>): nat {
    Seqs.Count(AllChallenges(engine), IsActive)
  }

  /** The showcase entries always add four to the active count. */
  lemma ActiveCountSplit(engine: seq<Challenge>)
    ensures ActiveCount(engine) == Seqs.Count(engine, IsActive) + 4
    ensures ActiveCount(engine) <= |engine| + 4
  {
    Seqs.FilterAppend(engine, MockChallenges(), IsActive);
    MocksOpen();
    Seqs.FilterAll(MockChallenges(), IsActive);
  }

  /** The green "completed" marking: completed, or progress at the target. */
  predicate IsCompletedDisplay(c: Challenge) {
    c.completed || c.progress >= c.maxProgress
  }

  /** On a well-formed entry the marking means exactly "progress at target",
      and after a progress report it agrees with the engine's completion flag. */
  lemma CompletedDisplayMeaning(s: EngineState, c: Challenge, id: string, p: real, i: int)
    requires ChallengeWellFormed(c)
    requires 0 <= i < |s.challenges| && s.challenges[i].id == id
    ensures IsCompletedDisplay(c) <==> c.progress == c.maxProgress
    ensures var c' := UpdateProgress(s, id, p).state.challenges[i];
      IsCompletedDisplay(c') <==> c'.completed
  {
  }

  // ---------------------------------------------------------------------
  // The progress button
  // ---------------------------------------------------------------------

  /** The running challenge reports progress in place instead of opening the
      upload page. */
  predicate IsDistanceDestroyer(c: Challenge) {
    c.id == "weekly-run" || c.title == "Distance Destroyer"
  }

  /** The bonus paid on every progress report for the running challenge. */
  const BonusCoins := 25
  const BonusXp := 30

  /** The activity the upload page is opened with: the entry's activity
      type, or else the second dash-separated part of its id; `None` stands
      for `undefined` when the id has no dash. */
  function UploadActivity(c: Challenge): (r: Option<string>)
    ensures c.activityType != "" ==> r == Some(c.activityType)
    ensures c.activityType == "" ==> (r.Some? <==> |Split(c.id, '-')| > 1)
    ensures c.activityType == "" && r.Some? ==> r.value == Split(c.id, '-')[1]
  {
    if c.activityType != "" then Some(c.activityType)
    else
      var parts := Split(c.id, '-');
      if |parts| > 1 then Some(parts[1]) else None
  }

  /** The upload page's query: activity, challenge id and title. */
  datatype UploadLink = UploadLink(activity: Option<string>, challenge: string, challengeName: string)

  datatype Board = Board(engine: EngineState, auth: AuthState)

  /** What a press does: the new board, the engine's reward for the progress
      report (zero when there was none), and the page opened, if any. */
  datatype Press = Press(board: Board, reward: Reward, upload: Option<UploadLink>)

  /** The bonus update: 25 coins and 30 XP on top of the current counts
      (missing counts read as zero). */
  function BonusPatch(u: UserProfile): (p: UserPatch)
    ensures p == EmptyPatch.(coins := p.coins, xp := p.xp)
    ensures p.coins == Some(u.coins.GetOr(0) + BonusCoins) && p.xp == Some(u.xp.GetOr(0) + BonusXp)
  {
    EmptyPatch.(coins := Some(u.coins.GetOr(0) + BonusCoins), xp := Some(u.xp.GetOr(0) + BonusXp))
  }

  /** `handleChallengeUpdate(challenge)` for the entry as shown on the board. */
  function HandleChallengeUpdate(b: Board, c: Challenge, roll: int): (r: Press)
    requires 0 <= roll < 6
    ensures IsDistanceDestroyer(c) ==> r.upload == None && r.board.auth == PayBonus(b.auth, roll)
    ensures IsDistanceDestroyer(c) ==>
      Outcome(r.board.engine, r.reward) == UpdateProgress(b.engine, c.id, c.progress + 1.0)
    ensures !IsDistanceDestroyer(c) ==> r == Press(b, NoReward, Some(UploadLink(UploadActivity(c), c.id, c.title)))
  {
    if IsDistanceDestroyer(c) then
      var outcome := UpdateProgress(b.engine, c.id, c.progress + 1.0);
      Press(Board(outcome.state, PayBonus(b.auth, roll)), outcome.reward, None)
    else
      Press(b, NoReward, Some(UploadLink(UploadActivity(c), c.id, c.title)))
  }

  /** The bonus update, applied when someone is signed in. */
  function PayBonus(s: AuthState, roll: int): (r: AuthState)
    requires 0 <= roll < 6
    ensures s.user.None? ==> r == s
    ensures s.user.Some? ==> r == UpdateUser(s, BonusPatch(s.user.value), roll)
  {
    if s.user.Some? then UpdateUser(s, BonusPatch(s.user.value), roll) else s
  }

  /** The bonus adds exactly 25 coins and 30 XP to the signed-in user's counts. */
  lemma BonusPaid(s: AuthState, roll: int)
    requires 0 <= roll < 6 && s.user.Some?
    ensures var r := PayBonus(s, roll);
      r.user.Some? &&
      r.user.value.coins == Some(s.user.value.coins.GetOr(0) + BonusCoins) &&
      r.user.value.xp == Some(s.user.value.xp.GetOr(0) + BonusXp)
  {
    UpdateUserFields(s, BonusPatch(s.user.value), roll);
  }

  /** A press on the running challenge leaves the user with exactly the
      bonus, whatever the engine returns. The bonus update is built from the
      same user as the engine's own reward update, so it replaces that
      payment rather than adding to it. */
  lemma DistanceDestroyerPress(b: Board, c: Challenge, roll: int)
    requires 0 <= roll < 6 && IsDistanceDestroyer(c) && b.auth.user.Some?
    ensures var r := HandleChallengeUpdate(b, c, roll);
      r.board.auth.user.Some? &&
      r.board.auth.user.value.coins == Some(b.auth.user.value.coins.GetOr(0) + BonusCoins) &&
      r.board.auth.user.value.xp == Some(b.auth.user.value.xp.GetOr(0) + BonusXp)
  {
    BonusPaid(b.auth, roll);
  }

  /** A press that completes the running challenge: the engine reports the
      challenge's reward, yet the user's counts end at the pre-press counts
      plus the bonus alone, so the engine's reward is lost. */
  lemma CompletingPressLosesEngineReward(b: Board, c: Challenge, roll: int, k: int)
    requires 0 <= roll < 6 && IsDistanceDestroyer(c) && b.auth.user.Some?
    requires DistinctChallengeIds(b.engine.challenges)
    requires 0 <= k < |b.engine.challenges| && b.engine.challenges[k].id == c.id
    requires !b.engine.challenges[k].completed && c.progress + 1.0 >= b.engine.challenges[k].maxProgress
    ensures var r := HandleChallengeUpdate(b, c, roll);
      var e := b.engine.challenges[k];
      r.reward.xp == e.xpReward && r.reward.coins == e.coinReward &&
      r.board.auth.user.Some? &&
      r.board.auth.user.value.coins == Some(b.auth.user.value.coins.GetOr(0) + BonusCoins) &&
      r.board.auth.user.value.xp == Some(b.auth.user.value.xp.GetOr(0) + BonusXp)
  {
    GameLaws.UpdateProgressUnique(b.engine, c.id, c.progress + 1.0, k);
    DistanceDestroyerPress(b, c, roll);
  }

  /** Pressing the same entry a second time, as happens with the showcase copy
      of the running challenge (a constant, so its progress never moves):
      the engine does not change and pays no challenge reward, while the
      bonus is paid again on every press (see `DistanceDestroyerPress`). */
  lemma PressTwice(b: Board, c: Challenge, roll: int)
    requires 0 <= roll < 6 && IsDistanceDestroyer(c)
    ensures var first := HandleChallengeUpdate(b, c, roll);
      var second := HandleChallengeUpdate(first.board, c, roll);
      second.board.engine == first.board.engine && second.reward == NoReward
  {
    GameLaws.UpdateProgressRepeat(b.engine, c.id, c.progress + 1.0);
  }

  /** The showcase copy of the running challenge is one the press treats as
      the running challenge, and it always reports 4.2 km. */
  lemma ShowcaseRun()
    ensures MockChallenges()[1] == RunShowcase()
    ensures IsDistanceDestroyer(RunShowcase()) && RunShowcase().progress + 1.0 == 4.2
  {
  }

  /** The showcase entries other than the running one open the upload page
      with an activity read from their ids: "pushups", "village" and
      "winter". */
  lemma PushupsShowcaseActivity()
    ensures UploadActivity(PushupsShowcase()) == Some("pushups")
  {
    FallbackActivity(PushupsShowcase(), "daily", "pushups");
  }

  lemma VillageShowcaseActivity()
    ensures UploadActivity(VillageShowcase()) == Some("village")
  {
    FallbackActivity(VillageShowcase(), "team", "village");
  }

  lemma WinterShowcaseActivity()
    ensures UploadActivity(WinterShowcase()) == Some("winter")
  {
    FallbackActivity(WinterShowcase(), "seasonal", "winter");
  }

  /** None of the three names read from the showcase ids is an activity
      name: the plural "pushups" in particular is not "pushup". */
  lemma ShowcaseActivitiesUnknown()
    ensures !IsActivityName("pushups") && !IsActivityName("village") && !IsActivityName("winter")
  {
  }

  /** An entry without an activity type whose id is `a-b` opens the upload
      page with activity `b`. */
  lemma FallbackActivity(c: Challenge, a: string, b: string)
    requires c.activityType == "" && c.id == a + "-" + b && '-' !in a && '-' !in b
    ensures UploadActivity(c) == Some(b)
  {
    SplitPair(a, b, '-');
  }

  /** The activity names the upload page recognises. */
  predicate IsActivityName(a: string) {
    a in {Jump, Shuttle, Pushup, Situp, EnduranceActivity, Domain.General}
  }
}

=== FILE: coach_athletes.dfy ===
/** The coach's athlete list: a case-insensitive search over each athlete's
    name, state and district, and the athlete opened for details. */
module CoachAthletes {
  import opened Common
  import Seqs

  /** One athlete as the coach sees them. */
  datatype Athlete = Athlete(
    id: string,
    name: string,
    avatar: string,
    xp: int,
    level: int,
    streak: int,
    lastActive: string,
    progress: int,
    state: string,
    district: string,
    joinDate: string,
    badges: int,
    challenges: int)

  /** The search matches the name, the state or the district, ignoring case. */
  predicate MatchesSearch(a: Athlete, term: string) {
    Contains(Lower(a.name), Lower(term)) ||
    Contains(Lower(a.state), Lower(term)) ||
    Contains(Lower(a.district), Lower(term))
  }

  function Matches(term: string): Athlete -> bool {
    (a: Athlete) => MatchesSearch(a, term)
  }

  /** The athletes shown for a search. */
  function FilteredAthletes(athletes: seq<Athlete>, term: string): (r: seq<Athlete>)
    ensures |r| <= |athletes|
  {
    Seqs.Filter(athletes, Matches(term))
  }

  /** An athlete is shown exactly when they are in the list and match the search. */
  lemma FilteredAthletesMembership(athletes: seq<Athlete>, term: string)
    ensures forall a :: a in FilteredAthletes(athletes, term) <==> a in athletes && MatchesSearch(a, term)
  {
    Seqs.FilterMembership(athletes, Matches(term));
  }

  /** The shown athletes keep the list's order and multiplicities. */
  lemma FilteredAthletesOrder(athletes: seq<Athlete>, term: string)
    ensures Seqs.IsSubsequence(FilteredAthletes(athletes, term), athletes)
    ensures forall a ::
      multiset(FilteredAthletes(athletes, term))[a] ==
        if MatchesSearch(a, term) then multiset(athletes)[a] else 0
  {
    Seqs.FilterSpec(athletes, Matches(term));
  }

  /** An empty search shows every athlete. */
  lemma EmptySearchShowsAll(athletes: seq<Athlete>)
    ensures FilteredAthletes(athletes, "") == athletes
  {
    forall a | a in athletes
      ensures Matches("")(a)
    {
      EmptyIsContained(Lower(a.name));
    }
    Seqs.FilterAll(athletes, Matches(""));
  }

  /** The search ignores letter case: an upper-cased term shows the same athletes. */
  lemma SearchIgnoresCase(athletes: seq<Athlete>, term: string)
    ensures FilteredAthletes(athletes, Upper(term)) == FilteredAthletes(athletes, term)
  {
    LowerOfUpper(term);
    Seqs.FilterCongruent(athletes, Matches(Upper(term)), Matches(term));
  }

  /** The athlete whose details are open: the first with the selected id, or
      none when nothing (or an unknown id) is selected. */
  function SelectedAthlete(athletes: seq<Athlete>, selected: Option<string>): (r: Option<Athlete>)
    ensures selected.None? ==> r.None?
    ensures r.Some? ==> r.value in athletes && selected == Some(r.value.id)
    ensures r.None? ==> forall i :: 0 <= i < |athletes| ==> selected != Some(athletes[i].id)
    ensures r.Some? ==>
      exists i :: 0 <= i < |athletes| && athletes[i] == r.value &&
        forall j :: 0 <= j < i ==> selected != Some(athletes[j].id)
  {
    Seqs.FindFirst(athletes, (a: Athlete) => selected == Some(a.id));
    Seqs.Find(athletes, (a: Athlete) => selected == Some(a.id))
  }
}

=== FILE: coach_badges.dfy ===
/** The coach's badge library: category tabs with counts, a case-insensitive
    text search combined with a category filter, and the badge opened for
    details. */
module CoachBadges {
  import opened Common
  import opened Domain
  import Seqs
  import Catalog

  /** The category filter's value for "every category". */
  const AllCategories := "all"

  /** The search matches the badge's name or description, ignoring case. */
  predicate MatchesSearch(b: Badge, term: string) {
    Contains(Lower(b.name), Lower(term)) || Contains(Lower(b.description), Lower(term))
  }

  /** The badge belongs to the selected category, or every category is selected. */
  predicate MatchesCategory(b: Badge, selected: string) {
    selected == AllCategories || CategoryName(b.category) == selected
  }

  function Keeps(term: string, selected: string): Badge -> bool {
    (b: Badge) => MatchesSearch(b, term) && MatchesCategory(b, selected)
  }

  /** The badges shown in the library. */
  function FilteredBadges(badges: seq<Badge>, term: string, selected: string): (r: seq<Badge>)
    ensures |r| <= |badges|
  {
    Seqs.Filter(badges, Keeps(term, selected))
  }

  /** A badge is shown exactly when it is in the library and matches both the
      search and the category. */
  lemma FilteredBadgesMembership(badges: seq<Badge>, term: string, selected: string)
    ensures forall b :: b in FilteredBadges(badges, term, selected) <==>
      b in badges && MatchesSearch(b, term) && MatchesCategory(b, selected)
  {
    Seqs.FilterMembership(badges, Keeps(term, selected));
  }

  /** The shown badges keep the library's order and multiplicities. */
  lemma FilteredBadgesOrder(badges: seq<Badge>, term: string, selected: string)
    ensures Seqs.IsSubsequence(FilteredBadges(badges, term, selected), badges)
    ensures forall b ::
      multiset(FilteredBadges(badges, term, selected))[b] ==
        if MatchesSearch(b, term) && MatchesCategory(b, selected) then multiset(badges)[b] else 0
  {
    Seqs.FilterSpec(badges, Keeps(term, selected));
  }

  /** With no search text and every category selected, the whole library is shown. */
  lemma EmptySearchShowsAll(badges: seq<Badge>)
    ensures FilteredBadges(badges, "", AllCategories) == badges
  {
    forall b | b in badges
      ensures Keeps("", AllCategories)(b)
    {
      EmptyIsContained(Lower(b.name));
    }
    Seqs.FilterAll(badges, Keeps("", AllCategories));
  }

  /** The search ignores letter case: an upper-cased term shows the same badges. */
  lemma SearchIgnoresCase(badges: seq<Badge>, term: string, selected: string)
    ensures FilteredBadges(badges, Upper(term), selected) == FilteredBadges(badges, term, selected)
  {
    LowerOfUpper(term);
    Seqs.FilterCongruent(badges, Keeps(Upper(term), selected), Keeps(term, selected));
  }

  /** Selecting a category with no search text shows exactly that category's badges. */
  lemma CategoryTabShowsCategory(badges: seq<Badge>, c: BadgeCategory)
    ensures FilteredBadges(badges, "", CategoryName(c)) == Seqs.Filter(badges, Catalog.InCategory(c))
  {
    forall b | b in badges
      ensures Keeps("", CategoryName(c))(b) == Catalog.InCategory(c)(b)
    {
      EmptyIsContained(Lower(b.name));
      CategoryNameInjective(b.category, c);
    }
    Seqs.FilterCongruent(badges, Keeps("", CategoryName(c)), Catalog.InCategory(c));
  }

  lemma CategoryNameInjective(c: BadgeCategory, d: BadgeCategory)
    ensures CategoryName(c) == CategoryName(d) <==> c == d
  {
  }

  // ---------------------------------------------------------------------
  // Category tabs
  // ---------------------------------------------------------------------

  datatype CategoryTab = CategoryTab(id: string, name: string, count: nat)

  function CategoryCount(badges: seq<Badge>, c: BadgeCategory): nat {
    Seqs.Count(badges, Catalog.InCategory(c))
  }

  /** The six tabs: every category first, then one per category. */
  function CategoryTabs(badges: seq<Badge>): (r: seq<CategoryTab>)
    ensures |r| == 6
    ensures r[0] == CategoryTab(AllCategories, "All Categories", |badges|)
  {
    [
      CategoryTab(AllCategories, "All Categories", |badges|),
      CategoryTab("consistency", "Consistency", CategoryCount(badges, Consistency)),
      CategoryTab("strength", "Strength", CategoryCount(badges, Strength)),
      CategoryTab("endurance", "Endurance", CategoryCount(badges, Endurance)),
      CategoryTab("speed", "Speed", CategoryCount(badges, Speed)),
      CategoryTab("special", "Special", CategoryCount(badges, Special))
    ]
  }

  /** Each category tab's id is the category's name, and its count is the
      number of badges the tab shows when selected. */
  lemma CategoryTabsCount(badges: seq<Badge>, c: BadgeCategory)
    ensures var k := match c
      case Consistency => 1 case Strength => 2 case Endurance => 3 case Speed => 4 case Special => 5;
      CategoryTabs(badges)[k].id == CategoryName(c) &&
      CategoryTabs(badges)[k].count == |FilteredBadges(badges, "", CategoryName(c))|
  {
    CategoryTabShowsCategory(badges, c);
  }

  /** The five category counts add up to the "all" count. */
  lemma {:induction false} CategoryCountsPartition(badges: seq<Badge>)
    ensures CategoryCount(badges, Consistency) + CategoryCount(badges, Strength) +
            CategoryCount(badges, Endurance) + CategoryCount(badges, Speed) +
            CategoryCount(badges, Special) == |badges|
    decreases |badges|
  {
    if badges != [] {
      CategoryCountsPartition(badges[1..]);
    }
  }

  /** On the seeded catalog the tabs read 38, 6, 8, 8, 8 and 8. */
  lemma InitialCategoryTabs()
    ensures var t := CategoryTabs(Catalog.InitialBadges());
      t[0].count == 38 && t[1].count == 6 && t[2].count == 8 && t[3].count == 8 &&
      t[4].count == 8 && t[5].count == 8
  {
    Catalog.InitialBadgeCounts();
    TabsOfCounts(Catalog.InitialBadges(), 38, 6, 8);
  }

  /** The tab counts read off the list's length and category counts. */
  lemma TabsOfCounts(badges: seq<Badge>, total: nat, first: nat, other: nat)
    requires |badges| == total && CategoryCount(badges, Consistency) == first
    requires CategoryCount(badges, Strength) == other && CategoryCount(badges, Endurance) == other
    requires CategoryCount(badges, Speed) == other && CategoryCount(badges, Special) == other
    ensures var t := CategoryTabs(badges);
      t[0].count == total && t[1].count == first && t[2].count == other && t[3].count == other &&
      t[4].count == other && t[5].count == other
  {
  }

  // ---------------------------------------------------------------------
  // The opened badge
  // ---------------------------------------------------------------------

  /** The badge whose details are open: the first with the selected id, or
      none when nothing (or an unknown id) is selected. */
  function SelectedBadge(badges: seq<Badge>, selected: Option<string>): (r: Option<Badge>)
    ensures selected.None? ==> r.None?
    ensures r.Some? ==> r.value in badges && selected == Some(r.value.id)
    ensures r.None? ==> forall i :: 0 <= i < |badges| ==> selected != Some(badges[i].id)
    ensures r.Some? ==>
      exists i :: 0 <= i < |badges| && badges[i] == r.value &&
        forall j :: 0 <= j < i ==> selected != Some(badges[j].id)
  {
    Seqs.FindFirst(badges, (b: Badge) => selected == Some(b.id));
    Seqs.Find(badges, (b: Badge) => selected == Some(b.id))
  }
}

=== FILE: codec.dfy ===
/** How the application's records are written to and read back from JSON:
    every present field under its own key, optional fields omitted when
    absent, enumerations as their lower-case names. Decoding is the partial
    inverse; it refuses values of the wrong shape. */
module Codec {
  import opened Common
  import opened Domain
  import opened Json

  function RoleName(r: Role): string {
    match r
    case Athlete => "athlete"
    case Coach => "coach"
  }

  function RoleOf(j: Json): (r: Option<Role>)
    ensures r.Some? ==> j == JStr(RoleName(r.value))
  {
    if j == JStr("athlete") then Some(Athlete)
    else if j == JStr("coach") then Some(Coach)
    else None
  }

  function CategoryOf(j: Json): (r: Option<BadgeCategory>)
    ensures r.Some? ==> j == JStr(CategoryName(r.value))
  {
    if j == JStr("consistency") then Some(Consistency)
    else if j == JStr("strength") then Some(Strength)
    else if j == JStr("endurance") then Some(Endurance)
    else if j == JStr("speed") then Some(Speed)
    else if j == JStr("special") then Some(Special)
    else None
  }

  function ChallengeTypeOf(j: Json): (r: Option<ChallengeType>)
    ensures r.Some? ==> j == JStr(ChallengeTypeName(r.value))
  {
    if j == JStr("daily") then Some(Daily)
    else if j == JStr("weekly") then Some(Weekly)
    else if j == JStr("team") then Some(Team)
    else if j == JStr("seasonal") then Some(Seasonal)
    else None
  }

  // ---------------------------------------------------------------------
  // User profile
  // ---------------------------------------------------------------------

  /** The fields of a stored user profile, one constructor per JSON key. */
  datatype UserField =
    | UId
    | UEmail
    | UName
    | URole
    | UAvatar
    | UXp
    | ULevel
    | UCoins
    | UStreak
    | UOnboardingComplete
    | UProfileComplete
    | UGender
    | UMobile
    | UState
    | UDistrict
    | UAchievements
    | UHeight
    | UWeight
    | UHeightProof
    | UBio
    | UExpertise

  const UserFields: set<UserField> := {
    UId, UEmail, UName, URole, UAvatar, UXp,
    ULevel, UCoins, UStreak, UOnboardingComplete, UProfileComplete, UGender,
    UMobile, UState, UDistrict, UAchievements, UHeight, UWeight,
    UHeightProof, UBio, UExpertise}

  function UserFieldName(f: UserField): string {
    match f
    case UId => "id"
    case UEmail => "email"
    case UName => "name"
    case URole => "role"
    case UAvatar => "avatar"
    case UXp => "xp"
    case ULevel => "level"
    case UCoins => "coins"
    case UStreak => "streak"
    case UOnboardingComplete => "onboardingComplete"
    case UProfileComplete => "profileComplete"
    case UGender => "gender"
    case UMobile => "mobile"
    case UState => "state"
    case UDistrict => "district"
    case UAchievements => "achievements"
    case UHeight => "height"
    case UWeight => "weight"
    case UHeightProof => "heightProof"
    case UBio => "bio"
    case UExpertise => "expertise"
  }

  /** The field a key names, if any; narrowed by length first. */
  function UserFieldOf(k: string): Option<UserField> {
    match |k|
    case 2 => if k == "id" then Some(UId) else if k == "xp" then Some(UXp) else None
    case 3 => if k == "bio" then Some(UBio) else None
    case 4 => if k == "name" then Some(UName) else if k == "role" then Some(URole) else None
    case 5 => if k == "email" then Some(UEmail) else if k == "level" then Some(ULevel) else if k == "coins" then Some(UCoins) else if k == "state" then Some(UState) else None
    case 6 => if k == "avatar" then Some(UAvatar) else if k == "streak" then Some(UStreak) else if k == "gender" then Some(UGender) else if k == "mobile" then Some(UMobile) else if k == "height" then Some(UHeight) else if k == "weight" then Some(UWeight) else None
    case 8 => if k == "district" then Some(UDistrict) else None
    case 9 => if k == "expertise" then Some(UExpertise) else None
    case 11 => if k == "heightProof" then Some(UHeightProof) else None
    case 12 => if k == "achievements" then Some(UAchievements) else None
    case 15 => if k == "profileComplete" then Some(UProfileComplete) else None
    case 18 => if k == "onboardingComplete" then Some(UOnboardingComplete) else None
    case _ => None
  }

  /** Distinct fields have distinct keys. */
  lemma UserFieldNamesDistinct()
    ensures NamesDistinct(UserFieldName)
  {
    forall f: UserField
      ensures UserFieldOf(UserFieldName(f)) == Some(f)
    {
    }
  }

  /** The JSON value written for field `f` of `u`; `None` when the field is absent. */
  function UserValue(u: UserProfile, f: UserField): Option<Json> {
    match f
    case UId => Some(JStr(u.id))
    case UEmail => Some(JStr(u.email))
    case UName => Some(JStr(u.name))
    case URole => Some(JStr(RoleName(u.role)))
    case UAvatar => OptStr(u.avatar)
    case UXp => OptInt(u.xp)
    case ULevel => OptInt(u.level)
    case UCoins => OptInt(u.coins)
    case UStreak => OptInt(u.streak)
    case UOnboardingComplete => OptBool(u.onboardingComplete)
    case UProfileComplete => OptBool(u.profileComplete)
    case UGender => OptStr(u.gender)
    case UMobile => OptStr(u.mobile)
    case UState => OptStr(u.state)
    case UDistrict => OptStr(u.district)
    case UAchievements => OptStr(u.achievements)
    case UHeight => OptStr(u.height)
    case UWeight => OptStr(u.weight)
    case UHeightProof => OptStr(u.heightProof)
    case UBio => OptStr(u.bio)
    case UExpertise => OptStr(u.expertise)
  }

  function UserValues(u: UserProfile): UserField -> Option<Json> {
    f => UserValue(u, f)
  }

  function EncodeUser(u: UserProfile): Json {
    UserFieldNamesDistinct();
    JObj(Object(UserFields, UserFieldName, UserValues(u)))
  }

  /** Every field of a stored user profile is present with the right shape, or optional and absent. */
  predicate UserShapeOk(m: map<string, Json>) {
    UserFieldName(UId) in m && m[UserFieldName(UId)].JStr? &&
    UserFieldName(UEmail) in m && m[UserFieldName(UEmail)].JStr? &&
    UserFieldName(UName) in m && m[UserFieldName(UName)].JStr? &&
    UserFieldName(URole) in m && RoleOf(m[UserFieldName(URole)]).Some? &&
    OptStrOk(m, UserFieldName(UAvatar)) &&
    OptIntOk(m, UserFieldName(UXp)) &&
    OptIntOk(m, UserFieldName(ULevel)) &&
    OptIntOk(m, UserFieldName(UCoins)) &&
    OptIntOk(m, UserFieldName(UStreak)) &&
    OptBoolOk(m, UserFieldName(UOnboardingComplete)) &&
    OptBoolOk(m, UserFieldName(UProfileComplete)) &&
    OptStrOk(m, UserFieldName(UGender)) &&
    OptStrOk(m, UserFieldName(UMobile)) &&
    OptStrOk(m, UserFieldName(UState)) &&
    OptStrOk(m, UserFieldName(UDistrict)) &&
    OptStrOk(m, UserFieldName(UAchievements)) &&
    OptStrOk(m, UserFieldName(UHeight)) &&
    OptStrOk(m, UserFieldName(UWeight)) &&
    OptStrOk(m, UserFieldName(UHeightProof)) &&
    OptStrOk(m, UserFieldName(UBio)) &&
    OptStrOk(m, UserFieldName(UExpertise))
  }

  function UserFrom(m: map<string, Json>): UserProfile
    requires UserShapeOk(m)
  {
    UserProfile(
      m[UserFieldName(UId)].s,
      m[UserFieldName(UEmail)].s,
      m[UserFieldName(UName)].s,
      RoleOf(m[UserFieldName(URole)]).value,
      GetStr(m, UserFieldName(UAvatar)),
      GetInt(m, UserFieldName(UXp)),
      GetInt(m, UserFieldName(ULevel)),
      GetInt(m, UserFieldName(UCoins)),
      GetInt(m, UserFieldName(UStreak)),
      GetBool(m, UserFieldName(UOnboardingComplete)),
      GetBool(m, UserFieldName(UProfileComplete)),
      GetStr(m, UserFieldName(UGender)),
      GetStr(m, UserFieldName(UMobile)),
      GetStr(m, UserFieldName(UState)),
      GetStr(m, UserFieldName(UDistrict)),
      GetStr(m, UserFieldName(UAchievements)),
      GetStr(m, UserFieldName(UHeight)),
      GetStr(m, UserFieldName(UWeight)),
      GetStr(m, UserFieldName(UHeightProof)),
      GetStr(m, UserFieldName(UBio)),
      GetStr(m, UserFieldName(UExpertise)))
  }

  function DecodeUser(j: Json): (r: Option<UserProfile>)
    ensures r.Some? ==> j.JObj? && UserShapeOk(j.fields)
  {
    if j.JObj? && UserShapeOk(j.fields) then Some(UserFrom(j.fields)) else None
  }

  /** Fields 1 to 7 of an object carrying exactly the fields of `u` read back. */
  lemma DecodeUserPart1(m: map<string, Json>, u: UserProfile)
    requires forall f :: UserFieldName(f) in m <==> UserValue(u, f).Some?
    requires forall f :: UserFieldName(f) in m ==> UserValue(u, f) == Some(m[UserFieldName(f)])
    ensures UserFieldName(UId) in m && m[UserFieldName(UId)].JStr? &&
      UserFieldName(UEmail) in m && m[UserFieldName(UEmail)].JStr? &&
      UserFieldName(UName) in m && m[UserFieldName(UName)].JStr? &&
      UserFieldName(URole) in m && RoleOf(m[UserFieldName(URole)]).Some? &&
      OptStrOk(m, UserFieldName(UAvatar)) &&
      OptIntOk(m, UserFieldName(UXp)) &&
      OptIntOk(m, UserFieldName(ULevel))
    ensures UserShapeOk(m) ==>
      UserFrom(m).id == u.id &&
      UserFrom(m).email == u.email &&
      UserFrom(m).name == u.name &&
      UserFrom(m).role == u.role &&
      UserFrom(m).avatar == u.avatar &&
      UserFrom(m).xp == u.xp &&
      UserFrom(m).level == u.level
  {
    assert UserFieldName(UId) in m <==> UserValue(u, UId).Some?;
    assert UserFieldName(UEmail) in m <==> UserValue(u, UEmail).Some?;
    assert UserFieldName(UName) in m <==> UserValue(u, UName).Some?;
    assert UserFieldName(URole) in m <==> UserValue(u, URole).Some?;
    assert UserFieldName(UAvatar) in m <==> UserValue(u, UAvatar).Some?;
    ReadStr(m, UserFieldName(UAvatar), u.avatar);
    assert UserFieldName(UXp) in m <==> UserValue(u, UXp).Some?;
    ReadInt(m, UserFieldName(UXp), u.xp);
    assert UserFieldName(ULevel) in m <==> UserValue(u, ULevel).Some?;
    ReadInt(m, UserFieldName(ULevel), u.level);
  }

  /** Fields 8 to 14 of an object carrying exactly the fields of `u` read back. */
  lemma DecodeUserPart2(m: map<string, Json>, u: UserProfile)
    requires forall f :: UserFieldName(f) in m <==> UserValue(u, f).Some?
    requires forall f :: UserFieldName(f) in m ==> UserValue(u, f) == Some(m[UserFieldName(f)])
    ensures OptIntOk(m, UserFieldName(UCoins)) &&
      OptIntOk(m, UserFieldName(UStreak)) &&
      OptBoolOk(m, UserFieldName(UOnboardingComplete)) &&
      OptBoolOk(m, UserFieldName(UProfileComplete)) &&
      OptStrOk(m, UserFieldName(UGender)) &&
      OptStrOk(m, UserFieldName(UMobile)) &&
      OptStrOk(m, UserFieldName(UState))
    ensures UserShapeOk(m) ==>
      UserFrom(m).coins == u.coins &&
      UserFrom(m).streak == u.streak &&
      UserFrom(m).onboardingComplete == u.onboardingComplete &&
      UserFrom(m).profileComplete == u.profileComplete &&
      UserFrom(m).gender == u.gender &&
      UserFrom(m).mobile == u.mobile &&
      UserFrom(m).state == u.state
  {
    assert UserFieldName(UCoins) in m <==> UserValue(u, UCoins).Some?;
    ReadInt(m, UserFieldName(UCoins), u.coins);
    assert UserFieldName(UStreak) in m <==> UserValue(u, UStreak).Some?;
    ReadInt(m, UserFieldName(UStreak), u.streak);
    assert UserFieldName(UOnboardingComplete) in m <==> UserValue(u, UOnboardingComplete).Some?;
    ReadBool(m, UserFieldName(UOnboardingComplete), u.onboardingComplete);
    assert UserFieldName(UProfileComplete) in m <==> UserValue(u, UProfileComplete).Some?;
    ReadBool(m, UserFieldName(UProfileComplete), u.profileComplete);
    assert UserFieldName(UGender) in m <==> UserValue(u, UGender).Some?;
    ReadStr(m, UserFieldName(UGender), u.gender);
    assert UserFieldName(UMobile) in m <==> UserValue(u, UMobile).Some?;
    ReadStr(m, UserFieldName(UMobile), u.mobile);
    assert UserFieldName(UState) in m <==> UserValue(u, UState).Some?;
    ReadStr(m, UserFieldName(UState), u.state);
  }

  /** Fields 15 to 21 of an object carrying exactly the fields of `u` read back. */
  lemma DecodeUserPart3(m: map<string, Json>, u: UserProfile)
    requires forall f :: UserFieldName(f) in m <==> UserValue(u, f).Some?
    requires forall f :: UserFieldName(f) in m ==> UserValue(u, f) == Some(m[UserFieldName(f)])
    ensures OptStrOk(m, UserFieldName(UDistrict)) &&
      OptStrOk(m, UserFieldName(UAchievements)) &&
      OptStrOk(m, UserFieldName(UHeight)) &&
      OptStrOk(m, UserFieldName(UWeight)) &&
      OptStrOk(m, UserFieldName(UHeightProof)) &&
      OptStrOk(m, UserFieldName(UBio)) &&
      OptStrOk(m, UserFieldName(UExpertise))
    ensures UserShapeOk(m) ==>
      UserFrom(m).district == u.district &&
      UserFrom(m).achievements == u.achievements &&
      UserFrom(m).height == u.height &&
      UserFrom(m).weight == u.weight &&
      UserFrom(m).heightProof == u.heightProof &&
      UserFrom(m).bio == u.bio &&
      UserFrom(m).expertise == u.expertise
  {
    assert UserFieldName(UDistrict) in m <==> UserValue(u, UDistrict).Some?;
    ReadStr(m, UserFieldName(UDistrict), u.district);
    assert UserFieldName(UAchievements) in m <==> UserValue(u, UAchievements).Some?;
    ReadStr(m, UserFieldName(UAchievements), u.achievements);
    assert UserFieldName(UHeight) in m <==> UserValue(u, UHeight).Some?;
    ReadStr(m, UserFieldName(UHeight), u.height);
    assert UserFieldName(UWeight) in m <==> UserValue(u, UWeight).Some?;
    ReadStr(m, UserFieldName(UWeight), u.weight);
    assert UserFieldName(UHeightProof) in m <==> UserValue(u, UHeightProof).Some?;
    ReadStr(m, UserFieldName(UHeightProof), u.heightProof);
    assert UserFieldName(UBio) in m <==> UserValue(u, UBio).Some?;
    ReadStr(m, UserFieldName(UBio), u.bio);
    assert UserFieldName(UExpertise) in m <==> UserValue(u, UExpertise).Some?;
    ReadStr(m, UserFieldName(UExpertise), u.expertise);
  }

  /** An object carrying exactly the fields of `u` decodes to `u`. */
  lemma DecodeUserFields(m: map<string, Json>, u: UserProfile)
    requires forall f :: UserFieldName(f) in m <==> UserValue(u, f).Some?
    requires forall f :: UserFieldName(f) in m ==> UserValue(u, f) == Some(m[UserFieldName(f)])
    ensures UserShapeOk(m) && UserFrom(m) == u
  {
    DecodeUserPart1(m, u);
    DecodeUserPart2(m, u);
    DecodeUserPart3(m, u);
  }

  /** The encoded object holds exactly the present fields, each under its key. */
  lemma EncodeUserFields(u: UserProfile)
    ensures var m := EncodeUser(u).fields;
      (forall f :: UserFieldName(f) in m <==> UserValue(u, f).Some?) &&
      (forall f :: UserFieldName(f) in m ==> UserValue(u, f) == Some(m[UserFieldName(f)]))
  {
    UserFieldNamesDistinct();
    forall f: UserField
      ensures f in UserFields
    {
      match f {
        case UId =>
        case UEmail =>
        case UName =>
        case URole =>
        case UAvatar =>
        case UXp =>
        case ULevel =>
        case UCoins =>
        case UStreak =>
        case UOnboardingComplete =>
        case UProfileComplete =>
        case UGender =>
        case UMobile =>
        case UState =>
        case UDistrict =>
        case UAchievements =>
        case UHeight =>
        case UWeight =>
        case UHeightProof =>
        case UBio =>
        case UExpertise =>
      }
    }
    forall f
      ensures var m := EncodeUser(u).fields;
        (UserFieldName(f) in m <==> UserValue(u, f).Some?) &&
        (UserFieldName(f) in m ==> UserValue(u, f) == Some(m[UserFieldName(f)]))
    {
      ObjectLookup(UserFields, UserFieldName, UserValues(u), f);
    }
  }

  /** A stored user profile reads back as the value that was written. */
  lemma UserRoundTrip(u: UserProfile)
    ensures DecodeUser(EncodeUser(u)) == Some(u)
  {
    EncodeUserFields(u);
    DecodeUserFields(EncodeUser(u).fields, u);
  }

  // ---------------------------------------------------------------------
  // Badges and challenges
  // ---------------------------------------------------------------------

  /** The fields of a stored badge, one constructor per JSON key. */
  datatype BadgeField =
    | BId
    | BName
    | BDescription
    | BCategory
    | BIcon
    | BUnlocked
    | BProgress
    | BMaxProgress
    | BXpReward
    | BCoinReward
    | BRequirements
    | BLinkedChallenge

  const BadgeFields: set<BadgeField> := {
    BId, BName, BDescription, BCategory, BIcon, BUnlocked,
    BProgress, BMaxProgress, BXpReward, BCoinReward, BRequirements, BLinkedChallenge}

  function BadgeFieldName(f: BadgeField): string {
    match f
    case BId => "id"
    case BName => "name"
    case BDescription => "description"
    case BCategory => "category"
    case BIcon => "icon"
    case BUnlocked => "unlocked"
    case BProgress => "progress"
    case BMaxProgress => "maxProgress"
    case BXpReward => "xpReward"
    case BCoinReward => "coinReward"
    case BRequirements => "requirements"
    case BLinkedChallenge => "linkedChallenge"
  }

  /** The field a key names, if any; narrowed by length first. */
  function BadgeFieldOf(k: string): Option<BadgeField> {
    match |k|
    case 2 => if k == "id" then Some(BId) else None
    case 4 => if k == "name" then Some(BName) else if k == "icon" then Some(BIcon) else None
    case 8 => if k == "category" then Some(BCategory) else if k == "unlocked" then Some(BUnlocked) else if k == "progress" then Some(BProgress) else if k == "xpReward" then Some(BXpReward) else None
    case 10 => if k == "coinReward" then Some(BCoinReward) else None
    case 11 => if k == "description" then Some(BDescription) else if k == "maxProgress" then Some(BMaxProgress) else None
    case 12 => if k == "requirements" then Some(BRequirements) else None
    case 15 => if k == "linkedChallenge" then Some(BLinkedChallenge) else None
    case _ => None
  }

  /** Distinct fields have distinct keys. */
  lemma BadgeFieldNamesDistinct()
    ensures NamesDistinct(BadgeFieldName)
  {
    forall f: BadgeField
      ensures BadgeFieldOf(BadgeFieldName(f)) == Some(f)
    {
    }
  }

  /** The JSON value written for field `f` of `b`; `None` when the field is absent. */
  function BadgeValue(b: Badge, f: BadgeField): Option<Json> {
    match f
    case BId => Some(JStr(b.id))
    case BName => Some(JStr(b.name))
    case BDescription => Some(JStr(b.description))
    case BCategory => Some(JStr(CategoryName(b.category)))
    case BIcon => Some(JStr(b.icon))
    case BUnlocked => Some(JBool(b.unlocked))
    case BProgress => Some(JNum(b.progress))
    case BMaxProgress => Some(JNum(b.maxProgress))
    case BXpReward => Some(NumOf(b.xpReward))
    case BCoinReward => Some(NumOf(b.coinReward))
    case BRequirements => Some(JStr(b.requirements))
    case BLinkedChallenge => OptStr(b.linkedChallenge)
  }

  function BadgeValues(b: Badge): BadgeField -> Option<Json> {
    f => BadgeValue(b, f)
  }

  function EncodeBadge(b: Badge): Json {
    BadgeFieldNamesDistinct();
    JObj(Object(BadgeFields, BadgeFieldName, BadgeValues(b)))
  }

  /** Every field of a stored badge is present with the right shape, or optional and absent. */
  predicate BadgeShapeOk(m: map<string, Json>) {
    BadgeFieldName(BId) in m && m[BadgeFieldName(BId)].JStr? &&
    BadgeFieldName(BName) in m && m[BadgeFieldName(BName)].JStr? &&
    BadgeFieldName(BDescription) in m && m[BadgeFieldName(BDescription)].JStr? &&
    BadgeFieldName(BCategory) in m && CategoryOf(m[BadgeFieldName(BCategory)]).Some? &&
    BadgeFieldName(BIcon) in m && m[BadgeFieldName(BIcon)].JStr? &&
    BadgeFieldName(BUnlocked) in m && m[BadgeFieldName(BUnlocked)].JBool? &&
    BadgeFieldName(BProgress) in m && m[BadgeFieldName(BProgress)].JNum? &&
    BadgeFieldName(BMaxProgress) in m && m[BadgeFieldName(BMaxProgress)].JNum? &&
    BadgeFieldName(BXpReward) in m && IntOf(m[BadgeFieldName(BXpReward)]).Some? &&
    BadgeFieldName(BCoinReward) in m && IntOf(m[BadgeFieldName(BCoinReward)]).Some? &&
    BadgeFieldName(BRequirements) in m && m[BadgeFieldName(BRequirements)].JStr? &&
    OptStrOk(m, BadgeFieldName(BLinkedChallenge))
  }

  function BadgeFrom(m: map<string, Json>): Badge
    requires BadgeShapeOk(m)
  {
    Badge(
      m[BadgeFieldName(BId)].s,
      m[BadgeFieldName(BName)].s,
      m[BadgeFieldName(BDescription)].s,
      CategoryOf(m[BadgeFieldName(BCategory)]).value,
      m[BadgeFieldName(BIcon)].s,
      m[BadgeFieldName(BUnlocked)].b,
      m[BadgeFieldName(BProgress)].n,
      m[BadgeFieldName(BMaxProgress)].n,
      IntOf(m[BadgeFieldName(BXpReward)]).value,
      IntOf(m[BadgeFieldName(BCoinReward)]).value,
      m[BadgeFieldName(BRequirements)].s,
      GetStr(m, BadgeFieldName(BLinkedChallenge)))
  }

  function DecodeBadge(j: Json): (r: Option<Badge>)
    ensures r.Some? ==> j.JObj? && BadgeShapeOk(j.fields)
  {
    if j.JObj? && BadgeShapeOk(j.fields) then Some(BadgeFrom(j.fields)) else None
  }

  /** Fields 1 to 7 of an object carrying exactly the fields of `b` read back. */
  lemma DecodeBadgePart1(m: map<string, Json>, b: Badge)
    requires forall f :: BadgeFieldName(f) in m <==> BadgeValue(b, f).Some?
    requires forall f :: BadgeFieldName(f) in m ==> BadgeValue(b, f) == Some(m[BadgeFieldName(f)])
    ensures BadgeFieldName(BId) in m && m[BadgeFieldName(BId)].JStr? &&
      BadgeFieldName(BName) in m && m[BadgeFieldName(BName)].JStr? &&
      BadgeFieldName(BDescription) in m && m[BadgeFieldName(BDescription)].JStr? &&
      BadgeFieldName(BCategory) in m && CategoryOf(m[BadgeFieldName(BCategory)]).Some? &&
      BadgeFieldName(BIcon) in m && m[BadgeFieldName(BIcon)].JStr? &&
      BadgeFieldName(BUnlocked) in m && m[BadgeFieldName(BUnlocked)].JBool? &&
      BadgeFieldName(BProgress) in m && m[BadgeFieldName(BProgress)].JNum?
    ensures BadgeShapeOk(m) ==>
      BadgeFrom(m).id == b.id &&
      BadgeFrom(m).name == b.name &&
      BadgeFrom(m).description == b.description &&
      BadgeFrom(m).category == b.category &&
      BadgeFrom(m).icon == b.icon &&
      BadgeFrom(m).unlocked == b.unlocked &&
      BadgeFrom(m).progress == b.progress
  {
    assert BadgeFieldName(BId) in m <==> BadgeValue(b, BId).Some?;
    assert BadgeFieldName(BName) in m <==> BadgeValue(b, BName).Some?;
    assert BadgeFieldName(BDescription) in m <==> BadgeValue(b, BDescription).Some?;
    assert BadgeFieldName(BCategory) in m <==> BadgeValue(b, BCategory).Some?;
    assert BadgeFieldName(BIcon) in m <==> BadgeValue(b, BIcon).Some?;
    assert BadgeFieldName(BUnlocked) in m <==> BadgeValue(b, BUnlocked).Some?;
    assert BadgeFieldName(BProgress) in m <==> BadgeValue(b, BProgress).Some?;
  }

  /** Fields 8 to 12 of an object carrying exactly the fields of `b` read back. */
  lemma DecodeBadgePart2(m: map<string, Json>, b: Badge)
    requires forall f :: BadgeFieldName(f) in m <==> BadgeValue(b, f).Some?
    requires forall f :: BadgeFieldName(f) in m ==> BadgeValue(b, f) == Some(m[BadgeFieldName(f)])
    ensures BadgeFieldName(BMaxProgress) in m && m[BadgeFieldName(BMaxProgress)].JNum? &&
      BadgeFieldName(BXpReward) in m && IntOf(m[BadgeFieldName(BXpReward)]).Some? &&
      BadgeFieldName(BCoinReward) in m && IntOf(m[BadgeFieldName(BCoinReward)]).Some? &&
      BadgeFieldName(BRequirements) in m && m[BadgeFieldName(BRequirements)].JStr? &&
      OptStrOk(m, BadgeFieldName(BLinkedChallenge))
    ensures BadgeShapeOk(m) ==>
      BadgeFrom(m).maxProgress == b.maxProgress &&
      BadgeFrom(m).xpReward == b.xpReward &&
      BadgeFrom(m).coinReward == b.coinReward &&
      BadgeFrom(m).requirements == b.requirements &&
      BadgeFrom(m).linkedChallenge == b.linkedChallenge
  {
    assert BadgeFieldName(BMaxProgress) in m <==> BadgeValue(b, BMaxProgress).Some?;
    assert BadgeFieldName(BXpReward) in m <==> BadgeValue(b, BXpReward).Some?;
    assert BadgeFieldName(BCoinReward) in m <==> BadgeValue(b, BCoinReward).Some?;
    assert BadgeFieldName(BRequirements) in m <==> BadgeValue(b, BRequirements).Some?;
    assert BadgeFieldName(BLinkedChallenge) in m <==> BadgeValue(b, BLinkedChallenge).Some?;
    ReadStr(m, BadgeFieldName(BLinkedChallenge), b.linkedChallenge);
  }

  /** An object carrying exactly the fields of `b` decodes to `b`. */
  lemma DecodeBadgeFields(m: map<string, Json>, b: Badge)
    requires forall f :: BadgeFieldName(f) in m <==> BadgeValue(b, f).Some?
    requires forall f :: BadgeFieldName(f) in m ==> BadgeValue(b, f) == Some(m[BadgeFieldName(f)])
    ensures BadgeShapeOk(m) && BadgeFrom(m) == b
  {
    DecodeBadgePart1(m, b);
    DecodeBadgePart2(m, b);
  }

  /** The encoded object holds exactly the present fields, each under its key. */
  lemma EncodeBadgeFields(b: Badge)
    ensures var m := EncodeBadge(b).fields;
      (forall f :: BadgeFieldName(f) in m <==> BadgeValue(b, f).Some?) &&
      (forall f :: BadgeFieldName(f) in m ==> BadgeValue(b, f) == Some(m[BadgeFieldName(f)]))
  {
    BadgeFieldNamesDistinct();
    forall f: BadgeField
      ensures f in BadgeFields
    {
      match f {
        case BId =>
        case BName =>
        case BDescription =>
        case BCategory =>
        case BIcon =>
        case BUnlocked =>
        case BProgress =>
        case BMaxProgress =>
        case BXpReward =>
        case BCoinReward =>
        case BRequirements =>
        case BLinkedChallenge =>
      }
    }
    forall f
      ensures var m := EncodeBadge(b).fields;
        (BadgeFieldName(f) in m <==> BadgeValue(b, f).Some?) &&
        (BadgeFieldName(f) in m ==> BadgeValue(b, f) == Some(m[BadgeFieldName(f)]))
    {
      ObjectLookup(BadgeFields, BadgeFieldName, BadgeValues(b), f);
    }
  }

  /** A stored badge reads back as the value that was written. */
  lemma BadgeRoundTrip(b: Badge)
    ensures DecodeBadge(EncodeBadge(b)) == Some(b)
  {
    EncodeBadgeFields(b);
    DecodeBadgeFields(EncodeBadge(b).fields, b);
  }

  /** The fields of a stored challenge, one constructor per JSON key. */
  datatype ChallengeField =
    | CId
    | CTitle
    | CDescription
    | CType
    | CActivityType
    | CProgress
    | CMaxProgress
    | CXpReward
    | CCoinReward
    | CDeadline
    | CCompleted
    | CDifficulty
    | CCategory

  const ChallengeFields: set<ChallengeField> := {
    CId, CTitle, CDescription, CType, CActivityType, CProgress,
    CMaxProgress, CXpReward, CCoinReward, CDeadline, CCompleted, CDifficulty,
    CCategory}

  function ChallengeFieldName(f: ChallengeField): string {
    match f
    case CId => "id"
    case CTitle => "title"
    case CDescription => "description"
    case CType => "type"
    case CActivityType => "activityType"
    case CProgress => "progress"
    case CMaxProgress => "maxProgress"
    case CXpReward => "xpReward"
    case CCoinReward => "coinReward"
    case CDeadline => "deadline"
    case CCompleted => "completed"
    case CDifficulty => "difficulty"
    case CCategory => "category"
  }

  /** The field a key names, if any; narrowed by length first. */
  function ChallengeFieldOf(k: string): Option<ChallengeField> {
    match |k|
    case 2 => if k == "id" then Some(CId) else None
    case 4 => if k == "type" then Some(CType) else None
    case 5 => if k == "title" then Some(CTitle) else None
    case 8 => if k == "progress" then Some(CProgress) else if k == "xpReward" then Some(CXpReward) else if k == "deadline" then Some(CDeadline) else if k == "category" then Some(CCategory) else None
    case 9 => if k == "completed" then Some(CCompleted) else None
    case 10 => if k == "coinReward" then Some(CCoinReward) else if k == "difficulty" then Some(CDifficulty) else None
    case 11 => if k == "description" then Some(CDescription) else if k == "maxProgress" then Some(CMaxProgress) else None
    case 12 => if k == "activityType" then Some(CActivityType) else None
    case _ => None
  }

  /** Distinct fields have distinct keys. */
  lemma ChallengeFieldNamesDistinct()
    ensures NamesDistinct(ChallengeFieldName)
  {
    forall f: ChallengeField
      ensures ChallengeFieldOf(ChallengeFieldName(f)) == Some(f)
    {
    }
  }

  /** The JSON value written for field `f` of `c`; `None` when the field is absent. */
  function ChallengeValue(c: Challenge, f: ChallengeField): Option<Json> {
    match f
    case CId => Some(JStr(c.id))
    case CTitle => Some(JStr(c.title))
    case CDescription => Some(JStr(c.description))
    case CType => Some(JStr(ChallengeTypeName(c.kind)))
    case CActivityType => Some(JStr(c.activityType))
    case CProgress => Some(JNum(c.progress))
    case CMaxProgress => Some(JNum(c.maxProgress))
    case CXpReward => Some(NumOf(c.xpReward))
    case CCoinReward => Some(NumOf(c.coinReward))
    case CDeadline => Some(JStr(c.deadline))
    case CCompleted => Some(JBool(c.completed))
    case CDifficulty => OptStr(c.difficulty)
    case CCategory => OptStr(c.category)
  }

  function ChallengeValues(c: Challenge): ChallengeField -> Option<Json> {
    f => ChallengeValue(c, f)
  }

  function EncodeChallenge(c: Challenge): Json {
    ChallengeFieldNamesDistinct();
    JObj(Object(ChallengeFields, ChallengeFieldName, ChallengeValues(c)))
  }

  /** Every field of a stored challenge is present with the right shape, or optional and absent. */
  predicate ChallengeShapeOk(m: map<string, Json>) {
    ChallengeFieldName(CId) in m && m[ChallengeFieldName(CId)].JStr? &&
    ChallengeFieldName(CTitle) in m && m[ChallengeFieldName(CTitle)].JStr? &&
    ChallengeFieldName(CDescription) in m && m[ChallengeFieldName(CDescription)].JStr? &&
    ChallengeFieldName(CType) in m && ChallengeTypeOf(m[ChallengeFieldName(CType)]).Some? &&
    ChallengeFieldName(CActivityType) in m && m[ChallengeFieldName(CActivityType)].JStr? &&
    ChallengeFieldName(CProgress) in m && m[ChallengeFieldName(CProgress)].JNum? &&
    ChallengeFieldName(CMaxProgress) in m && m[ChallengeFieldName(CMaxProgress)].JNum? &&
    ChallengeFieldName(CXpReward) in m && IntOf(m[ChallengeFieldName(CXpReward)]).Some? &&
    ChallengeFieldName(CCoinReward) in m && IntOf(m[ChallengeFieldName(CCoinReward)]).Some? &&
    ChallengeFieldName(CDeadline) in m && m[ChallengeFieldName(CDeadline)].JStr? &&
    ChallengeFieldName(CCompleted) in m && m[ChallengeFieldName(CCompleted)].JBool? &&
    OptStrOk(m, ChallengeFieldName(CDifficulty)) &&
    OptStrOk(m, ChallengeFieldName(CCategory))
  }

  function ChallengeFrom(m: map<string, Json>): Challenge
    requires ChallengeShapeOk(m)
  {
    Challenge(
      m[ChallengeFieldName(CId)].s,
      m[ChallengeFieldName(CTitle)].s,
      m[ChallengeFieldName(CDescription)].s,
      ChallengeTypeOf(m[ChallengeFieldName(CType)]).value,
      m[ChallengeFieldName(CActivityType)].s,
      m[ChallengeFieldName(CProgress)].n,
      m[ChallengeFieldName(CMaxProgress)].n,
      IntOf(m[ChallengeFieldName(CXpReward)]).value,
      IntOf(m[ChallengeFieldName(CCoinReward)]).value,
      m[ChallengeFieldName(CDeadline)].s,
      m[ChallengeFieldName(CCompleted)].b,
      GetStr(m, ChallengeFieldName(CDifficulty)),
      GetStr(m, ChallengeFieldName(CCategory)))
  }

  function DecodeChallenge(j: Json): (r: Option<Challenge>)
    ensures r.Some? ==> j.JObj? && ChallengeShapeOk(j.fields)
  {
    if j.JObj? && ChallengeShapeOk(j.fields) then Some(ChallengeFrom(j.fields)) else None
  }

  /** Fields 1 to 7 of an object carrying exactly the fields of `c` read back. */
  lemma DecodeChallengePart1(m: map<string, Json>, c: Challenge)
    requires forall f :: ChallengeFieldName(f) in m <==> ChallengeValue(c, f).Some?
    requires forall f :: ChallengeFieldName(f) in m ==> ChallengeValue(c, f) == Some(m[ChallengeFieldName(f)])
    ensures ChallengeFieldName(CId) in m && m[ChallengeFieldName(CId)].JStr? &&
      ChallengeFieldName(CTitle) in m && m[ChallengeFieldName(CTitle)].JStr? &&
      ChallengeFieldName(CDescription) in m && m[ChallengeFieldName(CDescription)].JStr? &&
      ChallengeFieldName(CType) in m && ChallengeTypeOf(m[ChallengeFieldName(CType)]).Some? &&
      ChallengeFieldName(CActivityType) in m && m[ChallengeFieldName(CActivityType)].JStr? &&
      ChallengeFieldName(CProgress) in m && m[ChallengeFieldName(CProgress)].JNum? &&
      ChallengeFieldName(CMaxProgress) in m && m[ChallengeFieldName(CMaxProgress)].JNum?
    ensures ChallengeShapeOk(m) ==>
      ChallengeFrom(m).id == c.id &&
      ChallengeFrom(m).title == c.title &&
      ChallengeFrom(m).description == c.description &&
      ChallengeFrom(m).kind == c.kind &&
      ChallengeFrom(m).activityType == c.activityType &&
      ChallengeFrom(m).progress == c.progress &&
      ChallengeFrom(m).maxProgress == c.maxProgress
  {
    assert ChallengeFieldName(CId) in m <==> ChallengeValue(c, CId).Some?;
    assert ChallengeFieldName(CTitle) in m <==> ChallengeValue(c, CTitle).Some?;
    assert ChallengeFieldName(CDescription) in m <==> ChallengeValue(c, CDescription).Some?;
    assert ChallengeFieldName(CType) in m <==> ChallengeValue(c, CType).Some?;
    assert ChallengeFieldName(CActivityType) in m <==> ChallengeValue(c, CActivityType).Some?;
    assert ChallengeFieldName(CProgress) in m <==> ChallengeValue(c, CProgress).Some?;
    assert ChallengeFieldName(CMaxProgress) in m <==> ChallengeValue(c, CMaxProgress).Some?;
  }

  /** Fields 8 to 13 of an object carrying exactly the fields of `c` read back. */
  lemma DecodeChallengePart2(m: map<string, Json>, c: Challenge)
    requires forall f :: ChallengeFieldName(f) in m <==> ChallengeValue(c, f).Some?
    requires forall f :: ChallengeFieldName(f) in m ==> ChallengeValue(c, f) == Some(m[ChallengeFieldName(f)])
    ensures ChallengeFieldName(CXpReward) in m && IntOf(m[ChallengeFieldName(CXpReward)]).Some? &&
      ChallengeFieldName(CCoinReward) in m && IntOf(m[ChallengeFieldName(CCoinReward)]).Some? &&
      ChallengeFieldName(CDeadline) in m && m[ChallengeFieldName(CDeadline)].JStr? &&
      ChallengeFieldName(CCompleted) in m && m[ChallengeFieldName(CCompleted)].JBool? &&
      OptStrOk(m, ChallengeFieldName(CDifficulty)) &&
      OptStrOk(m, ChallengeFieldName(CCategory))
    ensures ChallengeShapeOk(m) ==>
      ChallengeFrom(m).xpReward == c.xpReward &&
      ChallengeFrom(m).coinReward == c.coinReward &&
      ChallengeFrom(m).deadline == c.deadline &&
      ChallengeFrom(m).completed == c.completed &&
      ChallengeFrom(m).difficulty == c.difficulty &&
      ChallengeFrom(m).category == c.category
  {
    assert ChallengeFieldName(CXpReward) in m <==> ChallengeValue(c, CXpReward).Some?;
    assert ChallengeFieldName(CCoinReward) in m <==> ChallengeValue(c, CCoinReward).Some?;
    assert ChallengeFieldName(CDeadline) in m <==> ChallengeValue(c, CDeadline).Some?;
    assert ChallengeFieldName(CCompleted) in m <==> ChallengeValue(c, CCompleted).Some?;
    assert ChallengeFieldName(CDifficulty) in m <==> ChallengeValue(c, CDifficulty).Some?;
    ReadStr(m, ChallengeFieldName(CDifficulty), c.difficulty);
    assert ChallengeFieldName(CCategory) in m <==> ChallengeValue(c, CCategory).Some?;
    ReadStr(m, ChallengeFieldName(CCategory), c.category);
  }

  /** An object carrying exactly the fields of `c` decodes to `c`. */
  lemma DecodeChallengeFields(m: map<string, Json>, c: Challenge)
    requires forall f :: ChallengeFieldName(f) in m <==> ChallengeValue(c, f).Some?
    requires forall f :: ChallengeFieldName(f) in m ==> ChallengeValue(c, f) == Some(m[ChallengeFieldName(f)])
    ensures ChallengeShapeOk(m) && ChallengeFrom(m) == c
  {
    DecodeChallengePart1(m, c);
    DecodeChallengePart2(m, c);
  }

  /** The encoded object holds exactly the present fields, each under its key. */
  lemma EncodeChallengeFields(c: Challenge)
    ensures var m := EncodeChallenge(c).fields;
      (forall f :: ChallengeFieldName(f) in m <==> ChallengeValue(c, f).Some?) &&
      (forall f :: ChallengeFieldName(f) in m ==> ChallengeValue(c, f) == Some(m[ChallengeFieldName(f)]))
  {
    ChallengeFieldNamesDistinct();
    forall f: ChallengeField
      ensures f in ChallengeFields
    {
      match f {
        case CId =>
        case CTitle =>
        case CDescription =>
        case CType =>
        case CActivityType =>
        case CProgress =>
        case CMaxProgress =>
        case CXpReward =>
        case CCoinReward =>
        case CDeadline =>
        case CCompleted =>
        case CDifficulty =>
        case CCategory =>
      }
    }
    forall f
      ensures var m := EncodeChallenge(c).fields;
        (ChallengeFieldName(f) in m <==> ChallengeValue(c, f).Some?) &&
        (ChallengeFieldName(f) in m ==> ChallengeValue(c, f) == Some(m[ChallengeFieldName(f)]))
    {
      ObjectLookup(ChallengeFields, ChallengeFieldName, ChallengeValues(c), f);
    }
  }

  /** A stored challenge reads back as the value that was written. */
  lemma ChallengeRoundTrip(c: Challenge)
    ensures DecodeChallenge(EncodeChallenge(c)) == Some(c)
  {
    EncodeChallengeFields(c);
    DecodeChallengeFields(EncodeChallenge(c).fields, c);
  }

  // ---------------------------------------------------------------------
  // Lists
  // ---------------------------------------------------------------------

  /** A JSON array of the encodings of `xs`, in order. */
  function EncodeList<T>(xs: seq<T>, enc: T -> Json): (j: Json)
    ensures j.JArr? && |j.items| == |xs|
    ensures forall i :: 0 <= i < |xs| ==> j.items[i] == enc(xs[i])
  {
    JArr(seq(|xs|, i requires 0 <= i < |xs| => enc(xs[i])))
  }

  /** The decodings of an array's items, or nothing if any item fails. */
  function DecodeList<T>(items: seq<Json>, dec: Json -> Option<T>): (r: Option<seq<T>>)
    ensures r.Some? ==> |r.value| == |items|
  {
    if items == [] then Some([])
    else
      match (dec(items[0]), DecodeList(items[1..], dec))
      case (Some(x), Some(rest)) => Some([x] + rest)
      case _ => None
  }

  /** An element codec that round-trips lifts to lists of elements. */
  lemma {:induction false} ListRoundTrip<T>(xs: seq<T>, enc: T -> Json, dec: Json -> Option<T>)
    requires forall x :: dec(enc(x)) == Some(x)
    ensures DecodeList(EncodeList(xs, enc).items, dec) == Some(xs)
    decreases |xs|
  {
    if xs != [] {
      var items := EncodeList(xs, enc).items;
      assert items[1..] == EncodeList(xs[1..], enc).items;
      ListRoundTrip(xs[1..], enc, dec);
      assert dec(items[0]) == Some(xs[0]);
      assert xs == [xs[0]] + xs[1..];
    }
  }

  function EncodeBadges(bs: seq<Badge>): (j: Json)
    ensures j.JArr? && |j.items| == |bs|
  {
    EncodeList(bs, EncodeBadge)
  }

  /** The badges of an array whose every element decodes as a badge. */
  function DecodeBadges(j: Json): Option<seq<Badge>> {
    if j.JArr? then DecodeList(j.items, DecodeBadge) else None
  }

  /** A stored badge list reads back as the list that was written. */
  lemma BadgesRoundTrip(bs: seq<Badge>)
    ensures DecodeBadges(EncodeBadges(bs)) == Some(bs)
  {
    forall b: Badge
      ensures DecodeBadge(EncodeBadge(b)) == Some(b)
    {
      BadgeRoundTrip(b);
    }
    ListRoundTrip(bs, EncodeBadge, DecodeBadge);
  }

  function EncodeChallenges(cs: seq<Challenge>): (j: Json)
    ensures j.JArr? && |j.items| == |cs|
  {
    EncodeList(cs, EncodeChallenge)
  }

  /** The challenges of an array whose every element decodes as a challenge. */
  function DecodeChallenges(j: Json): Option<seq<Challenge>> {
    if j.JArr? then DecodeList(j.items, DecodeChallenge) else None
  }

  /** A stored challenge list reads back as the list that was written. */
  lemma ChallengesRoundTrip(cs: seq<Challenge>)
    ensures DecodeChallenges(EncodeChallenges(cs)) == Some(cs)
  {
    forall c: Challenge
      ensures DecodeChallenge(EncodeChallenge(c)) == Some(c)
    {
      ChallengeRoundTrip(c);
    }
    ListRoundTrip(cs, EncodeChallenge, DecodeChallenge);
  }
}

=== FILE: common.dfy ===
/** Small shared vocabulary: optional values, real minimum, ASCII text helpers
    and the subset of JavaScript string/number behaviour the application relies on. */
module Common {

  /** A value that may be absent (`undefined`/`null` in the application). */
  datatype Option<+T> = None | Some(value: T) {
    function GetOr(default: T): T {
      match this
      case Some(v) => v
      case None => default
    }
  }

  /** `Math.min` over mathematical reals. */
  function Min(a: real, b: real): (r: real)
    ensures r <= a && r <= b
    ensures r == a || r == b
  {
    if a <= b then a else b
  }

  // ---------------------------------------------------------------------
  // ASCII case mapping (`toLowerCase` / `toUpperCase` restricted to ASCII)
  // ---------------------------------------------------------------------

  predicate IsUpperChar(c: char) { 'A' <= c <= 'Z' }
  predicate IsLowerChar(c: char) { 'a' <= c <= 'z' }

  function LowerChar(c: char): (r: char)
    ensures !IsUpperChar(r)
    ensures IsUpperChar(c) ==> r != c
    ensures !IsUpperChar(c) ==> r == c
  {
    if IsUpperChar(c) then (c as int + 32) as char else c
  }

  function UpperChar(c: char): (r: char)
    ensures !IsLowerChar(r)
    ensures !IsLowerChar(c) ==> r == c
  {
    if IsLowerChar(c) then (c as int - 32) as char else c
  }

  function Lower(s: string): (r: string)
    ensures |r| == |s|
    ensures forall i :: 0 <= i < |s| ==> r[i] == LowerChar(s[i])
  {
    seq(|s|, i requires 0 <= i < |s| => LowerChar(s[i]))
  }

  function Upper(s: string): (r: string)
    ensures |r| == |s|
    ensures forall i :: 0 <= i < |s| ==> r[i] == UpperChar(s[i])
  {
    if s == [] then [] else [UpperChar(s[0])] + Upper(s[1..])
  }

  /** Lower-casing forgets whether a letter was upper-cased first. */
  lemma LowerOfUpperChar(c: char)
    ensures LowerChar(UpperChar(c)) == LowerChar(c)
  {
  }

  lemma {:induction false} LowerOfUpper(s: string)
    ensures Lower(Upper(s)) == Lower(s)
  {
    forall i | 0 <= i < |s|
      ensures Lower(Upper(s))[i] == Lower(s)[i]
    {
      LowerOfUpperChar(s[i]);
    }
  }

  lemma {:induction false} LowerIdempotent(s: string)
    ensures Lower(Lower(s)) == Lower(s)
  {
    forall i | 0 <= i < |s|
      ensures Lower(Lower(s))[i] == Lower(s)[i]
    {
    }
  }

  /** A string with no upper-case letter is its own lower-case form. */
  lemma LowerOfLowerCase(s: string)
    requires forall i :: 0 <= i < |s| ==> !IsUpperChar(s[i])
    ensures Lower(s) == s
  {
  }

  // ---------------------------------------------------------------------
  // Substring search (`String.prototype.includes`) and prefixes
  // ---------------------------------------------------------------------

  /** `needle` occurs at position `i` of `hay`. */
  predicate OccursAt(hay: string, needle: string, i: int) {
    0 <= i && i + |needle| <= |hay| && hay[i..i + |needle|] == needle
  }

  /** `hay.includes(needle)`, searched left to right. */
  function Contains(hay: string, needle: string): bool
    decreases |hay|
  {
    if |needle| <= |hay| && hay[..|needle|] == needle then true
    else if hay == [] then false
    else Contains(hay[1..], needle)
  }

  /** The search agrees with the positional definition of an occurrence. */
  lemma {:induction false} ContainsIffOccurs(hay: string, needle: string)
    ensures Contains(hay, needle) <==> exists i :: OccursAt(hay, needle, i)
    decreases |hay|
  {
    if |needle| <= |hay| && hay[..|needle|] == needle {
      assert OccursAt(hay, needle, 0);
    } else if hay == [] {
    } else {
      ContainsIffOccurs(hay[1..], needle);
      if exists i :: OccursAt(hay, needle, i) {
        var i :| OccursAt(hay, needle, i);
        assert hay[1..][i - 1..i - 1 + |needle|] == hay[i..i + |needle|];
        assert OccursAt(hay[1..], needle, i - 1);
      }
      if exists j :: OccursAt(hay[1..], needle, j) {
        var j :| OccursAt(hay[1..], needle, j);
        assert hay[1..][j..j + |needle|] == hay[j + 1..j + 1 + |needle|];
        assert OccursAt(hay, needle, j + 1);
      }
    }
  }

  /** The empty search term occurs in every string. */
  lemma EmptyIsContained(hay: string)
    ensures Contains(hay, "")
  {
    assert hay[..0] == "";
  }

  predicate StartsWith(s: string, prefix: string) {
    |prefix| <= |s| && s[..|prefix|] == prefix
  }

  /** `s` with every trailing `c` removed: the longest prefix that does not
      end in `c` and is followed only by copies of `c`. */
  function TrimEnd(s: string, c: char): (r: string)
    ensures |r| <= |s| && r == s[..|r|]
    ensures forall i :: |r| <= i < |s| ==> s[i] == c
    ensures r == [] || r[|r| - 1] != c
    decreases |s|
  {
    if s != [] && s[|s| - 1] == c then TrimEnd(s[..|s| - 1], c) else s
  }

  // ---------------------------------------------------------------------
  // `String.prototype.split` on a one-character separator
  // ---------------------------------------------------------------------

  function IndexOf(s: string, c: char): (r: Option<nat>)
    ensures r.Some? ==> r.value < |s| && s[r.value] == c && c !in s[..r.value]
    ensures r.None? ==> c !in s
  {
    if s == [] then None
    else if s[0] == c then Some(0)
    else
      match IndexOf(s[1..], c)
      case None => None
      case Some(k) => Some(k + 1)
  }

  /** `s.split(c)`: the pieces between the occurrences of `c`. */
  function Split(s: string, c: char): (r: seq<string>)
    ensures |r| >= 1
    decreases |s|
  {
    match IndexOf(s, c)
    case None => [s]
    case Some(k) => [s[..k]] + Split(s[k + 1..], c)
  }

  function Join(parts: seq<string>, c: char): string
  {
    if |parts| == 0 then ""
    else if |parts| == 1 then parts[0]
    else parts[0] + [c] + Join(parts[1..], c)
  }

  /** Splitting loses nothing: joining the pieces back restores the string,
      and no piece contains the separator. */
  lemma {:induction false} SplitJoin(s: string, c: char)
    ensures Join(Split(s, c), c) == s
    ensures forall i :: 0 <= i < |Split(s, c)| ==> c !in Split(s, c)[i]
    decreases |s|
  {
    match IndexOf(s, c)
    case None =>
    case Some(k) =>
      var head, rest := s[..k], Split(s[k + 1..], c);
      assert Split(s, c) == [head] + rest;
      SplitJoin(s[k + 1..], c);
      assert ([head] + rest)[1..] == rest;
      assert Join([head] + rest, c) == head + [c] + Join(rest, c);
      assert s == head + [c] + s[k + 1..];
  }

  /** `IndexOf` finds the first occurrence. */
  lemma IndexOfFirst(s: string, c: char, k: nat)
    requires k < |s| && s[k] == c && c !in s[..k]
    ensures IndexOf(s, c) == Some(k)
  {
    assert s[k] in s;
    assert forall j :: 0 <= j < k ==> s[..k][j] == s[j];
    var r := IndexOf(s, c).value;
    assert forall j :: 0 <= j < r ==> s[..r][j] == s[j];
  }

  /** Splitting `a` and `b` joined by a separator that occurs in neither
      gives back the two parts. */
  lemma SplitPair(a: string, b: string, c: char)
    requires c !in a && c !in b
    ensures Split(a + [c] + b, c) == [a, b]
  {
    var s := a + [c] + b;
    assert s[|a|] == c;
    assert s[..|a|] == a;
    assert s[|a| + 1..] == b;
    IndexOfFirst(s, c, |a|);
  }

  /** The first piece of a split is everything before the first separator. */
  lemma SplitHead(s: string, c: char)
    ensures c !in Split(s, c)[0]
    ensures StartsWith(s, Split(s, c)[0])
    ensures |Split(s, c)[0]| < |s| ==> s[|Split(s, c)[0]|] == c
  {
  }

  // ---------------------------------------------------------------------
  // Decimal numerals (`Number.prototype.toString` and `parseInt`)
  // ---------------------------------------------------------------------

  predicate IsDigit(c: char) { '0' <= c <= '9' }

  function DigitValue(c: char): nat
    requires IsDigit(c)
  {
    c as int - '0' as int
  }

  function DigitChar(d: nat): (r: char)
    requires d < 10
    ensures IsDigit(r) && DigitValue(r) == d
  {
    ('0' as int + d) as char
  }

  predicate AllDigits(s: string) {
    forall i :: 0 <= i < |s| ==> IsDigit(s[i])
  }

  /** The decimal numeral of `n`, without leading zeros. */
  function Decimal(n: nat): (r: string)
    ensures |r| >= 1 && AllDigits(r)
  {
    if n < 10 then [DigitChar(n)] else Decimal(n / 10) + [DigitChar(n % 10)]
  }

  /** The value of a digit string, most significant digit first. */
  function DigitsValue(s: string): nat
    requires AllDigits(s)
  {
    if s == [] then 0 else 10 * DigitsValue(s[..|s| - 1]) + DigitValue(s[|s| - 1])
  }

  /** The longest prefix of `s` made of digits. */
  function LeadingDigits(s: string): (r: string)
    ensures AllDigits(r) && StartsWith(s, r)
    ensures |r| < |s| ==> !IsDigit(s[|r|])
  {
    if s != [] && IsDigit(s[0]) then [s[0]] + LeadingDigits(s[1..]) else []
  }

  /** `parseInt(s)` for a numeral with an optional sign: `None` stands for `NaN`.
      Leading white space and radix prefixes are not modelled. */
  function ParseInt(s: string): (r: Option<int>)
    ensures r.Some? ==> s != []
  {
    if s != [] && (s[0] == '-' || s[0] == '+') then
      var ds := LeadingDigits(s[1..]);
      if ds == [] then None
      else if s[0] == '-' then Some(-(DigitsValue(ds) as int))
      else Some(DigitsValue(ds))
    else
      var ds := LeadingDigits(s);
      if ds == [] then None else Some(DigitsValue(ds))
  }

  lemma {:induction false} LeadingDigitsOfDigits(s: string)
    requires AllDigits(s)
    ensures LeadingDigits(s) == s
    decreases |s|
  {
    if s != [] {
      LeadingDigitsOfDigits(s[1..]);
    }
  }

  lemma {:induction false} DecimalValue(n: nat)
    ensures DigitsValue(Decimal(n)) == n
    decreases n
  {
    if n >= 10 {
      DecimalValue(n / 10);
      var s := Decimal(n);
      assert s[..|s| - 1] == Decimal(n / 10);
    }
  }

  /** Reading back a printed clock value gives the clock value. */
  lemma ParseDecimal(n: nat)
    ensures ParseInt(Decimal(n)) == Some(n)
  {
    LeadingDigitsOfDigits(Decimal(n));
    DecimalValue(n);
  }

  /** The remainder operator `%` of JavaScript, which truncates toward zero:
      the result carries the sign of the dividend. */
  function JsRem(a: int, b: int): (r: int)
    requires b > 0
    ensures a >= 0 ==> 0 <= r < b
    ensures a < 0 ==> -b < r <= 0
    ensures a >= 0 ==> r == a % b
  {
    if a >= 0 then a % b else -((-a) % b)
  }
}

=== FILE: domain.dfy ===
/** The records shared by every part of the application: the user profile,
    the badge (definition and per-user progress in one record) and the challenge. */
module Domain {
  import opened Common

  datatype Role = Athlete | Coach

  /** The profile of an account. Every field but the first four is optional;
      the progression fields are present for athletes only. */
  datatype UserProfile = UserProfile(
    id: string,
    email: string,
    name: string,
    role: Role,
    avatar: Option<string>,
    xp: Option<int>,
    level: Option<int>,
    coins: Option<int>,
    streak: Option<int>,
    onboardingComplete: Option<bool>,
    profileComplete: Option<bool>,
    gender: Option<string>,
    mobile: Option<string>,
    state: Option<string>,
    district: Option<string>,
    achievements: Option<string>,
    height: Option<string>,
    weight: Option<string>,
    heightProof: Option<string>,
    bio: Option<string>,
    expertise: Option<string>)

  datatype BadgeCategory = Consistency | Strength | Endurance | Speed | Special

  /** The category as it is spelled in stored data and in the category filter. */
  function CategoryName(c: BadgeCategory): string {
    match c
    case Consistency => "consistency"
    case Strength => "strength"
    case Endurance => "endurance"
    case Speed => "speed"
    case Special => "special"
  }

  /** A badge: its fixed definition (id, texts, target, rewards) and the
      current user's progress toward it. Progress is a real number because
      the counts fed into it may be fractional distances. */
  datatype Badge = Badge(
    id: string,
    name: string,
    description: string,
    category: BadgeCategory,
    icon: string,
    unlocked: bool,
    progress: real,
    maxProgress: real,
    xpReward: int,
    coinReward: int,
    requirements: string,
    linkedChallenge: Option<string>)

  datatype ChallengeType = Daily | Weekly | Team | Seasonal

  function ChallengeTypeName(t: ChallengeType): string {
    match t
    case Daily => "daily"
    case Weekly => "weekly"
    case Team => "team"
    case Seasonal => "seasonal"
  }

  /** The activity names a challenge can route to. A challenge without an
      activity type is represented by the empty string: both are falsy and
      neither equals any activity name. */
  const Jump := "jump"
  const Shuttle := "shuttle"
  const Pushup := "pushup"
  const Situp := "situp"
  const EnduranceActivity := "endurance"
  const General := "general"

  datatype Challenge = Challenge(
    id: string,
    title: string,
    description: string,
    kind: ChallengeType,
    activityType: string,
    progress: real,
    maxProgress: real,
    xpReward: int,
    coinReward: int,
    deadline: string,
    completed: bool,
    difficulty: Option<string>,
    category: Option<string>)

  /** Two badges share their definition when they differ at most in progress and unlocked state. */
  predicate SameBadgeDefinition(a: Badge, b: Badge) {
    b == a.(unlocked := b.unlocked, progress := b.progress)
  }

  /** Two challenges share their definition when they differ at most in progress and completion. */
  predicate SameChallengeDefinition(a: Challenge, b: Challenge) {
    b == a.(completed := b.completed, progress := b.progress)
  }

  /** No two entries of a list share an id. */
  predicate DistinctBadgeIds(bs: seq<Badge>) {
    forall i, j :: 0 <= i < j < |bs| ==> bs[i].id != bs[j].id
  }

  predicate DistinctChallengeIds(cs: seq<Challenge>) {
    forall i, j :: 0 <= i < j < |cs| ==> cs[i].id != cs[j].id
  }
}

=== FILE: game.dfy ===
/** The progression engine: how challenge progress, challenge completion and
    activity events change the badge and challenge lists, and which reward
    each call hands back to its caller.

    Every operation is a pure function from the current lists to the new
    lists plus a reward delta; the caller owns the user record and decides
    what to do with the delta. */
module Game {
  import opened Common
  import opened Domain

  // ---------------------------------------------------------------------
  // Badge unlock rules
  // ---------------------------------------------------------------------

  /** A badge's automatic unlock condition, as data. */
  datatype Rule =
    | Always
    | ActivityIn(activities: set<string>)
    | ActivityCountAtLeast(activity: string, threshold: real)
    | Cumulative(activity: string)
    | Manual

  /** The unlock table: the nine badges that have an automatic condition.
      Every other badge is only ever unlocked by hand. */
  const UnlockRules: map<string, Rule> := map[
    "day-one-champ" := Always,
    "rookie-runner" := ActivityIn({Pushup, Situp}),
    "pushup-pro" := ActivityCountAtLeast(Pushup, 50.0),
    "iron-core" := ActivityCountAtLeast(Situp, 100.0),
    "stamina-starter" := ActivityIn({EnduranceActivity}),
    "sprint-rookie" := ActivityIn({Shuttle}),
    "video-verified" := Always,
    "iron-arms" := Cumulative(Pushup),
    "abs-of-steel" := Cumulative(Situp)
  ]

  function RuleFor(id: string): Rule {
    if id in UnlockRules then UnlockRules[id] else Manual
  }

  /** Whether `rule` unlocks a locked badge holding `progress` out of
      `maxProgress` when an activity of kind `activity` reports `count`. */
  predicate Fires(rule: Rule, activity: string, count: real, progress: real, maxProgress: real) {
    match rule
    case Always => true
    case ActivityIn(acts) => activity in acts
    case ActivityCountAtLeast(a, n) => activity == a && count >= n
    case Cumulative(a) => activity == a && progress + count >= maxProgress
    case Manual => false
  }

  /** The progress a locked badge keeps when `rule` does not unlock it. */
  function ProgressKept(rule: Rule, activity: string, count: real, progress: real, maxProgress: real): real {
    match rule
    case Cumulative(a) => if activity == a then Min(progress + count, maxProgress) else progress
    case _ => progress
  }

  /** The per-id switch of the engine: the conditions checked before the
      cumulative counters are looked at. */
  predicate SwitchUnlocks(id: string, activity: string, count: real) {
    if id == "day-one-champ" then true
    else if id == "rookie-runner" then activity == Pushup || activity == Situp
    else if id == "pushup-pro" then activity == Pushup && count >= 50.0
    else if id == "iron-core" then activity == Situp && count >= 100.0
    else if id == "stamina-starter" then activity == EnduranceActivity
    else if id == "sprint-rookie" then activity == Shuttle
    else if id == "video-verified" then true
    else false
  }

  /** The cumulative counter step: add `count`, cap at the target, unlock on reaching it. */
  function Accumulate(b: Badge, count: real): (r: Badge)
    requires !b.unlocked
    ensures SameBadgeDefinition(b, r)
    ensures r.unlocked <==> b.progress + count >= b.maxProgress
    ensures r.progress == Min(b.progress + count, b.maxProgress)
  {
    var next := Min(b.progress + count, b.maxProgress);
    if next >= b.maxProgress then b.(unlocked := true, progress := b.maxProgress)
    else b.(progress := next)
  }

  /** One badge's evaluation for one activity event, in the order the engine
      tests it: unlocked badges are skipped, then the switch, then the two
      cumulative counters. The contract states that this agrees with the
      unlock table. */
  function EvaluateBadge(b: Badge, activity: string, count: real): (r: Badge)
    ensures SameBadgeDefinition(b, r)
    ensures b.unlocked ==> r == b
    ensures !b.unlocked ==>
      (r.unlocked <==> Fires(RuleFor(b.id), activity, count, b.progress, b.maxProgress))
    ensures !b.unlocked && r.unlocked ==> r.progress == r.maxProgress
    ensures !r.unlocked ==>
      r.progress == ProgressKept(RuleFor(b.id), activity, count, b.progress, b.maxProgress)
  {
    if b.unlocked then b
    else if SwitchUnlocks(b.id, activity, count) then b.(unlocked := true, progress := b.maxProgress)
    else if b.id == "iron-arms" && activity == Pushup then Accumulate(b, count)
    else if b.id == "abs-of-steel" && activity == Situp then Accumulate(b, count)
    else b
  }

  /** The badges of `after` that were locked in `before`, in list order. */
  function NewlyUnlocked(before: seq<Badge>, after: seq<Badge>): (r: seq<Badge>)
    requires |before| == |after|
    ensures |r| <= |after|
    ensures forall b :: b in r ==> b in after && b.unlocked
  {
    if before == [] then []
    else
      var head := if !before[0].unlocked && after[0].unlocked then [after[0]] else [];
      head + NewlyUnlocked(before[1..], after[1..])
  }

  datatype Unlocks = Unlocks(badges: seq<Badge>, unlocked: seq<Badge>)

  /** Evaluate every badge for one activity event. Returns the new badge list
      and the badges this event unlocked. */
  function CheckBadgeUnlocks(bs: seq<Badge>, activity: string, count: real): (r: Unlocks)
    ensures |r.badges| == |bs|
    ensures forall i :: 0 <= i < |bs| ==> r.badges[i] == EvaluateBadge(bs[i], activity, count)
    ensures forall i :: 0 <= i < |bs| && bs[i].unlocked ==> r.badges[i] == bs[i]
    ensures r.unlocked == NewlyUnlocked(bs, r.badges)
    ensures forall b :: b in r.unlocked ==> b.unlocked && b.progress == b.maxProgress
  {
    if bs == [] then Unlocks([], [])
    else
      var b := EvaluateBadge(bs[0], activity, count);
      var rest := CheckBadgeUnlocks(bs[1..], activity, count);
      var gained := if !bs[0].unlocked && b.unlocked then [b] else [];
      var badges := [b] + rest.badges;
      assert badges[1..] == rest.badges;
      Unlocks(badges, gained + rest.unlocked)
  }

  // ---------------------------------------------------------------------
  // Well-formed state
  // ---------------------------------------------------------------------

  /** Progress within bounds, and an unlocked badge is full. */
  predicate BadgeWellFormed(b: Badge) {
    0.0 <= b.progress <= b.maxProgress && (b.unlocked ==> b.progress == b.maxProgress)
  }

  predicate BadgesWellFormed(bs: seq<Badge>) {
    forall i :: 0 <= i < |bs| ==> BadgeWellFormed(bs[i])
  }

  /** A positive target, progress at most the target, and a completed
      challenge has reached its target. */
  predicate ChallengeWellFormed(c: Challenge) {
    0.0 < c.maxProgress && c.progress <= c.maxProgress && (c.completed ==> c.progress == c.maxProgress)
  }

  predicate ChallengesWellFormed(cs: seq<Challenge>) {
    forall i :: 0 <= i < |cs| ==> ChallengeWellFormed(cs[i])
  }

  /** A non-negative count never lowers a badge's progress, never re-locks
      it, and keeps it well formed. */
  lemma EvaluateMonotone(b: Badge, activity: string, count: real)
    requires BadgeWellFormed(b) && count >= 0.0
    ensures BadgeWellFormed(EvaluateBadge(b, activity, count))
    ensures b.progress <= EvaluateBadge(b, activity, count).progress
    ensures b.unlocked ==> EvaluateBadge(b, activity, count).unlocked
  {
  }

  lemma CheckBadgeUnlocksMonotone(bs: seq<Badge>, activity: string, count: real)
    requires BadgesWellFormed(bs) && count >= 0.0
    ensures BadgesWellFormed(CheckBadgeUnlocks(bs, activity, count).badges)
    ensures forall i :: 0 <= i < |bs| ==>
      bs[i].progress <= CheckBadgeUnlocks(bs, activity, count).badges[i].progress &&
      (bs[i].unlocked ==> CheckBadgeUnlocks(bs, activity, count).badges[i].unlocked)
  {
    forall i | 0 <= i < |bs| {
      EvaluateMonotone(bs[i], activity, count);
    }
  }

  /** A badge is unlocked by at most one event: once returned in an unlocked
      list, a second identical event does not return it again. */
  lemma {:induction false} NewlyUnlockedAfterUnlock(bs: seq<Badge>, activity: string, count: real)
    ensures var first := CheckBadgeUnlocks(bs, activity, count);
      forall b :: b in CheckBadgeUnlocks(first.badges, activity, count).unlocked ==>
        exists i :: 0 <= i < |bs| && !first.badges[i].unlocked && b == EvaluateBadge(first.badges[i], activity, count)
  {
    var first := CheckBadgeUnlocks(bs, activity, count);
    NewlyUnlockedFromLocked(first.badges, CheckBadgeUnlocks(first.badges, activity, count).badges);
  }

  /** Every badge in a newly-unlocked list sits at a position that was locked before. */
  lemma {:induction false} NewlyUnlockedFromLocked(before: seq<Badge>, after: seq<Badge>)
    requires |before| == |after|
    ensures forall b :: b in NewlyUnlocked(before, after) ==>
      exists i :: 0 <= i < |before| && !before[i].unlocked && b == after[i]
    decreases |before|
  {
    if before != [] {
      NewlyUnlockedFromLocked(before[1..], after[1..]);
      forall b | b in NewlyUnlocked(before, after)
        ensures exists i :: 0 <= i < |before| && !before[i].unlocked && b == after[i]
      {
        if !(b in NewlyUnlocked(before[1..], after[1..])) {
          assert !before[0].unlocked && b == after[0];
        } else {
          var i :| 0 <= i < |before[1..]| && !before[1..][i].unlocked && b == after[1..][i];
          assert !before[i + 1].unlocked && b == after[i + 1];
        }
      }
    }
  }

  // ---------------------------------------------------------------------
  // Direct badge primitives
  // ---------------------------------------------------------------------

  /** Unlock every badge with the given id and fill its progress. */
  function UnlockBadge(bs: seq<Badge>, id: string): (r: seq<Badge>)
    ensures |r| == |bs|
    ensures forall i :: 0 <= i < |bs| && bs[i].id != id ==> r[i] == bs[i]
    ensures forall i :: 0 <= i < |bs| && bs[i].id == id ==>
      SameBadgeDefinition(bs[i], r[i]) && r[i].unlocked && r[i].progress == bs[i].maxProgress
  {
    seq(|bs|, i requires 0 <= i < |bs| =>
      if bs[i].id == id then bs[i].(unlocked := true, progress := bs[i].maxProgress) else bs[i])
  }

  /** Set the progress of every badge with the given id, capped at its target;
      the unlocked flag is not touched. */
  function UpdateBadgeProgress(bs: seq<Badge>, id: string, progress: real): (r: seq<Badge>)
    ensures |r| == |bs|
    ensures forall i :: 0 <= i < |bs| && bs[i].id != id ==> r[i] == bs[i]
    ensures forall i :: 0 <= i < |bs| && bs[i].id == id ==>
      SameBadgeDefinition(bs[i], r[i]) && r[i].unlocked == bs[i].unlocked &&
      r[i].progress <= bs[i].maxProgress &&
      (progress <= bs[i].maxProgress ==> r[i].progress == progress) &&
      (progress >= bs[i].maxProgress ==> r[i].progress == bs[i].maxProgress)
  {
    seq(|bs|, i requires 0 <= i < |bs| =>
      if bs[i].id == id then bs[i].(progress := Min(progress, bs[i].maxProgress)) else bs[i])
  }

  lemma UnlockBadgeIdempotent(bs: seq<Badge>, id: string)
    ensures UnlockBadge(UnlockBadge(bs, id), id) == UnlockBadge(bs, id)
  {
  }

  lemma UnlockBadgeKeepsWellFormed(bs: seq<Badge>, id: string)
    requires BadgesWellFormed(bs)
    ensures BadgesWellFormed(UnlockBadge(bs, id))
  {
  }

  /** Setting progress directly can leave an unlocked badge short of its
      target: the "unlocked implies full" invariant is not kept by this primitive. */
  lemma UpdateBadgeProgressCanEmptyUnlocked(b: Badge)
    requires BadgeWellFormed(b) && b.unlocked && b.maxProgress > 0.0
    ensures !BadgesWellFormed(UpdateBadgeProgress([b], b.id, 0.0))
  {
    assert UpdateBadgeProgress([b], b.id, 0.0)[0].progress == 0.0;
  }

  // ---------------------------------------------------------------------
  // Challenge progress and completion
  // ---------------------------------------------------------------------

  /** What a call hands back: challenge XP and coins, the streak increment,
      and the badges the completion unlocked. */
  datatype Reward = Reward(xp: int, coins: int, streakInc: int, unlocked: seq<Badge>)

  const NoReward := Reward(0, 0, 0, [])

  datatype EngineState = EngineState(badges: seq<Badge>, challenges: seq<Challenge>)

  datatype Outcome = Outcome(state: EngineState, reward: Reward)

  /** Challenge `c` is newly completed by a call for `id` that moves it to `next`. */
  predicate Completes(c: Challenge, id: string, next: real) {
    c.id == id && !c.completed && next >= c.maxProgress
  }

  /** Walk the challenge list in order; every challenge the call newly
      completes runs the badge check with its new progress and overwrites the
      reward with its own (the source assigns, it does not add). */
  function Award(cs: seq<Challenge>, id: string, next: Challenge -> real, badges: seq<Badge>, acc: Reward): (r: (seq<Badge>, Reward))
    ensures (forall i :: 0 <= i < |cs| ==> !Completes(cs[i], id, next(cs[i]))) ==> r == (badges, acc)
    ensures (exists i :: 0 <= i < |cs| && Completes(cs[i], id, next(cs[i]))) ==>
      r.1.streakInc == 1 &&
      exists i :: 0 <= i < |cs| && Completes(cs[i], id, next(cs[i])) &&
        r.1.xp == cs[i].xpReward && r.1.coins == cs[i].coinReward &&
        forall j :: i < j < |cs| ==> !Completes(cs[j], id, next(cs[j]))
    decreases |cs|
  {
    if cs == [] then (badges, acc)
    else
      var c := cs[0];
      var rest := cs[1..];
      assert forall j :: 0 <= j < |rest| ==> rest[j] == cs[j + 1];
      if Completes(c, id, next(c)) then
        var u := CheckBadgeUnlocks(badges, c.activityType, next(c));
        Award(rest, id, next, u.badges, Reward(c.xpReward, c.coinReward, 1, u.unlocked))
      else
        Award(rest, id, next, badges, acc)
  }

  /** The new state of one challenge under `updateProgress(id, p)`. */
  function Progressed(c: Challenge, id: string, p: real): Challenge {
    if c.id == id then
      var next := Min(p, c.maxProgress);
      c.(progress := next, completed := next >= c.maxProgress)
    else c
  }

  /** `updateProgress(id, p)`: every challenge with that id stores `p` capped at
      its target (with no floor at its current progress) and is completed
      exactly when `p` reaches the target. A challenge that was not completed
      and now is pays its rewards, bumps the streak, and runs the badge check. */
  function UpdateProgress(s: EngineState, id: string, p: real): (r: Outcome)
    ensures |r.state.challenges| == |s.challenges|
    ensures forall i :: 0 <= i < |s.challenges| && s.challenges[i].id != id ==>
      r.state.challenges[i] == s.challenges[i]
    ensures forall i :: 0 <= i < |s.challenges| && s.challenges[i].id == id ==>
      var c, c' := s.challenges[i], r.state.challenges[i];
      SameChallengeDefinition(c, c') && c'.progress <= c.maxProgress &&
      (p <= c.maxProgress ==> c'.progress == p) &&
      (p > c.maxProgress ==> c'.progress == c.maxProgress) &&
      (c'.completed <==> p >= c.maxProgress)
    ensures (forall i :: 0 <= i < |s.challenges| ==> !Completes(s.challenges[i], id, Min(p, s.challenges[i].maxProgress))) ==>
      r.reward == NoReward && r.state.badges == s.badges
    ensures (exists i :: 0 <= i < |s.challenges| && Completes(s.challenges[i], id, Min(p, s.challenges[i].maxProgress))) ==>
      r.reward.streakInc == 1 &&
      exists i :: 0 <= i < |s.challenges| && s.challenges[i].id == id && !s.challenges[i].completed &&
        p >= s.challenges[i].maxProgress &&
        r.reward.xp == s.challenges[i].xpReward && r.reward.coins == s.challenges[i].coinReward
  {
    var cs := s.challenges;
    var next := (c: Challenge) => Min(p, c.maxProgress);
    var award := Award(cs, id, next, s.badges, NoReward);
    var cs' := seq(|cs|, i requires 0 <= i < |cs| => Progressed(cs[i], id, p));
    Outcome(EngineState(award.0, cs'), award.1)
  }

  /** The new state of one challenge under `completeChallenge(id)`. */
  function Finished(c: Challenge, id: string): Challenge {
    if c.id == id && !c.completed then c.(completed := true, progress := c.maxProgress) else c
  }

  /** `completeChallenge(id)`: every not-yet-completed challenge with that id
      is completed at its target, pays its rewards and runs the badge check
      with its target as the count. */
  function CompleteChallenge(s: EngineState, id: string): (r: Outcome)
    ensures |r.state.challenges| == |s.challenges|
    ensures forall i :: 0 <= i < |s.challenges| && (s.challenges[i].id != id || s.challenges[i].completed) ==>
      r.state.challenges[i] == s.challenges[i]
    ensures forall i :: 0 <= i < |s.challenges| && s.challenges[i].id == id ==>
      var c, c' := s.challenges[i], r.state.challenges[i];
      SameChallengeDefinition(c, c') && c'.completed &&
      (!c.completed ==> c'.progress == c.maxProgress)
    ensures (forall i :: 0 <= i < |s.challenges| ==> s.challenges[i].id != id || s.challenges[i].completed) ==>
      r.reward == NoReward && r.state == s
    ensures (exists i :: 0 <= i < |s.challenges| && s.challenges[i].id == id && !s.challenges[i].completed) ==>
      r.reward.streakInc == 1 &&
      exists i :: 0 <= i < |s.challenges| && s.challenges[i].id == id && !s.challenges[i].completed &&
        r.reward.xp == s.challenges[i].xpReward && r.reward.coins == s.challenges[i].coinReward
  {
    var cs := s.challenges;
    var next := (c: Challenge) => c.maxProgress;
    var award := Award(cs, id, next, s.badges, NoReward);
    var cs' := seq(|cs|, i requires 0 <= i < |cs| => Finished(cs[i], id));
    assert (forall i :: 0 <= i < |cs| ==> cs[i].id != id || cs[i].completed) ==> cs' == cs;
    Outcome(EngineState(award.0, cs'), award.1)
  }
}

=== FILE: game_laws.dfy ===
/** Properties of the progression engine that relate several calls or hold
    across all inputs: rewards paid at most on a transition, idempotence,
    unknown ids as no-ops, preserved invariants, and the one way in which
    `updateProgress` lets a completed challenge pay out again. */
module GameLaws {
  import opened Common
  import opened Domain
  import opened Game

  // ---------------------------------------------------------------------
  // The reward fold with a single completing challenge
  // ---------------------------------------------------------------------

  lemma {:induction false} AwardSingle(cs: seq<Challenge>, id: string, next: Challenge -> real,
                                       badges: seq<Badge>, acc: Reward, k: int)
    requires 0 <= k < |cs| && Completes(cs[k], id, next(cs[k]))
    requires forall j :: 0 <= j < |cs| && j != k ==> !Completes(cs[j], id, next(cs[j]))
    ensures var u := CheckBadgeUnlocks(badges, cs[k].activityType, next(cs[k]));
      Award(cs, id, next, badges, acc) == (u.badges, Reward(cs[k].xpReward, cs[k].coinReward, 1, u.unlocked))
    decreases |cs|
  {
    var rest := cs[1..];
    assert forall j :: 0 <= j < |rest| ==> rest[j] == cs[j + 1];
    if k > 0 {
      AwardSingle(rest, id, next, badges, acc, k - 1);
    }
  }

  /** With distinct ids, only the challenge carrying `id` can complete. */
  lemma OnlyTargetCompletes(cs: seq<Challenge>, id: string, next: Challenge -> real, k: int)
    requires DistinctChallengeIds(cs) && 0 <= k < |cs| && cs[k].id == id
    ensures forall j :: 0 <= j < |cs| && j != k ==> !Completes(cs[j], id, next(cs[j]))
  {
    forall j | 0 <= j < |cs| && j != k
      ensures !Completes(cs[j], id, next(cs[j]))
    {
      if j < k { assert cs[j].id != cs[k].id; } else { assert cs[k].id != cs[j].id; }
    }
  }

  // ---------------------------------------------------------------------
  // updateProgress and completeChallenge on a list with distinct ids
  // ---------------------------------------------------------------------

  /** With distinct ids, `updateProgress(id, p)` pays the target's rewards and
      runs the badge check exactly when the target goes from not completed to
      completed; the count handed to the badge check is then the target's
      `maxProgress`. Otherwise the reward is zero and the badges are untouched. */
  lemma UpdateProgressUnique(s: EngineState, id: string, p: real, k: int)
    requires DistinctChallengeIds(s.challenges) && 0 <= k < |s.challenges| && s.challenges[k].id == id
    ensures var c := s.challenges[k];
      var r := UpdateProgress(s, id, p);
      var u := CheckBadgeUnlocks(s.badges, c.activityType, c.maxProgress);
      if !c.completed && p >= c.maxProgress then
        r.reward == Reward(c.xpReward, c.coinReward, 1, u.unlocked) && r.state.badges == u.badges
      else
        r.reward == NoReward && r.state.badges == s.badges
  {
    var c := s.challenges[k];
    var next := (c: Challenge) => Min(p, c.maxProgress);
    OnlyTargetCompletes(s.challenges, id, next, k);
    if Completes(c, id, next(c)) {
      AwardSingle(s.challenges, id, next, s.badges, NoReward, k);
    }
  }

  /** With distinct ids, `completeChallenge(id)` pays the target's rewards and
      runs the badge check with its `maxProgress` exactly when the target was
      not completed. */
  lemma CompleteChallengeUnique(s: EngineState, id: string, k: int)
    requires DistinctChallengeIds(s.challenges) && 0 <= k < |s.challenges| && s.challenges[k].id == id
    ensures var c := s.challenges[k];
      var r := CompleteChallenge(s, id);
      var u := CheckBadgeUnlocks(s.badges, c.activityType, c.maxProgress);
      if !c.completed then
        r.reward == Reward(c.xpReward, c.coinReward, 1, u.unlocked) && r.state.badges == u.badges &&
        r.state.challenges[k] == c.(completed := true, progress := c.maxProgress)
      else
        r.reward == NoReward && r == Outcome(s, NoReward)
  {
    var c := s.challenges[k];
    var next := (c: Challenge) => c.maxProgress;
    OnlyTargetCompletes(s.challenges, id, next, k);
    if !c.completed {
      AwardSingle(s.challenges, id, next, s.badges, NoReward, k);
    } else {
      forall i | 0 <= i < |s.challenges|
        ensures s.challenges[i].id != id || s.challenges[i].completed
      {
        if i != k {
          if i < k { assert s.challenges[i].id != s.challenges[k].id; }
          else { assert s.challenges[k].id != s.challenges[i].id; }
        }
      }
    }
  }

  // ---------------------------------------------------------------------
  // Unknown ids, repeated calls, idempotence
  // ---------------------------------------------------------------------

  /** A call naming no challenge changes nothing and pays nothing. */
  lemma UnknownChallengeIsNoOp(s: EngineState, id: string, p: real)
    requires forall i :: 0 <= i < |s.challenges| ==> s.challenges[i].id != id
    ensures UpdateProgress(s, id, p) == Outcome(s, NoReward)
    ensures CompleteChallenge(s, id) == Outcome(s, NoReward)
  {
    assert UpdateProgress(s, id, p).state.challenges == s.challenges;
  }

  /** Repeating `updateProgress(id, p)` pays nothing and changes nothing the
      second time. */
  lemma UpdateProgressRepeat(s: EngineState, id: string, p: real)
    ensures var first := UpdateProgress(s, id, p);
      UpdateProgress(first.state, id, p) == Outcome(first.state, NoReward)
  {
    var first := UpdateProgress(s, id, p);
    var cs := first.state.challenges;
    forall i | 0 <= i < |cs|
      ensures !Completes(cs[i], id, Min(p, cs[i].maxProgress))
    {
    }
    var second := UpdateProgress(first.state, id, p);
    forall i | 0 <= i < |cs|
      ensures second.state.challenges[i] == cs[i]
    {
      if cs[i].id == id {
        var c := s.challenges[i];
        assert cs[i] == c.(progress := Min(p, c.maxProgress), completed := Min(p, c.maxProgress) >= c.maxProgress);
      }
    }
  }

  /** `completeChallenge` is idempotent: the second call pays nothing and
      changes nothing. */
  lemma CompleteChallengeIdempotent(s: EngineState, id: string)
    ensures var first := CompleteChallenge(s, id);
      CompleteChallenge(first.state, id) == Outcome(first.state, NoReward)
  {
  }

  /** On a well-formed list with distinct ids, completing a challenge is the
      same as reporting progress equal to its target. */
  lemma CompleteIsProgressToTarget(s: EngineState, id: string, k: int)
    requires DistinctChallengeIds(s.challenges) && ChallengesWellFormed(s.challenges)
    requires 0 <= k < |s.challenges| && s.challenges[k].id == id
    ensures CompleteChallenge(s, id) == UpdateProgress(s, id, s.challenges[k].maxProgress)
  {
    var c := s.challenges[k];
    var a := CompleteChallenge(s, id);
    var b := UpdateProgress(s, id, c.maxProgress);
    CompleteChallengeUnique(s, id, k);
    UpdateProgressUnique(s, id, c.maxProgress, k);
    forall i | 0 <= i < |s.challenges|
      ensures a.state.challenges[i] == b.state.challenges[i]
    {
      if i != k {
        if i < k { assert s.challenges[i].id != s.challenges[k].id; }
        else { assert s.challenges[k].id != s.challenges[i].id; }
      }
    }
  }

  /** What the code does, as opposed to a high-water mark: a later call with
      a lower value re-opens a completed challenge, and reaching the target
      again pays its rewards a second time. */
  lemma UpdateProgressCanReopen(s: EngineState, id: string, k: int, q: real)
    requires DistinctChallengeIds(s.challenges) && 0 <= k < |s.challenges| && s.challenges[k].id == id
    requires s.challenges[k].completed && q < s.challenges[k].maxProgress
    ensures var lowered := UpdateProgress(s, id, q);
      var c := s.challenges[k];
      !lowered.state.challenges[k].completed &&
      UpdateProgress(lowered.state, id, c.maxProgress).reward.xp == c.xpReward &&
      UpdateProgress(lowered.state, id, c.maxProgress).reward.coins == c.coinReward &&
      UpdateProgress(lowered.state, id, c.maxProgress).reward.streakInc == 1
  {
    var lowered := UpdateProgress(s, id, q);
    var c := s.challenges[k];
    assert forall i :: 0 <= i < |s.challenges| ==> lowered.state.challenges[i].id == s.challenges[i].id;
    assert DistinctChallengeIds(lowered.state.challenges);
    UpdateProgressUnique(lowered.state, id, c.maxProgress, k);
  }

  // ---------------------------------------------------------------------
  // Invariants the engine keeps
  // ---------------------------------------------------------------------

  /** Badges only move forward through the reward fold when every count it
      hands to the badge check is non-negative. */
  lemma {:induction false} AwardKeepsBadges(cs: seq<Challenge>, id: string, next: Challenge -> real,
                                            badges: seq<Badge>, acc: Reward)
    requires BadgesWellFormed(badges)
    requires forall i :: 0 <= i < |cs| && Completes(cs[i], id, next(cs[i])) ==> next(cs[i]) >= 0.0
    ensures var r := Award(cs, id, next, badges, acc).0;
      |r| == |badges| && BadgesWellFormed(r) &&
      forall i :: 0 <= i < |badges| ==>
        SameBadgeDefinition(badges[i], r[i]) && badges[i].progress <= r[i].progress &&
        (badges[i].unlocked ==> r[i].unlocked)
    decreases |cs|
  {
    if cs != [] {
      var rest := cs[1..];
      assert forall j :: 0 <= j < |rest| ==> rest[j] == cs[j + 1];
      var c := cs[0];
      if Completes(c, id, next(c)) {
        var u := CheckBadgeUnlocks(badges, c.activityType, next(c));
        CheckBadgeUnlocksMonotone(badges, c.activityType, next(c));
        AwardKeepsBadges(rest, id, next, u.badges, Reward(c.xpReward, c.coinReward, 1, u.unlocked));
      } else {
        AwardKeepsBadges(rest, id, next, badges, acc);
      }
    }
  }

  /** `updateProgress` keeps both lists well formed; badge progress never
      drops and an unlocked badge stays unlocked. */
  lemma UpdateProgressKeepsWellFormed(s: EngineState, id: string, p: real)
    requires ChallengesWellFormed(s.challenges) && BadgesWellFormed(s.badges)
    ensures var r := UpdateProgress(s, id, p).state;
      ChallengesWellFormed(r.challenges) && BadgesWellFormed(r.badges) &&
      |r.badges| == |s.badges| &&
      forall i :: 0 <= i < |s.badges| ==>
        s.badges[i].progress <= r.badges[i].progress && (s.badges[i].unlocked ==> r.badges[i].unlocked)
  {
    var next := (c: Challenge) => Min(p, c.maxProgress);
    AwardKeepsBadges(s.challenges, id, next, s.badges, NoReward);
  }

  /** `completeChallenge` keeps both lists well formed; badge progress never
      drops, an unlocked badge stays unlocked, a completed challenge stays completed. */
  lemma CompleteChallengeKeepsWellFormed(s: EngineState, id: string)
    requires ChallengesWellFormed(s.challenges) && BadgesWellFormed(s.badges)
    ensures var r := CompleteChallenge(s, id).state;
      ChallengesWellFormed(r.challenges) && BadgesWellFormed(r.badges) &&
      |r.badges| == |s.badges| &&
      (forall i :: 0 <= i < |s.badges| ==>
        s.badges[i].progress <= r.badges[i].progress && (s.badges[i].unlocked ==> r.badges[i].unlocked)) &&
      forall i :: 0 <= i < |s.challenges| && s.challenges[i].completed ==> r.challenges[i].completed
  {
    var next := (c: Challenge) => c.maxProgress;
    AwardKeepsBadges(s.challenges, id, next, s.badges, NoReward);
  }
}

=== FILE: json.dfy ===
/** JSON values as the browser store holds them, with the JavaScript notion
    of truthiness the application applies to loaded values. */
module Json {
  import opened Common

  /** A parsed JSON value. Objects are maps: the application only ever looks
      fields up by name. Numbers are mathematical reals (no NaN, no infinity). */
  datatype Json =
    | JNull
    | JBool(b: bool)
    | JNum(n: real)
    | JStr(s: string)
    | JArr(items: seq<Json>)
    | JObj(fields: map<string, Json>)

  /** JavaScript truthiness of a parsed value: `null`, `false`, `0` and the
      empty string are falsy; arrays and objects are always truthy. */
  predicate Truthy(j: Json) {
    match j
    case JNull => false
    case JBool(b) => b
    case JNum(n) => n != 0.0
    case JStr(s) => s != ""
    case JArr(_) => true
    case JObj(_) => true
  }

  /** `x || y` on parsed values: the left operand when it is truthy, else the right. */
  function Or(x: Json, y: Json): (r: Json)
    ensures Truthy(x) ==> r == x
    ensures !Truthy(x) ==> r == y
  {
    if Truthy(x) then x else y
  }

  // ---------------------------------------------------------------------
  // Objects built from a fixed set of named fields
  // ---------------------------------------------------------------------

  /** No two fields share a name. */
  ghost predicate NamesDistinct<F(!new)>(name: F -> string) {
    forall f, g :: name(f) == name(g) ==> f == g
  }

  /** The object holding, under its name, every field of `fields` that has a value. */
  function Object<F(!new)>(fields: set<F>, name: F -> string, value: F -> Option<Json>): (m: map<string, Json>)
    requires NamesDistinct(name)
  {
    map f | f in fields && value(f).Some? :: name(f) := value(f).value
  }

  /** A field of an object reads back as the value it was given; an absent
      value leaves no entry behind. */
  lemma ObjectLookup<F(!new)>(fields: set<F>, name: F -> string, value: F -> Option<Json>, f: F)
    requires NamesDistinct(name) && f in fields
    ensures name(f) in Object(fields, name, value) <==> value(f).Some?
    ensures value(f).Some? ==> Object(fields, name, value)[name(f)] == value(f).value
  {
    var m := Object(fields, name, value);
    if name(f) in m {
      var g :| g in fields && value(g).Some? && name(g) == name(f);
    }
  }

  function OptStr(v: Option<string>): Option<Json> {
    if v.Some? then Some(JStr(v.value)) else None
  }

  function OptInt(v: Option<int>): Option<Json> {
    if v.Some? then Some(NumOf(v.value)) else None
  }

  function OptBool(v: Option<bool>): Option<Json> {
    if v.Some? then Some(JBool(v.value)) else None
  }

  // ---------------------------------------------------------------------
  // Reading fields back
  // ---------------------------------------------------------------------

  function NumOf(i: int): Json {
    JNum(i as real)
  }

  /** The integer a number value denotes, when it is integral. */
  function IntOf(j: Json): Option<int> {
    if j.JNum? && j.n.Floor as real == j.n then Some(j.n.Floor) else None
  }

  /** An optional field reads back: absent, or present with the expected shape. */
  predicate OptStrOk(m: map<string, Json>, k: string) { k !in m || m[k].JStr? }
  predicate OptIntOk(m: map<string, Json>, k: string) { k !in m || IntOf(m[k]).Some? }
  predicate OptBoolOk(m: map<string, Json>, k: string) { k !in m || m[k].JBool? }

  function GetStr(m: map<string, Json>, k: string): (r: Option<string>)
    ensures OptStrOk(m, k) ==> OptStr(r) == (if k in m then Some(m[k]) else None)
  {
    if k in m && m[k].JStr? then Some(m[k].s) else None
  }

  function GetInt(m: map<string, Json>, k: string): (r: Option<int>)
    ensures r.Some? ==> k in m && m[k] == NumOf(r.value)
    ensures OptIntOk(m, k) ==> OptInt(r) == (if k in m then Some(m[k]) else None)
  {
    if k in m then IntOf(m[k]) else None
  }

  function GetBool(m: map<string, Json>, k: string): (r: Option<bool>)
    ensures OptBoolOk(m, k) ==> OptBool(r) == (if k in m then Some(m[k]) else None)
  {
    if k in m && m[k].JBool? then Some(m[k].b) else None
  }

  /** An entry written for an optional field reads back as the field. */
  lemma ReadStr(m: map<string, Json>, k: string, v: Option<string>)
    requires k in m <==> v.Some?
    requires v.Some? ==> m[k] == JStr(v.value)
    ensures OptStrOk(m, k) && GetStr(m, k) == v
  {
  }

  lemma ReadInt(m: map<string, Json>, k: string, v: Option<int>)
    requires k in m <==> v.Some?
    requires v.Some? ==> m[k] == NumOf(v.value)
    ensures OptIntOk(m, k) && GetInt(m, k) == v
  {
    if v.Some? {
      assert (v.value as real).Floor == v.value;
    }
  }

  lemma ReadBool(m: map<string, Json>, k: string, v: Option<bool>)
    requires k in m <==> v.Some?
    requires v.Some? ==> m[k] == JBool(v.value)
    ensures OptBoolOk(m, k) && GetBool(m, k) == v
  {
  }
}

=== FILE: onboarding.dfy ===
/** The onboarding survey: a small profile form whose submission completes
    the profile and pays a welcome bonus, and whose skip link (when the
    survey is not mandatory) marks onboarding done without the bonus. */
module Onboarding {
  import opened Common
  import opened Domain
  import opened Auth
  import Seqs

  /** The form's six text inputs. */
  datatype SurveyForm = SurveyForm(
    name: string, gender: string, mobile: string, state: string, district: string, achievements: string)

  /** The welcome bonus paid on submission. */
  const WelcomeCoins := 100
  const WelcomeXp := 50

  /** The form as first shown: the signed-in user's name (or empty), all
      other inputs empty. */
  function InitialForm(user: Option<UserProfile>): (f: SurveyForm)
    ensures user.Some? ==> f.name == user.value.name
    ensures user.None? ==> f.name == ""
    ensures f.gender == "" && f.mobile == "" && f.state == "" && f.district == "" && f.achievements == ""
  {
    SurveyForm(if user.Some? then user.value.name else "", "", "", "", "", "")
  }

  /** Choosing a state clears the district, which belonged to the old state. */
  function ChangeState(f: SurveyForm, state: string): (r: SurveyForm)
    ensures r.state == state && r.district == ""
    ensures r.name == f.name && r.gender == f.gender && r.mobile == f.mobile && r.achievements == f.achievements
  {
    f.(state := state, district := "")
  }

  /** A state of the country with its districts. */
  datatype StateEntry = StateEntry(name: string, districts: seq<string>)

  /** The districts offered for the chosen state: those of the first table
      entry with that name, or none. */
  function Districts(table: seq<StateEntry>, state: string): (r: seq<string>)
    ensures (forall i :: 0 <= i < |table| ==> table[i].name != state) ==> r == []
    ensures forall i ::
      (0 <= i < |table| && table[i].name == state && forall j :: 0 <= j < i ==> table[j].name != state) ==>
        r == table[i].districts
  {
    var found := Seqs.Find(table, (e: StateEntry) => e.name == state);
    Seqs.FindFirst(table, (e: StateEntry) => e.name == state);
    if found.Some? then found.value.districts else []
  }

  /** The update a submission sends: the form's inputs, both completion
      flags set, and the bonus added to the current counts (missing counts
      read as zero). */
  function SubmitPatch(u: UserProfile, f: SurveyForm): (p: UserPatch)
    ensures p.name == Some(f.name) && p.gender == Some(f.gender) && p.mobile == Some(f.mobile)
    ensures p.state == Some(f.state) && p.district == Some(f.district) && p.achievements == Some(f.achievements)
    ensures p.onboardingComplete == Some(true) && p.profileComplete == Some(true)
    ensures p.coins == Some(u.coins.GetOr(0) + WelcomeCoins) && p.xp == Some(u.xp.GetOr(0) + WelcomeXp)
    ensures p.id == None && p.email == None && p.role == None && p.avatar == None
    ensures p.level == None && p.streak == None && p.bio == None && p.expertise == None
  {
    EmptyPatch.(name := Some(f.name), gender := Some(f.gender), mobile := Some(f.mobile),
      state := Some(f.state), district := Some(f.district), achievements := Some(f.achievements),
      onboardingComplete := Some(true), profileComplete := Some(true),
      coins := Some(u.coins.GetOr(0) + WelcomeCoins), xp := Some(u.xp.GetOr(0) + WelcomeXp))
  }

  /** Submitting the form: an update of the signed-in user, if there is one. */
  function Submit(s: AuthState, f: SurveyForm, roll: int): (r: AuthState)
    requires 0 <= roll < 6
    ensures s.user.None? ==> r == s
    ensures s.user.Some? ==> r == UpdateUser(s, SubmitPatch(s.user.value, f), roll)
  {
    if s.user.Some? then UpdateUser(s, SubmitPatch(s.user.value, f), roll) else s
  }

  /** After a submission the profile holds the form's answers, is marked
      complete, and has gained exactly the welcome bonus; level and streak
      are untouched. */
  lemma SubmitCompletesProfile(s: AuthState, f: SurveyForm, roll: int)
    requires 0 <= roll < 6 && s.user.Some?
    ensures var u, v := s.user.value, Submit(s, f, roll).user.value;
      v.name == f.name && v.gender == Some(f.gender) && v.mobile == Some(f.mobile) &&
      v.state == Some(f.state) && v.district == Some(f.district) && v.achievements == Some(f.achievements) &&
      v.onboardingComplete == Some(true) && v.profileComplete == Some(true) &&
      v.coins == Some(u.coins.GetOr(0) + 100) && v.xp == Some(u.xp.GetOr(0) + 50) &&
      v.level == u.level && v.streak == u.streak && v.id == u.id && v.email == u.email
  {
  }

  /** The welcome bonus is announced exactly when the user already had a
      non-zero coin count that does not become zero; otherwise the pending
      notification is left as it was. */
  lemma SubmitNotification(s: AuthState, f: SurveyForm, roll: int)
    requires 0 <= roll < 6 && s.user.Some?
    ensures var c := s.user.value.coins;
      var n := Submit(s, f, roll).coinNotification;
      (c.Some? && c.value != 0 && c.value != -WelcomeCoins ==> n == Some(WelcomeCoins)) &&
      (!(c.Some? && c.value != 0 && c.value != -WelcomeCoins) ==> n == s.coinNotification)
  {
  }

  /** Choosing a gender on a profile that still shows a placeholder or a
      generated avatar gives it the default avatar for that gender. */
  lemma SubmitGenderAvatar(s: AuthState, f: SurveyForm, roll: int)
    requires 0 <= roll < 6 && s.user.Some? && Replaceable(s.user.value.avatar)
    ensures f.gender == "male" ==> Submit(s, f, roll).user.value.avatar == Some(MaleAvatar)
    ensures f.gender == "female" ==> Submit(s, f, roll).user.value.avatar == Some(FemaleAvatar)
    ensures f.gender == "" ==> Submit(s, f, roll).user.value.avatar == s.user.value.avatar
  {
    var u := s.user.value;
    var p := SubmitPatch(u, f);
    assert f.gender == "male" ==> p.gender == Some("male");
    assert f.gender == "female" ==> p.gender == Some("female");
  }

  // ---------------------------------------------------------------------
  // Skipping
  // ---------------------------------------------------------------------

  /** The update a skip sends: onboarding done, profile still incomplete. */
  const SkipPatch := EmptyPatch.(onboardingComplete := Some(true), profileComplete := Some(false))

  /** Skipping: ignored for a mandatory survey or without a signed-in user. */
  function Skip(s: AuthState, mandatory: bool, roll: int): (r: AuthState)
    requires 0 <= roll < 6
    ensures mandatory || s.user.None? ==> r == s
    ensures !mandatory && s.user.Some? ==> r == UpdateUser(s, SkipPatch, roll)
  {
    if s.user.Some? && !mandatory then UpdateUser(s, SkipPatch, roll) else s
  }

  /** A skip marks onboarding done and the profile incomplete, pays nothing,
      raises no notification and changes no other field. */
  lemma SkipPaysNothing(s: AuthState, roll: int)
    requires 0 <= roll < 6 && s.user.Some?
    ensures var u, v := s.user.value, Skip(s, false, roll).user.value;
      v == u.(onboardingComplete := Some(true), profileComplete := Some(false))
    ensures Skip(s, false, roll).coinNotification == s.coinNotification
  {
  }
}

=== FILE: seqs.dfy ===
/** `Array.prototype.filter`, `find` and counting over sequences, with the
    properties the list views of the application rely on. */
module Seqs {
  import opened Common

  /** `s.filter(p)`. */
  function Filter<T>(s: seq<T>, p: T -> bool): (r: seq<T>)
    ensures |r| <= |s|
    ensures forall x :: x in r ==> x in s && p(x)
  {
    if s == [] then []
    else if p(s[0]) then [s[0]] + Filter(s[1..], p)
    else Filter(s[1..], p)
  }

  /** `s.filter(p).length`. */
  function Count<T>(s: seq<T>, p: T -> bool): nat
  {
    |Filter(s, p)|
  }

  /** `r` is obtained from `s` by deleting elements, keeping the order of the rest. */
  predicate IsSubsequence<T(==)>(r: seq<T>, s: seq<T>)
    decreases |s|
  {
    if r == [] then true
    else if s == [] then false
    else (r[0] == s[0] && IsSubsequence(r[1..], s[1..])) || IsSubsequence(r, s[1..])
  }

  /** What the filter keeps, independently of how it walks the list: an
      order-preserving subsequence holding every satisfying element as often
      as the input does, and nothing else. */
  lemma {:induction false} FilterSpec<T>(s: seq<T>, p: T -> bool)
    ensures IsSubsequence(Filter(s, p), s)
    ensures forall x :: multiset(Filter(s, p))[x] == if p(x) then multiset(s)[x] else 0
    decreases |s|
  {
    if s != [] {
      FilterSpec(s[1..], p);
      assert s == [s[0]] + s[1..];
      assert multiset(s) == multiset{s[0]} + multiset(s[1..]);
      if p(s[0]) {
        var r := Filter(s, p);
        assert r == [s[0]] + Filter(s[1..], p);
        assert r[1..] == Filter(s[1..], p);
      } else {
        SubsequenceOfTail(Filter(s, p), s);
      }
    }
  }

  lemma {:induction false} SubsequenceOfTail<T>(r: seq<T>, s: seq<T>)
    requires s != [] && IsSubsequence(r, s[1..])
    ensures IsSubsequence(r, s)
  {
  }

  /** An element survives the filter exactly when it is in the input and
      satisfies the predicate. */
  lemma FilterMembership<T>(s: seq<T>, p: T -> bool)
    ensures forall x :: x in Filter(s, p) <==> x in s && p(x)
  {
    FilterSpec(s, p);
    forall x | x in s && p(x)
      ensures x in Filter(s, p)
    {
      assert multiset(s)[x] > 0;
      assert multiset(Filter(s, p))[x] > 0;
    }
  }

  /** Filtering with a predicate that holds everywhere changes nothing. */
  lemma {:induction false} FilterAll<T>(s: seq<T>, p: T -> bool)
    requires forall x :: x in s ==> p(x)
    ensures Filter(s, p) == s
    decreases |s|
  {
    if s != [] {
      assert s[0] in s;
      assert forall x :: x in s[1..] ==> x in s;
      FilterAll(s[1..], p);
    }
  }

  /** Two predicates that agree on the elements filter alike. */
  lemma {:induction false} FilterCongruent<T>(s: seq<T>, p: T -> bool, q: T -> bool)
    requires forall x :: x in s ==> p(x) == q(x)
    ensures Filter(s, p) == Filter(s, q)
    decreases |s|
  {
    if s != [] {
      assert s[0] in s;
      assert forall x :: x in s[1..] ==> x in s;
      FilterCongruent(s[1..], p, q);
    }
  }

  /** Filtering distributes over concatenation. */
  lemma {:induction false} FilterAppend<T>(a: seq<T>, b: seq<T>, p: T -> bool)
    ensures Filter(a + b, p) == Filter(a, p) + Filter(b, p)
    decreases |a|
  {
    if a != [] {
      assert (a + b)[1..] == a[1..] + b;
      FilterAppend(a[1..], b, p);
    } else {
      assert a + b == b;
    }
  }

  /** `s.find(p)`. */
  function Find<T>(s: seq<T>, p: T -> bool): (r: Option<T>)
    ensures r.Some? ==> r.value in s && p(r.value)
    ensures r.None? ==> forall x :: x in s ==> !p(x)
  {
    if s == [] then None
    else if p(s[0]) then Some(s[0])
    else Find(s[1..], p)
  }

  /** The element `find` returns is the first that satisfies the predicate. */
  lemma {:induction false} FindFirst<T>(s: seq<T>, p: T -> bool)
    ensures Find(s, p).Some? <==> exists i :: 0 <= i < |s| && p(s[i])
    ensures Find(s, p).Some? ==>
      exists i :: 0 <= i < |s| && s[i] == Find(s, p).value && p(s[i]) &&
        forall j :: 0 <= j < i ==> !p(s[j])
    decreases |s|
  {
    if s != [] && !p(s[0]) {
      FindFirst(s[1..], p);
      if Find(s, p).Some? {
        var i :| 0 <= i < |s[1..]| && s[1..][i] == Find(s, p).value && p(s[1..][i]) &&
          forall j :: 0 <= j < i ==> !p(s[1..][j]);
        assert s[i + 1] == Find(s, p).value;
        assert forall j :: 0 <= j < i + 1 ==> !p(s[j]) by {
          forall j | 0 <= j < i + 1 ensures !p(s[j]) {
            if j > 0 { assert s[j] == s[1..][j - 1]; }
          }
        }
      }
      if exists i :: 0 <= i < |s| && p(s[i]) {
        var i :| 0 <= i < |s| && p(s[i]);
        assert s[1..][i - 1] == s[i];
      }
    } else if s != [] {
      assert 0 <= 0 < |s| && s[0] == Find(s, p).value && p(s[0]);
    }
  }
}

=== FILE: storage.dfy ===
/** The browser key-value store behind the application, as an abstract map
    from keys to parsed JSON values, and the typed save/load helpers over it.

    Every save and load goes through one guarded pair of helpers that swallow
    failures: a store that refuses access (`available == false`) ignores
    writes and answers every read with `null`. */
module Storage {
  import opened Common
  import opened Domain
  import opened Json
  import opened Codec

  datatype Store = Store(entries: map<string, Json>, available: bool)

  const UserKey := "talent_track_user"
  const BadgesKey := "talent_track_badges"
  const ChallengesKey := "talent_track_challenges"
  const TutorialKey := "talent_track_tutorial"

  /** The keys the storage helpers own, in declaration order. */
  const StorageKeys: seq<string> := [UserKey, BadgesKey, ChallengesKey, TutorialKey]

  /** The registry of every signed-up account, written directly by the
      session manager and not one of the helpers' keys. */
  const AllUsersKey := "talent_track_all_users"

  lemma StorageKeysDistinct()
    ensures forall i, j :: 0 <= i < j < |StorageKeys| ==> StorageKeys[i] != StorageKeys[j]
    ensures AllUsersKey !in StorageKeys
  {
  }

  // ---------------------------------------------------------------------
  // The guarded primitives
  // ---------------------------------------------------------------------

  /** `saveToStorage(key, data)`: a failed write is ignored. */
  function SaveToStorage(st: Store, key: string, data: Json): (r: Store)
    ensures r.available == st.available
    ensures st.available ==> key in r.entries && r.entries[key] == data
    ensures forall k :: k != key ==>
      (k in r.entries <==> k in st.entries) && (k in st.entries ==> r.entries[k] == st.entries[k])
    ensures !st.available ==> r == st
  {
    if st.available then st.(entries := st.entries[key := data]) else st
  }

  /** `loadFromStorage(key)`: the stored value, or `null` when the key is
      absent or the read fails. */
  function LoadFromStorage(st: Store, key: string): (r: Json)
    ensures !st.available || key !in st.entries ==> r == JNull
    ensures st.available && key in st.entries ==> r == st.entries[key]
  {
    if st.available && key in st.entries then st.entries[key] else JNull
  }

  /** A load right after a save of the same key returns what was saved. */
  lemma LoadAfterSave(st: Store, key: string, data: Json)
    requires st.available
    ensures LoadFromStorage(SaveToStorage(st, key, data), key) == data
  {
  }

  /** A save does not disturb the load of any other key, whether or not it succeeded. */
  lemma SaveKeepsOtherKeys(st: Store, key: string, other: string, data: Json)
    requires key != other
    ensures LoadFromStorage(SaveToStorage(st, key, data), other) == LoadFromStorage(st, other)
  {
  }

  // ---------------------------------------------------------------------
  // Typed helpers
  // ---------------------------------------------------------------------

  function SaveUser(st: Store, u: UserProfile): Store {
    SaveToStorage(st, UserKey, EncodeUser(u))
  }

  /** `loadUser()`: `None` stands for the `null` answer. */
  function LoadUser(st: Store): (r: Option<UserProfile>)
    ensures LoadFromStorage(st, UserKey) == JNull ==> r == None
  {
    DecodeUser(LoadFromStorage(st, UserKey))
  }

  function SaveBadges(st: Store, bs: seq<Badge>): Store {
    SaveToStorage(st, BadgesKey, EncodeBadges(bs))
  }

  function LoadBadges(st: Store): (r: Option<seq<Badge>>)
    ensures LoadFromStorage(st, BadgesKey) == JNull ==> r == None
  {
    DecodeBadges(LoadFromStorage(st, BadgesKey))
  }

  function SaveChallenges(st: Store, cs: seq<Challenge>): Store {
    SaveToStorage(st, ChallengesKey, EncodeChallenges(cs))
  }

  function LoadChallenges(st: Store): (r: Option<seq<Challenge>>)
    ensures LoadFromStorage(st, ChallengesKey) == JNull ==> r == None
  {
    DecodeChallenges(LoadFromStorage(st, ChallengesKey))
  }

  function SaveTutorialComplete(st: Store, complete: bool): Store {
    SaveToStorage(st, TutorialKey, JBool(complete))
  }

  /** `loadTutorialComplete()`: the stored value when it is truthy, else `false`. */
  function LoadTutorialComplete(st: Store): (r: Json)
    ensures TutorialKey !in st.entries || !st.available ==> r == JBool(false)
    ensures Truthy(r) <==> Truthy(LoadFromStorage(st, TutorialKey))
  {
    Or(LoadFromStorage(st, TutorialKey), JBool(false))
  }

  /** Each typed load after the matching save returns the saved value. */
  lemma TypedRoundTrips(st: Store, u: UserProfile, bs: seq<Badge>, cs: seq<Challenge>, complete: bool)
    requires st.available
    ensures LoadUser(SaveUser(st, u)) == Some(u)
    ensures LoadBadges(SaveBadges(st, bs)) == Some(bs)
    ensures LoadChallenges(SaveChallenges(st, cs)) == Some(cs)
    ensures LoadTutorialComplete(SaveTutorialComplete(st, complete)) == JBool(complete)
  {
    UserRoundTrip(u);
    BadgesRoundTrip(bs);
    ChallengesRoundTrip(cs);
  }

  /** With the store unavailable, every typed save is ignored and every
      typed load answers as for an empty store. */
  lemma UnavailableStore(st: Store, u: UserProfile, bs: seq<Badge>, cs: seq<Challenge>, complete: bool)
    requires !st.available
    ensures SaveUser(st, u) == st && SaveBadges(st, bs) == st
    ensures SaveChallenges(st, cs) == st && SaveTutorialComplete(st, complete) == st
    ensures LoadUser(st) == None && LoadBadges(st) == None && LoadChallenges(st) == None
    ensures LoadTutorialComplete(st) == JBool(false)
  {
  }

  /** Saving one record leaves the loads of the other three unchanged. */
  lemma TypedSavesIndependent(st: Store, u: UserProfile, bs: seq<Badge>, cs: seq<Challenge>, complete: bool)
    ensures LoadBadges(SaveUser(st, u)) == LoadBadges(st)
    ensures LoadChallenges(SaveUser(st, u)) == LoadChallenges(st)
    ensures LoadTutorialComplete(SaveUser(st, u)) == LoadTutorialComplete(st)
    ensures LoadUser(SaveBadges(st, bs)) == LoadUser(st)
    ensures LoadChallenges(SaveBadges(st, bs)) == LoadChallenges(st)
    ensures LoadTutorialComplete(SaveBadges(st, bs)) == LoadTutorialComplete(st)
    ensures LoadUser(SaveChallenges(st, cs)) == LoadUser(st)
    ensures LoadBadges(SaveChallenges(st, cs)) == LoadBadges(st)
    ensures LoadTutorialComplete(SaveChallenges(st, cs)) == LoadTutorialComplete(st)
    ensures LoadUser(SaveTutorialComplete(st, complete)) == LoadUser(st)
    ensures LoadBadges(SaveTutorialComplete(st, complete)) == LoadBadges(st)
    ensures LoadChallenges(SaveTutorialComplete(st, complete)) == LoadChallenges(st)
  {
    StorageKeysDistinct();
    forall i, j | 0 <= i < |StorageKeys| && 0 <= j < |StorageKeys| && i != j
      ensures forall d ::
        LoadFromStorage(SaveToStorage(st, StorageKeys[i], d), StorageKeys[j]) == LoadFromStorage(st, StorageKeys[j])
    {
      forall d {
        SaveKeepsOtherKeys(st, StorageKeys[i], StorageKeys[j], d);
      }
    }
    assert UserKey == StorageKeys[0] && BadgesKey == StorageKeys[1];
    assert ChallengesKey == StorageKeys[2] && TutorialKey == StorageKeys[3];
  }

  // ---------------------------------------------------------------------
  // Clearing
  // ---------------------------------------------------------------------

  /** `clearStorage()`: remove the helpers' four keys and nothing else. */
  function ClearStorage(st: Store): (r: Store)
    ensures r.available == st.available
    ensures st.available ==> forall k :: k in r.entries <==> k in st.entries && k !in StorageKeys
    ensures forall k :: k in r.entries ==> k in st.entries && r.entries[k] == st.entries[k]
    ensures !st.available ==> r == st
  {
    if st.available then st.(entries := st.entries - set k | k in StorageKeys) else st
  }

  /** Clearing leaves the account registry in place, and afterwards every
      typed load answers as for a fresh store. */
  lemma ClearKeepsRegistry(st: Store)
    requires st.available
    ensures AllUsersKey in st.entries ==>
      AllUsersKey in ClearStorage(st).entries &&
      ClearStorage(st).entries[AllUsersKey] == st.entries[AllUsersKey]
    ensures LoadUser(ClearStorage(st)) == None && LoadBadges(ClearStorage(st)) == None
    ensures LoadChallenges(ClearStorage(st)) == None
    ensures LoadTutorialComplete(ClearStorage(st)) == JBool(false)
  {
    StorageKeysDistinct();
    assert UserKey in StorageKeys && BadgesKey in StorageKeys;
    assert ChallengesKey in StorageKeys && TutorialKey in StorageKeys;
  }
}

=== FILE: tutorial.dfy ===
/** The five-step tutorial overlay: a step counter that moves forward and
    back, a "visit this section" shortcut on every step but the first, and a
    completion signal handed to the parent. */
module Tutorial {
  import opened Common

  /** Number of tutorial steps; the counter starts at 0. */
  const StepCount := 5
  const LastStep := StepCount - 1

  predicate ValidStep(step: int) {
    0 <= step < StepCount
  }

  /** The page a step's "visit" shortcut opens; the welcome step has none. */
  function Action(step: int): (r: Option<string>)
    requires ValidStep(step)
    ensures r.None? <==> step == 0
  {
    if step == 0 then None
    else if step == 1 then Some("/athlete/profile")
    else if step == 2 then Some("/athlete/challenges")
    else if step == 3 then Some("/athlete/training")
    else Some("/athlete/roadmap")
  }

  /** The user's inputs: the next and previous buttons, the visit shortcut,
      and the skip link. */
  datatype Event = Next | Previous | Visit | Skip

  /** What the overlay asks of its parent after an input. */
  datatype Signal = Stay | Complete | NavigateThenComplete(path: string)

  datatype Effect = Effect(step: int, signal: Signal)

  /** One input. Next past the last step completes the tutorial without
      moving the counter; Previous on the first step does nothing; Visit on
      a step without an action does nothing. */
  function Handle(step: int, e: Event): (r: Effect)
    requires ValidStep(step)
    ensures ValidStep(r.step)
    ensures r.signal == Complete <==> e == Skip || (e == Next && step == LastStep)
    ensures r.signal.NavigateThenComplete? <==> e == Visit && step > 0
    ensures r.signal.NavigateThenComplete? ==> Action(step) == Some(r.signal.path)
    ensures r.step != step ==>
      (e == Next && step < LastStep && r.step == step + 1) ||
      (e == Previous && step > 0 && r.step == step - 1)
  {
    match e
    case Next => if step < LastStep then Effect(step + 1, Stay) else Effect(step, Complete)
    case Previous => if step > 0 then Effect(step - 1, Stay) else Effect(step, Stay)
    case Visit =>
      (match Action(step)
       case Some(path) => Effect(step, NavigateThenComplete(path))
       case None => Effect(step, Stay))
    case Skip => Effect(step, Complete)
  }

  /** Next and Previous undo each other wherever both move the counter. */
  lemma NextPreviousInverse(step: int)
    requires ValidStep(step)
    ensures step < LastStep ==> Handle(Handle(step, Next).step, Previous) == Effect(step, Stay)
    ensures step > 0 ==> Handle(Handle(step, Previous).step, Next) == Effect(step, Stay)
  {
  }

  /** A sequence of inputs from `step`, stopping at the first one that
      signals the parent (the parent then closes the overlay). */
  function Run(step: int, events: seq<Event>): (r: Effect)
    requires ValidStep(step)
    decreases |events|
  {
    if events == [] then Effect(step, Stay)
    else
      var h := Handle(step, events[0]);
      if h.signal != Stay then h else Run(h.step, events[1..])
  }

  /** Whatever the inputs, the counter never leaves the step range, so the
      overlay always has a step to show. */
  lemma {:induction false} RunStaysInRange(step: int, events: seq<Event>)
    requires ValidStep(step)
    ensures ValidStep(Run(step, events).step)
    decreases |events|
  {
    if events != [] {
      var h := Handle(step, events[0]);
      if h.signal == Stay {
        RunStaysInRange(h.step, events[1..]);
      }
    }
  }

  /** `n` presses of Next. */
  function Nexts(n: nat): (r: seq<Event>)
    ensures |r| == n && forall i :: 0 <= i < n ==> r[i] == Next
  {
    if n == 0 then [] else [Next] + Nexts(n - 1)
  }

  /** Pressing Next from any step reaches the completion signal after exactly
      `StepCount - step` presses, and not earlier. */
  lemma {:induction false} NextsComplete(step: int, n: nat)
    requires ValidStep(step)
    ensures n < StepCount - step ==> Run(step, Nexts(n)) == Effect(step + n, Stay)
    ensures n >= StepCount - step ==> Run(step, Nexts(n)) == Effect(LastStep, Complete)
    decreases n
  {
    if n > 0 {
      var evs := Nexts(n);
      assert evs[1..] == Nexts(n - 1);
      if step < LastStep {
        NextsComplete(step + 1, n - 1);
      }
    }
  }

  // ---------------------------------------------------------------------
  // Progress indicator
  // ---------------------------------------------------------------------

  datatype Dot = Active | Done | Pending

  /** The colour of dot `index` while step `current` is shown. */
  function Indicator(index: int, current: int): Dot {
    if index == current then Active else if index < current then Done else Pending
  }

  function Dots(current: int): (r: seq<Dot>)
    ensures |r| == StepCount
    ensures forall i :: 0 <= i < StepCount ==> r[i] == Indicator(i, current)
  {
    seq(StepCount, i => Indicator(i, current))
  }

  function DoneCount(dots: seq<Dot>): nat {
    if dots == [] then 0 else (if dots[0] == Done then 1 else 0) + DoneCount(dots[1..])
  }

  /** Exactly one dot is active, and it is the current step's. */
  lemma OneActiveDot(current: int)
    requires ValidStep(current)
    ensures Dots(current)[current] == Active
    ensures forall i :: 0 <= i < StepCount && Dots(current)[i] == Active ==> i == current
  {
  }

  /** The steps already seen are the dots shown as done. */
  lemma {:induction false} DoneDotsCount(current: int)
    requires ValidStep(current)
    ensures DoneCount(Dots(current)) == current
  {
    DonePrefix(Dots(current), current, 0);
  }

  lemma {:induction false} DonePrefix(dots: seq<Dot>, current: int, from: nat)
    requires 0 <= current
    requires forall i :: 0 <= i < |dots| ==> dots[i] == Indicator(from + i, current)
    ensures DoneCount(dots) == if current <= from then 0 else if current - from <= |dots| then current - from else |dots|
    decreases |dots|
  {
    if dots != [] {
      var rest := dots[1..];
      assert forall i :: 0 <= i < |rest| ==> rest[i] == dots[i + 1];
      DonePrefix(rest, current, from + 1);
    }
  }
}
